=== FILE: README.md ===
# os2mo-data-import core, modelled in Dafny

This project models the pure logic of the OS2mo data-import integrations and
proves properties about it. It covers:

- **The SD change-sync engine (`ChangeAtSD`).** It turns the employment records
  reported by SD Løn into directory writes: it matches job ids to engagements,
  dispatches on status codes, creates, edits and terminates engagements, creates
  leaves and de-duplicated associations, and recalculates the primary
  engagement over time.
- **The SD employment-id helper `calc_employment_id`.**
- **The MO payload builders** (`MoType._build_payload` and the `build` of every
  `*Type` class) and the LoRa facet and klasse documents of the MED import.
- **The importer's bookkeeping** (`ImportUtility`): the type guards of the
  `import_*` entry points, `build_detail`, `import_org_unit`, `import_klasse`
  and the integration-data handshake `_integration_data`.
- **The AD integration's settings reader and script-template handling.**
- **`multiple_replace`**: one-pass simultaneous string replacement.
- **`set_of_org_units`** of the MED-members report: the descendant closure of
  a named unit.

Python exceptions become `Err(e)` of a `Result` (`Common.Error` names the
exception class). Dicts of JSON-like values become `Json.Json`. Directory reads
and service answers are parameters: `SdChangedAt.Env`, `SdPrimary.Directory`,
and the `search`/`insert` functions of `Utilities`. The SD engine's writes are a
log (`seq<Write>`) threaded through a `State`.

Modules, one per source file, plus shared helpers:

| module | models |
|---|---|
| `Common`, `Json`, `Text`, `Dates` | results and exceptions; JSON values and truthiness; Python string operations; `strptime`/`strftime` on `%Y-%m-%d` and `timedelta(days=1)` |
| `SdRecords` | `_validity`, `engagement_components`, `_find_engagement` |
| `SdChangedAt`, `SdChangedAtLemmas` | `_assert`, `create_association`, `create_new_engagement`, `_terminate_engagement`, `create_leave`, `edit_engagement`, `_update_user_employments`, `update_all_employments` and the properties of the write log |
| `SdPrimary` | `_calculate_rate_and_ids`, `recalculate_primary` |
| `SdCommon` | `calc_employment_id` |
| `MoraDataTypes` | `mora_data_types.py` |
| `Utilities` | `utilities.py` |
| `MedPayloads` | `med/payloads.py` |
| `AdSettings` | `read_ad_conf_settings.py` |
| `ExecuteAdScript` | `execute_ad_script.py` |
| `MultipleReplace` | `multiple_replace.py` |
| `QueryActualState` | `set_of_org_units` |

Where the code and its documentation disagree, the model follows the code,
except for the defects listed under "Findings": for each of those the code as
written is modelled and shown to fail, and the rest of the model uses the
corrected behaviour.

- `recalculate_primary`, corrected, writes an edit for every engagement in
  every sub-interval, whether or not its primary flag changes. As written it
  builds each edit with `self._engagement_payload`, which `ChangeAtSD` does not
  define, so it raises AttributeError before posting anything
  (`SdPrimary.RecalculatePrimaryAsWritten`).
- The open-ended cut is `9999-12-30`, as the code writes it.
- The S/9 consistency loop compares the raw job id, not the padded key.
- `edit_engagement` registers the literal profession name `'emp_name'`.

## Model

| member | source | states |
|---|---|---|
| SdRecords.ToValidity | integrations/sd_changed_at.py:182-191 | the validity starts at the activation date and is open-ended exactly when the deactivation date is the SD marker 9999-12-31 |
| SdRecords.ValidityRoundTrip | integrations/sd_changed_at.py:182-191 | no information is lost: the SD span can be recovered from the validity |
| SdRecords.ValidityOpenEnded | integrations/sd_changed_at.py:185-186 | only the marker date gives an open-ended validity |
| SdRecords.AsListNormalises | integrations/sd_changed_at.py:222-241 | the list normalisation is idempotent and loses nothing: the result is empty exactly for a missing or empty element, a single element is the only entry, and a repeated element keeps exactly its entries |
| SdRecords.EngagementComponents | integrations/sd_changed_at.py:218-244 | each component list holds exactly the statuses, professions, departments and working times of the employment, however many there were |
| SdRecords.MatchKey | integrations/sd_changed_at.py:196-200 | a non-numeric job id is used as it is, and a numeric one becomes a key of at least five characters (its value is kept, by MatchKeyValue) |
| SdRecords.MatchKeyValue | integrations/sd_changed_at.py:196-198 | a numeric job id is looked up under a digit key that denotes the same number |
| SdRecords.MatchKeyNumeric | integrations/sd_changed_at.py:196-198 | two numeric ids meet at the same key exactly when they denote the same number |
| SdRecords.MatchKeyExamples | integrations/sd_changed_at.py:196-200 | "123" and "00123" both become "00123", and a non-numeric "A123" is used as it is |
| SdRecords.LastIndex | integrations/sd_changed_at.py:204-207 | the position of the last engagement stored under the key, or None exactly when no engagement has it |
| SdRecords.FindEngagement | integrations/sd_changed_at.py:193-207 | the result is an engagement stored under the id's match key, or None exactly when there is none |
| SdRecords.FindEngagementScan | integrations/sd_changed_at.py:202-207 | the front-to-back overwriting loop returns the last match, agreeing with FindEngagement |
| SdRecords.FindPaddedExample | integrations/sd_changed_at.py:193-207 | an engagement stored as "00123" is found both from "123" and from "00123" |
| Dates.DayAfter | integrations/sd_changed_at.py:561-562 | the next calendar day, later than the given one; it is missing (Python's OverflowError) only after 9999-12-31 |
| Dates.DayAfterIsNext | integrations/sd_changed_at.py:561-562 | no date lies strictly between a date and its day after |
| Dates.OrdinalOrder | integrations/sd_changed_at.py:176-180 | chronological order agrees with the day-number order that `datetime` arithmetic uses |
| Dates.ParseFormat | integrations/sd_changed_at.py:560-563 | reading back a written date gives the same date |
| Dates.FormatParse | integrations/sd_changed_at.py:560-563 | every text that parses is the canonical text of its date |
| Dates.FormatOrder | integrations/sd_changed_at.py:569 | sorting date texts as strings sorts the dates chronologically |
| Dates.FormatInjective | integrations/sd_changed_at.py:557-569 | different dates have different texts, so the set of cut texts has one entry per date |
| Dates.CompareDates | integrations/sd_changed_at.py:176-180 | a true answer means the second date lies exactly `diff` days after the first; an unparseable text is an error |
| Dates.CompareDatesDayAfter | integrations/sd_changed_at.py:176-180 | with the default difference, the answer is true exactly when the second date is the day after the first |
| Dates.CompareDatesExamples | integrations/sd_changed_at.py:176-180 | 2020-02-29 is followed by 2020-03-01 and not by 2020-03-05 |
| Dates.NoLeapDay2019 | integrations/sd_changed_at.py:177-178 | 2019-02-29 is rejected as a date |
| SdChangedAt.CheckResponseBadRequest | integrations/sd_changed_at.py:66-73 | a 400 answer passes exactly when the no-effect phrase occurs in its text at a position after the first character |
| SdChangedAt.CheckResponseStatus | integrations/sd_changed_at.py:66-73 | 200 and 404 pass, and any status outside 200, 400 and 404 fails |
| SdChangedAt.PostChecked | integrations/sd_changed_at.py:385-386 | a checked write succeeds exactly when its answer passes the response check, and then appends just that write to the log |
| SdChangedAt.PostCreated | integrations/sd_changed_at.py:256-257 | a creating write succeeds exactly when the answer is 201, and then appends just that write |
| SdChangedAt.UpdateProfessions | integrations/sd_changed_at.py:209-216 | afterwards the name is in the job-function cache; a name cached with a non-empty uuid changes nothing, and a name that is missing or cached with an empty uuid is registered once, succeeding exactly when the registration answers 201 |
| SdChangedAt.EditDepartments | integrations/sd_changed_at.py:377-386 | one edit per department, in order, each moving the engagement to that unit for that department's validity |
| SdChangedAt.EditProfessions | integrations/sd_changed_at.py:389-402 | one edit per profession, in order, after the registration of the literal name |
| SdChangedAt.EditWorkingTimes | integrations/sd_changed_at.py:405-413 | one edit per working-time entry, in order, each setting that entry's fraction |
| SdChangedAt.EditEngagementOp | integrations/sd_changed_at.py:366-413 | `edit_engagement` appends exactly its department, profession and working-time writes, and leaves the engagements and associations alone |
| SdChangedAt.CreateAssociationOp | integrations/sd_changed_at.py:259-276 | an existing association with the same unit and validity makes it a no-op; otherwise one association is written, and afterwards one exists |
| SdChangedAt.AssociationIdempotent | integrations/sd_changed_at.py:266-271 | creating the same association twice writes it once |
| SdChangedAt.Chain | integrations/sd_changed_at.py:300-309 | the ancestor chain starts at the unit itself |
| SdChangedAt.Climb | integrations/sd_changed_at.py:300-309 | the result is the nearest unit of the chain whose type is not too deep, and the climb fails exactly when every unit of the chain is too deep |
| SdChangedAt.AssociateIfTooDeep | integrations/sd_changed_at.py:303-306 | a unit that is not too deep gets no association, and nothing but the association log changes |
| SdChangedAt.PostEngagement | integrations/sd_changed_at.py:318-343 | the created engagement is the new last entry of the engagement list, stored under the raw job id with the given fraction and validity |
| SdChangedAt.CreateOnUnit | integrations/sd_changed_at.py:311-348 | uses the first profession and working time, and a follow-up edit runs exactly when some component list has more than one entry |
| SdChangedAt.CreateNewEngagement | integrations/sd_changed_at.py:278-348 | without a department the create fails with IndexError; otherwise it places the engagement as CreateNewEngagementWrites states |
| SdChangedAt.TerminateEngagementOp | integrations/sd_changed_at.py:350-364 | with no matching engagement nothing is written and the result says so; otherwise exactly one terminate write of the matched engagement is appended |
| SdChangedAt.CreateLeaveOp | integrations/sd_changed_at.py:246-257 | exactly one leave write, addressed to the matched engagement if there is one, for the status' validity |
| SdChangedAt.ConsistencyCheck | integrations/sd_changed_at.py:470-484 | passes exactly when every engagement under the raw job id ends the day before the activation, and sets skip exactly when there is one |
| SdChangedAt.ProcessStatus | integrations/sd_changed_at.py:430-484 | an unknown code faults with a division by zero; a successful status only appends to the log |
| SdChangedAt.ProcessStatuses | integrations/sd_changed_at.py:430-484 | the statuses are handled in order, the log only grows, and a skip flag once set stays set |
| SdChangedAt.UpdateEmployment | integrations/sd_changed_at.py:416-488 | processing one employment only appends to the log |
| SdChangedAt.UpdateUserEmployments | integrations/sd_changed_at.py:415-488 | processing a person's employments only appends to the log |
| SdChangedAt.AbsentPersonCheck | integrations/sd_changed_at.py:504-509 | passes exactly when every employment carries a single status S or 8 |
| SdChangedAt.UpdatePerson | integrations/sd_changed_at.py:496-511 | a person the directory does not know gets only the check and no writes |
| SdChangedAtLemmas.CountConcat | integrations/sd_changed_at.py:366-413 | counting writes of a kind distributes over joined logs |
| SdChangedAtLemmas.ProfessionBlockShape | integrations/sd_changed_at.py:389-402 | the profession block holds one edit per profession, at most one job-function registration, and nothing else |
| SdChangedAtLemmas.EditOrder | integrations/sd_changed_at.py:366-413 | every unit change comes before every profession change, which comes before every working-time change |
| SdChangedAtLemmas.EditCounts | integrations/sd_changed_at.py:366-413 | one edit per department, profession and working-time entry, all addressed to the matched engagement, and no other write than at most one registration |
| SdChangedAtLemmas.ProfessionEditUnknownName | integrations/sd_changed_at.py:389-402 | a profession the cache does not know is edited in with no job function, because the registration before it registers the literal name |
| SdChangedAtLemmas.CreateNewEngagementWrites | integrations/sd_changed_at.py:278-348 | one non-primary engagement is created on the nearest not-too-deep unit, with the first profession and fraction under the raw job id; an association is written exactly when the unit is too deep and none exists; a full edit follows exactly when a list has more than one entry |
| SdChangedAtLemmas.AssociationWritesShape | integrations/sd_changed_at.py:259-276 | the association block has one write exactly when the unit is too deep and no association for it and the validity exists yet |
| SdChangedAtLemmas.CreateLog | integrations/sd_changed_at.py:278-348 | a create's log consists of the association, registration, engagement and follow-up edit blocks, in that order |
| SdChangedAtLemmas.UnknownCodeFaults | integrations/sd_changed_at.py:433-435 | a code outside 0, 1, 3, 8, 9 and S aborts with a division by zero |
| SdChangedAtLemmas.ActivationEditsOrCreates | integrations/sd_changed_at.py:437-456 | codes 0 and 1 set skip, and edit the matched engagement without creating, or create exactly one engagement when none matches |
| SdChangedAtLemmas.LeaveOnly | integrations/sd_changed_at.py:458-460 | code 3 writes one leave, nothing else, and leaves skip alone |
| SdChangedAtLemmas.TerminateAtActivation | integrations/sd_changed_at.py:462-468 | code 8 terminates the matched engagement as of the activation date, or with no match writes nothing and sets skip |
| SdChangedAtLemmas.ConsistencyStatus | integrations/sd_changed_at.py:470-484 | codes S and 9 write nothing, succeed exactly when every engagement under the raw id ends the calendar day before the activation, and then set skip exactly when one exists |
| SdChangedAtLemmas.TrailingEdit | integrations/sd_changed_at.py:486-488 | the trailing edit runs exactly when no status set the skip flag |
| SdChangedAtLemmas.NoStatusEdits | integrations/sd_changed_at.py:428-488 | an employment without statuses is edited once, in full |
| SdPrimary.CalculateRateAndIds | integrations/sd_changed_at.py:521-546 | the rate is the highest positive fraction (0 when none), no fraction exceeds it, and the minimum id stays the integer start value exactly when the rate is 0, so the str/int comparison never raises |
| SdPrimary.RateIsBest | integrations/sd_changed_at.py:534-544 | the chosen key belongs to an engagement with the highest rate, and no engagement with that rate has a smaller key |
| SdPrimary.PrimaryExists | integrations/sd_changed_at.py:534-546 | some engagement qualifies as primary exactly when some fraction is positive |
| SdPrimary.TieBreakExample | integrations/sd_changed_at.py:539-541 | with equal rates "00017" wins over "00042" |
| SdPrimary.CutAfter | integrations/sd_changed_at.py:560-565 | a missing end gives the open cut, and a given end gives the text of its day after; an unparseable end is a ValueError and 9999-12-31 an OverflowError |
| SdPrimary.CutList | integrations/sd_changed_at.py:557-565 | the cuts hold every from date and every end cut, and the list fails exactly when some end cut fails |
| SdPrimary.CutSource | integrations/sd_changed_at.py:557-565 | every cut is some engagement's from date or end cut |
| SdPrimary.Insert | integrations/sd_changed_at.py:569 | inserting into a strictly sorted list keeps it strictly sorted and adds exactly the new value |
| SdPrimary.SortedSet | integrations/sd_changed_at.py:569 | `sorted(list(set(xs)))` is strictly sorted and holds exactly the values of `xs` |
| SdPrimary.SortedUnique | integrations/sd_changed_at.py:569 | a strictly sorted list is determined by its elements, so the sorted cut list has only one possible value |
| SdPrimary.Interval | integrations/sd_changed_at.py:584-590 | on sorted cuts a closed sub-interval is non-empty, starting before it ends, and no cut lies strictly inside it; it is open-ended exactly when the next cut is the open cut |
| SdPrimary.IntervalsChain | integrations/sd_changed_at.py:572-590 | every sub-interval starts before its end, and a closed one ends where the next one starts |
| SdPrimary.EditInterval | integrations/sd_changed_at.py:584-617 | corrected: one edit per engagement, in order, primary exactly for the winner with the primary type and the rest non-primary; it succeeds (given 200/400 answers) exactly when at most one engagement qualifies |
| SdPrimary.RecalculateFrom | integrations/sd_changed_at.py:572-617 | corrected: one block of edits per remaining sub-interval, each block the edits of the engagements read at its start |
| SdPrimary.RecalculatePrimary | integrations/sd_changed_at.py:548-617 | corrected: one block per sub-interval between consecutive sorted cuts; an unreadable end date fails the whole recalculation |
| SdPrimary.RecalculateFromAsWritten | integrations/sd_changed_at.py:572-617 | as written, the loop gets past a sub-interval only when nothing is read for it, posting nothing; otherwise its first engagement reaches the undefined payload builder and raises AttributeError |
| SdPrimary.RecalculatePrimaryAsWritten | integrations/sd_changed_at.py:548-617 | as written, the recalculation succeeds exactly when no sub-interval reads an engagement, and then posts no edit; otherwise it raises AttributeError |
| SdPrimary.AsWrittenFailsWhereIntendedEdits | integrations/sd_changed_at.py:614 | wherever the corrected recalculation posts an edit, the code as written raises AttributeError instead |
| SdPrimary.SingleEngagementExample | integrations/sd_changed_at.py:548-617 | one full-time open-ended engagement from 2019-01-01 is made primary over [2019-01-01, open) by the corrected recalculation, while the code as written raises AttributeError |
| SdPrimary.OnePrimaryPerInterval | integrations/sd_changed_at.py:581-613 | corrected: every sub-interval gets exactly one primary edit when some engagement read at its start has a positive rate and none otherwise, and every engagement read gets one edit |
| SdPrimary.BoundaryExample | integrations/sd_changed_at.py:557-590 | validities [2019-01-01, 2019-06-30] and [2019-04-01, open] cut time at 2019-01-01, 2019-04-01, 2019-07-01 and the open cut |
| SdPrimary.SortFour | integrations/sd_changed_at.py:569 | four increasing values listed out of order come out of the sort in order |
| SdCommon.CalcEmploymentId | integrations/SD_Lon/sd_common.py:60-71 | the id is the identifier unchanged |
| SdCommon.NumericRoundTrip | integrations/SD_Lon/sd_common.py:62-63 | writing a number and reading its identifier back gives the number |
| SdCommon.NonNumericSentinel | integrations/SD_Lon/sd_common.py:64-65 | a non-numeric identifier gets the value 999999 instead of failing |
| SdCommon.LeadingZerosIgnored | integrations/SD_Lon/sd_common.py:63 | identifiers that differ only by leading zeros get equal values |
| SdCommon.Examples | integrations/SD_Lon/sd_common.py:60-71 | "00042" and "42" give 42, and "A1234" gives 999999 |
| MoraDataTypes.FrameKeys | tooling/os2mo_data_import/os2mo_data_import/mora_data_types.py:66-86 | `_build_payload` adds exactly the validity and the shared keys whose field is truthy |
| MoraDataTypes.FrameKeeps | tooling/os2mo_data_import/os2mo_data_import/mora_data_types.py:66-89 | every other entry of the payload is kept |
| MoraDataTypes.BuildPayload | tooling/os2mo_data_import/os2mo_data_import/mora_data_types.py:50-89 | a non-dict payload is a TypeError; otherwise the validity is always present with the dates unchanged, uuid/type/person/unit are present exactly when truthy, and the other entries are kept |
| MoraDataTypes.Finish | tooling/os2mo_data_import/os2mo_data_import/mora_data_types.py:63-89 | a class body passed through `_build_payload` keeps its own entries and gains the shared ones |
| MoraDataTypes.NewAddress | tooling/os2mo_data_import/os2mo_data_import/mora_data_types.py:130-151 | a new address keeps the given value and references, has type id "address", and refuses to build with ValueError until the importer resolves its organisation uuid |
| MoraDataTypes.NewEngagement | tooling/os2mo_data_import/os2mo_data_import/mora_data_types.py:204-221 | a new engagement keeps its references, has type id "engagement", and refuses to build until the importer resolves its unit |
| MoraDataTypes.NewAssociation | tooling/os2mo_data_import/os2mo_data_import/mora_data_types.py:304-329 | the address type reference is the given one when truthy, else "AdressePostEmployee" |
| MoraDataTypes.NewItsystem | tooling/os2mo_data_import/os2mo_data_import/mora_data_types.py:389-401 | a new it-system link keeps its user key and reference, has type id "it", and refuses to build until the importer resolves the it-system |
| MoraDataTypes.NewLeave | tooling/os2mo_data_import/os2mo_data_import/mora_data_types.py:443-454 | a new leave has type id "leave" and builds at once, with None as its leave type uuid |
| MoraDataTypes.NewRole | tooling/os2mo_data_import/os2mo_data_import/mora_data_types.py:495-509 | a new role has type id "role" and builds at once, with None as its unit and role type uuids |
| MoraDataTypes.NewManager | tooling/os2mo_data_import/os2mo_data_import/mora_data_types.py:568-597 | a responsibility list that is not a list is a TypeError; otherwise the references are kept and the resolved responsibilities start empty |
| MoraDataTypes.NewOrgUnit | tooling/os2mo_data_import/os2mo_data_import/mora_data_types.py:663-680 | the user key is the given one when truthy, else the name; no type id is set |
| MoraDataTypes.NewEmployee | tooling/os2mo_data_import/os2mo_data_import/mora_data_types.py:735-745 | a new employee has no type id and no dates, and refuses to build until the importer resolves its organisation |
| MoraDataTypes.BuildAddress | tooling/os2mo_data_import/os2mo_data_import/mora_data_types.py:153-175 | fails with ValueError exactly when the organisation uuid is falsy; visibility is present exactly when a visibility reference was given |
| MoraDataTypes.BuildEngagement | tooling/os2mo_data_import/os2mo_data_import/mora_data_types.py:223-255 | the unit, job function and engagement type are checked in that order, each failing with its own ReferenceError; a success carries all three uuids on top of the stored payload |
| MoraDataTypes.EngagementBody | tooling/os2mo_data_import/os2mo_data_import/mora_data_types.py:235-253 | the stored payload gains exactly the unit, job function and engagement type references |
| MoraDataTypes.BuildAssociation | tooling/os2mo_data_import/os2mo_data_import/mora_data_types.py:331-368 | needs the unit, job function and association type uuids in that order; the address entry is present exactly when an address uuid is set |
| MoraDataTypes.BuildItsystem | tooling/os2mo_data_import/os2mo_data_import/mora_data_types.py:403-421 | needs the it-system uuid, and the payload carries the user key |
| MoraDataTypes.BuildLeave | tooling/os2mo_data_import/os2mo_data_import/mora_data_types.py:456-470 | always builds, carrying the leave type reference |
| MoraDataTypes.BuildRole | tooling/os2mo_data_import/os2mo_data_import/mora_data_types.py:511-528 | always builds, carrying the unit and role type references even when they are None |
| MoraDataTypes.UuidRefs | tooling/os2mo_data_import/os2mo_data_import/mora_data_types.py:618-623 | one `{"uuid": u}` per uuid, in order |
| MoraDataTypes.BuildManager | tooling/os2mo_data_import/os2mo_data_import/mora_data_types.py:599-634 | always builds; the responsibility list has one entry per resolved responsibility in the same order, and the address entry is present when an address uuid is set |
| MoraDataTypes.BuildOrgUnit | tooling/os2mo_data_import/os2mo_data_import/mora_data_types.py:682-707 | needs the parent and then the unit type uuid; the payload carries user key, name, parent and unit type |
| MoraDataTypes.UnitWithoutUuid | tooling/os2mo_data_import/os2mo_data_import/mora_data_types.py:682-707 | a unit without a uuid builds a payload without one |
| MoraDataTypes.BuildEmployee | tooling/os2mo_data_import/os2mo_data_import/mora_data_types.py:747-766 | needs the organisation uuid; the payload carries name, CPR number and organisation |
| MoraDataTypes.Build | tooling/os2mo_data_import/os2mo_data_import/mora_data_types.py:50-766 | every class's build, when it succeeds, carries the shared entries of its object |
| MoraDataTypes.BuildOkIff | tooling/os2mo_data_import/os2mo_data_import/mora_data_types.py:153-766 | an object builds exactly when the uuids its class needs are set, as stated apart from the builders |
| MoraDataTypes.FreshObjects | tooling/os2mo_data_import/os2mo_data_import/mora_data_types.py:130-766 | freshly constructed address, engagement, association, it-system, unit and employee objects refuse to build; a leave builds at once with a None reference |
| Utilities.TypeGuard | tooling/os2mo_data_import/os2mo_data_import/utilities.py:60-353 | each import accepts exactly its own class and otherwise raises TypeError with its message |
| Utilities.GuardsPartition | tooling/os2mo_data_import/os2mo_data_import/utilities.py:60-353 | a class passes at most one guard, and no import accepts a detail object |
| Utilities.IntegrationDataWith | tooling/os2mo_data_import/os2mo_data_import/utilities.py:457-546 | storing off leaves the payload untouched; no hit adds the label as the integration data; one hit sets or checks the uuid and takes over the stored integration data; several hits are a ValueError; the other entries are kept |
| Utilities.Query | tooling/os2mo_data_import/os2mo_data_import/utilities.py:498-505 | the intended query is the label's JSON text without its outer characters, between `%` wildcards |
| Utilities.IntegrationDataAsWritten | tooling/os2mo_data_import/os2mo_data_import/utilities.py:489-546 | as written, the one constant search decides for every object: storing off changes nothing, several hits are a ValueError, and a single hit hands its uuid to whatever object is imported |
| Utilities.IntegrationData | tooling/os2mo_data_import/os2mo_data_import/utilities.py:489-546 | with the intended query, the search for the object's own label decides: no hit stores the label, one hit hands over its uuid, several are a ValueError, and storing off changes nothing |
| Utilities.QueryIgnoresReference | tooling/os2mo_data_import/os2mo_data_import/utilities.py:492-494 | as written, every reference sends the same query |
| Utilities.SharedUuidAsWritten | tooling/os2mo_data_import/os2mo_data_import/utilities.py:492-522 | as written, two different objects both receive the uuid of the single object the constant query finds |
| Utilities.QueryDistinguishes | tooling/os2mo_data_import/os2mo_data_import/utilities.py:498-505 | with the intended query, different references send different queries |
| Utilities.QueryInjective | tooling/os2mo_data_import/os2mo_data_import/utilities.py:498-505 | equal intended queries come from equal references |
| Utilities.IntegrationDataIdempotent | tooling/os2mo_data_import/os2mo_data_import/utilities.py:489-546 | running the handshake again on its own result changes the payload no further |
| Utilities.Resolve | tooling/os2mo_data_import/os2mo_data_import/utilities.py:414-455 | resolution fails only for a manager with an unknown responsibility (KeyError); it keeps the type and uuid, sets the unit uuid from the unit map and the responsibilities in order, and leaves an employee as it is |
| Utilities.ResolveAll | tooling/os2mo_data_import/os2mo_data_import/utilities.py:449-453 | every responsibility is resolved through the klasse map in order, and an unknown one is a KeyError |
| Utilities.BuildDetail | tooling/os2mo_data_import/os2mo_data_import/utilities.py:401-455 | address and leave details give no payload; any other built detail carries the given dates as its validity |
| Utilities.EngagementDetail | tooling/os2mo_data_import/os2mo_data_import/utilities.py:418-441 | an engagement detail builds exactly when its unit, job function and type references resolve to truthy uuids, and carries those uuids |
| Utilities.AssociationDetail | tooling/os2mo_data_import/os2mo_data_import/utilities.py:418-441 | an association detail needs its unit, job function and association type, and resolves the address type through the klasse map |
| Utilities.ItsystemDetail | tooling/os2mo_data_import/os2mo_data_import/utilities.py:444-447 | an it-system detail resolves through the it-system map |
| Utilities.ManagerDetail | tooling/os2mo_data_import/os2mo_data_import/utilities.py:449-455 | a manager detail with known responsibilities builds with them resolved in order |
| Utilities.RoleDetail | tooling/os2mo_data_import/os2mo_data_import/utilities.py:436-455 | a role detail always builds, and an unknown unit leaves None in its entry |
| Utilities.BuildDetails | tooling/os2mo_data_import/os2mo_data_import/utilities.py:307-324 | one entry per detail, None exactly for a skipped type, and a detail without a start date takes the unit's |
| Utilities.Placed | tooling/os2mo_data_import/os2mo_data_import/utilities.py:290-305 | the parent is the inserted parent when known, else the organisation; the unit type is looked up in the klasse map; nothing else changes |
| Utilities.InsertUnit | tooling/os2mo_data_import/os2mo_data_import/utilities.py:327-349 | on success the recorded uuid is truthy and is what the service answered, and the payload keeps its entries |
| Utilities.ImportOrgUnit | tooling/os2mo_data_import/os2mo_data_import/utilities.py:263-349 | a wrong class is a TypeError; an already imported reference returns False and changes nothing; a success records the reference under the new uuid |
| Utilities.ImportNewUnit | tooling/os2mo_data_import/os2mo_data_import/utilities.py:290-349 | a new unit is posted with its parent set, and keeps the details it had |
| Utilities.BuildUnit | tooling/os2mo_data_import/os2mo_data_import/utilities.py:290-326 | the unit's payload has a parent, and the unit keeps the details it had |
| Utilities.FalsyUuidFails | tooling/os2mo_data_import/os2mo_data_import/utilities.py:343-344 | a service answering with a falsy uuid aborts with ConnectionError and nothing is recorded |
| Utilities.ImportOnce | tooling/os2mo_data_import/os2mo_data_import/utilities.py:286-288 | importing the same reference again returns False and leaves the importer as the first import left it |
| Utilities.ImportKlasseWith | tooling/os2mo_data_import/os2mo_data_import/utilities.py:158-220 | a wrong class is a TypeError; an unknown facet is a KeyError; a success records the reference under the new uuid, which is the preset one when given |
| Utilities.KlasseTagged | tooling/os2mo_data_import/os2mo_data_import/utilities.py:514-522 | a klasse payload without a uuid takes the uuid the search finds |
| Utilities.PresetUuidRejected | tooling/os2mo_data_import/os2mo_data_import/utilities.py:202-204 | as written, a klasse with a preset uuid that the search finds fails the assertion |
| Utilities.ImportKlasseAsWritten | tooling/os2mo_data_import/os2mo_data_import/utilities.py:158-220 | as written, a klasse with a preset uuid imports only when its handshake found no uuid |
| Utilities.ImportKlasseCorrected | tooling/os2mo_data_import/os2mo_data_import/utilities.py:158-220 | comparing with the tuple's element accepts every import the code as written accepts, with the same result, and agrees with it for a klasse without a preset uuid |
| Utilities.PresetUuidKept | tooling/os2mo_data_import/os2mo_data_import/utilities.py:202-218 | comparing with the tuple's element, the same import goes through and records the preset uuid |
| MedPayloads.Virkning | os2mo_data_import/med/payloads.py:4-13 | the record runs from the given date, or the 1910 default when it is None, to infinity, registered by the fixed import actor |
| MedPayloads.VirkningDefault | os2mo_data_import/med/payloads.py:4-13 | two dates give the same validity record exactly when they are equal, or one is missing and the other is the 1910 default it stands for |
| MedPayloads.FacetProps | os2mo_data_import/med/payloads.py:18-22 | the facet properties carry the bvn, and a description exactly when it is truthy |
| MedPayloads.LoraFacet | os2mo_data_import/med/payloads.py:16-37 | a facet has the three sections, the bvn, a description exactly when truthy, one responsible organisation, and the published state |
| MedPayloads.KlasseProps | os2mo_data_import/med/payloads.py:51-63 | the klasse properties carry bvn and title, a description and a scope each exactly when truthy |
| MedPayloads.KlasseRelations | os2mo_data_import/med/payloads.py:69-94 | facet and responsible organisation always; the parent klasse and the owner exactly when not None |
| MedPayloads.KlasseOptionalProps | os2mo_data_import/med/payloads.py:60-63 | a klasse has `beskrivelse` and `omfang` exactly when the description and scope are truthy |
| MedPayloads.KlasseOptionalRelations | os2mo_data_import/med/payloads.py:91-94 | a klasse has `overordnetklasse` and `ejer` exactly when the parent klasse and owner are not None |
| MedPayloads.KlasseFixed | os2mo_data_import/med/payloads.py:51-101 | a klasse has the three sections and a property record holding bvn and title |
| MedPayloads.LoraKlasse | os2mo_data_import/med/payloads.py:40-101 | the document has exactly the three LoRa sections, with the parent-klasse relation exactly when a parent is given and the owner relation exactly when an owner uuid is given (KlasseFixed and KlasseLinks give the fixed entries) |
| MedPayloads.KlasseLinks | os2mo_data_import/med/payloads.py:64-82 | a klasse always relates to its facet and its responsible organisation, and is published |
| MedPayloads.KlasseSameDate | os2mo_data_import/med/payloads.py:56-89 | every entry of a klasse is valid from the same date |
| MedPayloads.FacetDefaultDate | os2mo_data_import/med/payloads.py:16-37 | every entry of a facet is valid from the 1910 default |
| AdSettings.EntryAt | integrations/ad_integration/read_ad_conf_settings.py:34-39 | the AD entry exists exactly when the list has a dict at the index; a short list is an IndexError |
| AdSettings.ReadGlobal | integrations/ad_integration/read_ad_conf_settings.py:12-24 | the global settings read the first AD's credentials; a missing user is a KeyError, and a falsy remote host raises |
| AdSettings.NoneKeys | integrations/ad_integration/read_ad_conf_settings.py:49-52 | exactly the keys whose value is None, at most one entry per key |
| AdSettings.NoneKeysAppend | integrations/ad_integration/read_ad_conf_settings.py:49-52 | the names are reported in the order of the keys: those of a list are those of its first part followed by those of the rest |
| AdSettings.DiscriminatorMissing | integrations/ad_integration/read_ad_conf_settings.py:57-68 | with a discriminator field set, the values and function that are missing |
| AdSettings.PrimaryOf | integrations/ad_integration/read_ad_conf_settings.py:38-93 | the required values are those of the AD entry |
| AdSettings.ReadPrimary | integrations/ad_integration/read_ad_conf_settings.py:27-100 | a missing AD list raises, a short one reports the index; a success reads the entry's settings |
| AdSettings.PrimaryOutcome | integrations/ad_integration/read_ad_conf_settings.py:49-100 | an unknown or missing discriminator function is a ValueError before anything else; otherwise all missing settings are reported together; otherwise the settings are complete |
| AdSettings.MissingReported | integrations/ad_integration/read_ad_conf_settings.py:49-68 | the report names exactly the required settings that are None, then the discriminator settings a set field lacks |
| AdSettings.MissingFunctionIsValueError | integrations/ad_integration/read_ad_conf_settings.py:65-73 | a missing discriminator function is rejected as unknown, not reported as missing |
| AdSettings.PrimaryDefaults | integrations/ad_integration/read_ad_conf_settings.py:77-93 | the optional settings get their defaults, `get_ad_object` is false, and the discriminator is read exactly when its field is set |
| AdSettings.NamesOf | integrations/ad_integration/read_ad_conf_settings.py:158-169 | the field names exist exactly when every name is text, and cover the keys of both maps |
| AdSettings.ReadWrite | integrations/ad_integration/read_ad_conf_settings.py:103-175 | an enabled write carries the six settings and the template maps; a first AD without a cpr field is a KeyError |
| AdSettings.WriteDisabledWhenMissing | integrations/ad_integration/read_ad_conf_settings.py:139-147 | any write setting that is None disables writing |
| AdSettings.WriteEnabled | integrations/ad_integration/read_ad_conf_settings.py:150-175 | with every setting present, writing is enabled exactly when no two AD field names are equal ignoring case; the template maps default to empty |
| AdSettings.ImageCard | integrations/ad_integration/read_ad_conf_settings.py:170 | the set of names is no larger than the list, and as large exactly when no name repeats |
| AdSettings.SlotCount | integrations/ad_integration/read_ad_conf_settings.py:160-167 | the field-name list has one position per map entry plus three |
| AdSettings.CollideIffRepeated | integrations/ad_integration/read_ad_conf_settings.py:168-173 | the duplicate check fires exactly when two positions hold the same name ignoring case |
| AdSettings.CaseInsensitiveExample | integrations/ad_integration/read_ad_conf_settings.py:168-173 | a template field "objectguid" collides with the uuid field "ObjectGuid" |
| AdSettings.ReadSettings | integrations/ad_integration/read_ad_conf_settings.py:219-224 | succeeds exactly when the three parts do, the first failure being the one reported |
| ExecuteAdScript.TokenShape | integrations/ad_integration/execute_ad_script.py:47-50 | the keyword at an opener runs through the next `%`, and is empty exactly when no `%` follows |
| ExecuteAdScript.Collect | integrations/ad_integration/execute_ad_script.py:46-52 | the scan collects only complete keywords or the empty one |
| ExecuteAdScript.CollectExact | integrations/ad_integration/execute_ad_script.py:46-52 | the scan collects exactly the keywords at the openers from its start on |
| ExecuteAdScript.LineKeywordsAsWritten | integrations/ad_integration/execute_ad_script.py:44-52 | as written, a line whose code starts with an opener yields no keyword; otherwise every opener's keyword is collected |
| ExecuteAdScript.LineKeywordsIntended | integrations/ad_integration/execute_ad_script.py:44-52 | with the scan running while an opener is found, every opener's keyword is collected |
| ExecuteAdScript.CommentIgnored | integrations/ad_integration/execute_ad_script.py:44-45 | text from the first `#` on is not scanned |
| ExecuteAdScript.KeywordsOfLines | integrations/ad_integration/execute_ad_script.py:40-52 | a keyword is collected exactly when some line yields it |
| ExecuteAdScript.Validate | integrations/ad_integration/execute_ad_script.py:33-62 | no script is an error; otherwise the check passes exactly when every collected keyword is a scaffold key |
| ExecuteAdScript.ValidateAsWritten | integrations/ad_integration/execute_ad_script.py:33-62 | as written, the check fails without a script and accepts every script the intended check accepts |
| ExecuteAdScript.ValidateScript | integrations/ad_integration/execute_ad_script.py:33-62 | the intended check fails without a script, and otherwise passes exactly when every keyword at every opener of every line's code is a scaffold key, failing with the unknown-keywords exception |
| ExecuteAdScript.ValidateScriptExact | integrations/ad_integration/execute_ad_script.py:13-62 | the intended scan passes exactly when every keyword at every opener of every line's code is a scaffold key |
| ExecuteAdScript.ColumnZeroKeywordMissed | integrations/ad_integration/execute_ad_script.py:47-48 | an unknown keyword at the start of a line passes the check as written but fails the intended one |
| ExecuteAdScript.FooUnknown | integrations/ad_integration/execute_ad_script.py:13-22 | `%OS2MO_FOO%` is not a scaffold key |
| ExecuteAdScript.BlockRanges | integrations/ad_integration/execute_ad_script.py:65-72 | the loop as written collects nothing when the first `<#` is at the start or absent; otherwise its first range runs from the `<#` to the `#>` found after it plus 3, and the next range starts at the first `<%` at or after that end |
| ExecuteAdScript.RemoveBlockCommentsAsWritten | integrations/ad_integration/execute_ad_script.py:64-76 | as written, a script without `<#`, or with one only at its very start, is returned unchanged |
| ExecuteAdScript.StripBlockComments | integrations/ad_integration/execute_ad_script.py:64-76 | the intended removal never lengthens the script |
| ExecuteAdScript.StripNoComment | integrations/ad_integration/execute_ad_script.py:64-76 | a script without `<#` is left as it is |
| ExecuteAdScript.RemoveOneBlockAsWritten | integrations/ad_integration/execute_ad_script.py:64-76 | as written, in a script without `<%`, one comment after the first column is removed through its `#>` and one more character, and everything else is kept |
| ExecuteAdScript.StripOneBlock | integrations/ad_integration/execute_ad_script.py:66-76 | each comment is removed through its `#>` and one more character, the text before it is kept, and the rest is handled alike |
| ExecuteAdScript.StripUnterminated | integrations/ad_integration/execute_ad_script.py:64-76 | an unterminated comment is left in place by the intended removal |
| ExecuteAdScript.SecondCommentKept | integrations/ad_integration/execute_ad_script.py:72 | as written, a second comment survives because the search looks for `<%`; the intended removal strips both |
| ExecuteAdScript.SecondCommentStripped | integrations/ad_integration/execute_ad_script.py:64-76 | the intended removal strips both comments of the two-comment script |
| ExecuteAdScript.FirstColumnCommentKept | integrations/ad_integration/execute_ad_script.py:68 | as written, a comment at the very start is kept; the intended removal strips it |
| ExecuteAdScript.UnterminatedNeverStops | integrations/ad_integration/execute_ad_script.py:68-72 | as written, an unterminated comment followed by `<%` keeps the loop running for ever |
| ExecuteAdScript.UnterminatedKept | integrations/ad_integration/execute_ad_script.py:64-76 | the intended removal leaves that unterminated comment in place |
| ExecuteAdScript.ValuesOf | integrations/ad_integration/execute_ad_script.py:83-91 | one value per scaffold key |
| ExecuteAdScript.FillScript | integrations/ad_integration/execute_ad_script.py:83-109 | fails exactly when some value is missing, with the guard's message |
| ExecuteAdScript.FillScriptAsWritten | integrations/ad_integration/execute_ad_script.py:83-109 | as written, fails exactly when some value is missing, but with TypeError from `str.replace`; otherwise it gives what the intended rewrite gives |
| ExecuteAdScript.MissingValueAsWritten | integrations/ad_integration/execute_ad_script.py:92-107 | as written, a missing value reaches `str.replace` and raises TypeError instead of the guard's exception |
| ExecuteAdScript.CommentsRemoved | integrations/ad_integration/execute_ad_script.py:100-109 | no comment reaches the rewritten script when no value holds a `#` |
| ExecuteAdScript.PlainScriptUnchanged | integrations/ad_integration/execute_ad_script.py:98-109 | lines without comment, keyword or blank text pass through, each ended by a newline |
| MultipleReplace.Keys | exporters/utils/multiple_replace.py:7 | every key of the dict occurs, nothing else does, and for a dict no key occurs twice |
| MultipleReplace.LookupAt | exporters/utils/multiple_replace.py:20 | a matched key is replaced by the value stored with it |
| MultipleReplace.Compile | exporters/utils/multiple_replace.py:5-14 | a dict with the empty key is an AssertionError; otherwise the pattern tries the keys in dict order |
| MultipleReplace.FirstKeyAt | exporters/utils/multiple_replace.py:11-12 | the alternation matches the first key, in dict order, that the text starts with, and none exactly when no key does |
| MultipleReplace.Replace | exporters/utils/multiple_replace.py:24-40 | fails exactly when the dict has the empty key; otherwise it is the scan over the compiled keys |
| MultipleReplace.TokenizeCovers | exporters/utils/multiple_replace.py:17-21 | the scan reads the whole input exactly once, left to right without overlap |
| MultipleReplace.NoKeyUnchanged | exporters/utils/multiple_replace.py:12-21 | a string in which no key occurs is returned unchanged |
| MultipleReplace.EmptyDictUnchanged | exporters/utils/multiple_replace.py:24-40 | under an empty dict every string is returned unchanged |
| MultipleReplace.IdentityUnchanged | exporters/utils/multiple_replace.py:17-21 | replacing every key by itself changes nothing |
| MultipleReplace.EarliestKeyWins | exporters/utils/multiple_replace.py:11-21 | when several keys match at the front, the earliest in dict order is replaced and the scan continues after it |
| MultipleReplace.Step | exporters/utils/multiple_replace.py:17-21 | each round emits some text and consumes one whole key or one character |
| MultipleReplace.RunScan | exporters/utils/multiple_replace.py:17-21 | the cursor-and-buffer loop computes the scan's result |
| MultipleReplace.LikeTeaExample | exporters/utils/multiple_replace.py:27-29 | with like→love and tea→coffee, "I like tea" becomes "I love coffee" |
| MultipleReplace.NoRescanExample | exporters/utils/multiple_replace.py:17-21 | inserted text is never scanned again: with a→b and b→c, "a" becomes "b" |
| MultipleReplace.OrderExample | exporters/utils/multiple_replace.py:11-12 | dict order, not match length, decides between "a" and "ab" |
| QueryActualState.LevelIsPathEnd | reports/query_actualstate.py:28-36 | the units `n` child steps below the head are exactly the ends of downward paths of that length |
| QueryActualState.Expand | reports/query_actualstate.py:41-43 | the loop only adds units to the result |
| QueryActualState.ExpandLevels | reports/query_actualstate.py:38-43 | the loop stops exactly at the first empty level, and then holds every level before it |
| QueryActualState.NamedUuid | reports/query_actualstate.py:26 | the head is the only unit with the given name |
| QueryActualState.SetOfOrgUnits | reports/query_actualstate.py:24-45 | fails exactly when the name matches no unit or several units |
| QueryActualState.StartIsLevelOne | reports/query_actualstate.py:38-39 | the loop starts with the head's children as both frontier and result |
| QueryActualState.Exact | reports/query_actualstate.py:24-45 | a returned set holds every descendant of the head and nothing else, and not the head itself |
| QueryActualState.CycleNeverEmpties | reports/query_actualstate.py:41-43 | a path that returns to a unit keeps every later level non-empty |
| QueryActualState.Diverges | reports/query_actualstate.py:41-43 | a cycle below the head keeps the loop running for ever |
| QueryActualState.Terminates | reports/query_actualstate.py:41-43 | without a cycle below the head the loop stops within as many rounds as there are units |
| QueryActualState.ChainExample | reports/query_actualstate.py:24-45 | below "Top" with one child, the result is just the child |
| Text.ZFill | integrations/sd_changed_at.py:198 | pads with zeros on the left up to the width and keeps the text |
| Text.NatToDigitsValue | integrations/sd_changed_at.py:197-198 | `str(n)` spells `n` |
| Text.LeadingZerosValue | integrations/SD_Lon/sd_common.py:63 | leading zeros do not change the value of a digit string |
| Text.Find | integrations/ad_integration/execute_ad_script.py:47 | `find` returns the first occurrence at or after the start (a negative start counting from the end), and -1 exactly when there is none |
| Text.FindFrom | integrations/ad_integration/execute_ad_script.py:47-52 | the first occurrence at or after the start, or -1 exactly when there is none |
| Text.Split | integrations/ad_integration/execute_ad_script.py:40 | the pieces hold no separator |
| Text.JoinSplit | integrations/ad_integration/execute_ad_script.py:40 | joining the pieces of a split gives the text back |
| Text.SplitJoin | integrations/ad_integration/execute_ad_script.py:40 | splitting a join gives the pieces back when none holds the separator |
| Text.Lower | integrations/ad_integration/read_ad_conf_settings.py:169 | lower-cases the ASCII letters and keeps the length |
| Text.Before | integrations/ad_integration/execute_ad_script.py:44-45 | the text before the first `#`, or the whole line without one |
| Text.ReplaceAllKeepsOut | integrations/ad_integration/execute_ad_script.py:107 | a replacement that does not bring in a character leaves it out |
| Text.StrLessTransitive | integrations/sd_changed_at.py:569 | Python's string order is transitive |
| Text.StrLessTotal | integrations/sd_changed_at.py:569 | any two different strings are ordered one way |

## Left out

- HTTP, SOAP and LoRa calls: directory reads, the service's answers and the new uuids are parameters, and writes are a log.
- Writes issued before a fault: a fault returns `Err` without the writes the run had already issued.
- `update_changed_persons`, `check_non_existent_departments`, `read_employment_changed`, `read_person_changed` and `_add_profession_to_lora`: directory I/O only.
- `sd_lookup`: SOAP, sha256 cache keys, pickle files and XML parsing.
- The occupation rate `int(float(rate) * 1000000)`: fractions are given as integers, because the model has no floating point.
- SdCommon.CalcEmploymentId: only a non-empty string of ASCII digits counts as numeric. Python's `int()` also accepts signs, whitespace and underscores.
- Dates.Parse: only the canonical `YYYY-MM-DD` text parses. `strptime` also accepts one-digit months and days.
- SdPrimary.CalculateRateAndIds: engagements always carry a user key. The code's `1/0` for a missing one, and the `break` in `recalculate_primary`, are not modelled.
- SdPrimary.RecalculatePrimary: the answers to the primary edits come from a function of the edit alone.
- SdChangedAt.CreateNewEngagement: after a create, the directory is assumed to answer the re-read with the old list plus the new engagement.
- SdChangedAt.EditEngagementOp: the payload builders of `sd_payloads` are not part of this model. When no engagement matches, the edits are posted with a None target as they are, and the outcome is left to the directory's answer.
- SdChangedAt.CreateLeaveOp: the payload builders of `sd_payloads` are not part of this model. When no engagement matches, the leave is posted with a None engagement as it is, and the outcome is left to the directory's answer.
- The MO/AD lookups of `fill_script_template`: only the line rewrite is modelled. The script it builds is discarded by the code and returned here.
- ExecuteAdScript.Validate: the unknown-keyword message does not carry Python's repr of the set.
- ExecuteAdScript.BlockRanges: a fuel bound stands for the `while` loop. `None` means the loop had not stopped within the fuel.
- AdSettings.EntryAt: a non-list `integrations.ad` gives TypeError. Python fails in `len()` or in indexing, with an exception class that depends on the value.
- SdChangedAt.Env: the uuids the directory hands out (`Env.mint`) are non-empty, so a freshly registered job function is never falsy. A None uuid in the cache is represented by the empty string.
- QueryActualState.SetOfOrgUnits: a fuel bound stands for the `while` loop. `Ok(None)` means it had not stopped; `Terminates` shows that fuel as large as the table suffices without a cycle.
- The SQL child query is the unit table's parent column, read as a set.
- Utilities.IntegrationDataWith: the stored integration data of a single hit is an input (`Search.stored`). The walk over `egenskaber` attributes of the fetched object is not modelled.
- Utilities.ImportOrgUnit: the details are built and collected but, as in the code, not posted. A failure does not show the partial mutations of the unit object.
- `import_employee`, `import_organisation`, `import_klassifikation`, `import_facet` and `import_itsystem`: only their type guards are modelled. The LoRa (mox) classes are known by name only.
- `insert_mox_data`, `insert_mora_data` and the dry-run `uuid4`: the service is a function from payload to uuid.
- SdPrimary.RecalculatePrimary: models the evidently intended recalculation; the code as written is SdPrimary.RecalculatePrimaryAsWritten.
- SdChangedAt.CreateAssociationOp: the existing associations are the state's list, extended with the associations this run writes. The code re-reads them from the directory on every call, so SdChangedAt.AssociationIdempotent holds only when the directory returns an association written earlier in the run.
- SdChangedAt.AssociationIdempotent: assumes, like SdChangedAt.CreateAssociationOp, that the re-read returns the association written earlier in the run.
- Utilities.InsertUnit: the integration-data handshake sends the intended query, not the constant "%{}%" of the code; the as-written query is Utilities.IntegrationDataAsWritten (see Findings).
- Utilities.ImportOrgUnit: uses the intended integration-data query, like Utilities.InsertUnit.
- Utilities.ImportNewUnit: uses the intended integration-data query, like Utilities.InsertUnit.
- Utilities.ImportKlasseWith: uses the intended integration-data query, like Utilities.InsertUnit.
- Text.Lower: lower-cases ASCII letters only. Python's `str.lower()` also lowers other Unicode letters, so field names that differ only in a non-ASCII letter's case are not treated as colliding.
- Text.IsBlank: treats ASCII whitespace only. Python's `strip()` also removes other Unicode whitespace.
- SdRecords.MatchKey: only a non-empty string of ASCII digits counts as numeric. Python's `int()` also accepts signs, surrounding whitespace and underscores.
- Dates.Format: writes the year with four digits. glibc's `strftime('%Y')` does not zero-pad years below 1000.
- Dict iteration order: payload dicts are maps. The order matters only in `multiple_replace` and the scaffold, which use sequences.
- `_NEVER_read_school_ad_settings` raises at once and is dead. The `LazyDict` settings loading is I/O.
- `list_MED_members` and the rest of the report: SQL queries and spreadsheet output.

## Findings

| source | as written | input that shows it | evidently intended | confidence | as-written member | corrected member |
|---|---|---|---|---|---|---|
| integrations/ad_integration/execute_ad_script.py:48 | the keyword scan runs `while index > 0` | a line `%OS2MO_FOO%` passes validation | `while index >= 0`, so that a keyword at column 0 is checked | high, not executed | ExecuteAdScript.ColumnZeroKeywordMissed | ExecuteAdScript.ValidateScript |
| integrations/ad_integration/execute_ad_script.py:72 | after the first block comment the loop searches for `<%` | `x<#a#>\ny<#b#>\n` keeps its second comment | search for `<#` again | high, not executed | ExecuteAdScript.SecondCommentKept | ExecuteAdScript.StripOneBlock |
| integrations/ad_integration/execute_ad_script.py:68 | the removal loop runs `while index > 0` | `<#a#>\nx` keeps its comment | `while index >= 0` | high, not executed | ExecuteAdScript.FirstColumnCommentKept | ExecuteAdScript.StripOneBlock |
| integrations/ad_integration/execute_ad_script.py:69-72 | a missing `#>` gives end index 2 and the search restarts before the comment | `x<#a<%` never leaves the loop | stop at an unterminated comment | medium, not executed | ExecuteAdScript.UnterminatedNeverStops | ExecuteAdScript.UnterminatedKept |
| integrations/ad_integration/execute_ad_script.py:92 | `None in execution_replacement` tests the keys, which are never None | a user without a manager address raises TypeError in `str.replace` | test the values | high, not executed | ExecuteAdScript.MissingValueAsWritten | ExecuteAdScript.FillScript |
| tooling/os2mo_data_import/os2mo_data_import/utilities.py:492-505 | the query is the constant `"%{}%"`; the label's JSON text is computed and never used | two objects with storing on both receive the uuid of the one object the search finds | send the label's JSON text between `%` wildcards | high, not executed | Utilities.SharedUuidAsWritten | Utilities.QueryDistinguishes |
| integrations/sd_changed_at.py:614 | each edit's payload is built by `self._engagement_payload`, which `ChangeAtSD` does not define | one engagement with user key "00001", fraction 1000000, valid from 2019-01-01 and open-ended: the first edit raises AttributeError | build the edit payload from `data` and the engagement's uuid, and post it | high, not executed | SdPrimary.AsWrittenFailsWhereIntendedEdits | SdPrimary.OnePrimaryPerInterval |
| tooling/os2mo_data_import/os2mo_data_import/utilities.py:204 | the found uuid is compared with the one-element tuple `uuid` itself | a klasse with a preset uuid that the search finds fails the assertion | compare with `uuid[0]`, as line 209 does | high, not executed | Utilities.PresetUuidRejected | Utilities.PresetUuidKept |

=== FILE: ad_settings.dfy ===
/** Reading the AD integration's settings out of the flat settings dict: the
    global connection settings, the primary AD's read settings (with required
    keys, a discriminator rule and defaults) and the primary AD's write
    settings (disabled, as an empty dict, when incomplete or ambiguous). */
module AdSettings {
  import opened Common
  import opened Text
  import opened Json

  /** The flat settings dict, keyed by dotted setting names. */
  type Settings = map<string, Json>

  const AdKey: string := "integrations.ad"

  /** `top_settings.get('integrations.ad')[index]` as a dict: a missing list
      cannot be indexed, a short one has no such entry, and a non-dict entry
      has no `.get`. */
  function EntryAt(top: Settings, index: nat): (r: Result<map<string, Json>>)
    ensures r.Ok? <==> GetKey(top, AdKey).Arr? && index < |GetKey(top, AdKey).items| && GetKey(top, AdKey).items[index].Obj?
    ensures r.Ok? ==> r.value == GetKey(top, AdKey).items[index].fields
    ensures GetKey(top, AdKey).Arr? && index >= |GetKey(top, AdKey).items| ==> r == Err(IndexError("list index out of range"))
  {
    var ad := GetKey(top, AdKey);
    if !ad.Arr? then Err(TypeError("integrations.ad is not a list"))
    else if index >= |ad.items| then Err(IndexError("list index out of range"))
    else if !ad.items[index].Obj? then Err(AttributeError("get"))
    else Ok(ad.items[index].fields)
  }

  // ---------------------------------------------------------------------------
  // Global settings.

  /** The global connection settings. */
  datatype Global = Global(moraBase: Json, servers: Json, winrmHost: Json, systemUser: Json, password: Json)

  /** `_read_global_settings`: the first AD's servers and credentials, the
      MO base url and the remote management host, which must be set. */
  function ReadGlobal(top: Settings): (r: Result<Global>)
    ensures r.Ok? <==> EntryAt(top, 0).Ok? && "system_user" in EntryAt(top, 0).value
                       && "password" in EntryAt(top, 0).value && Truthy(GetKey(top, "integrations.ad.winrm_host"))
    ensures r.Ok? ==> r.value.winrmHost == GetKey(top, "integrations.ad.winrm_host")
                      && r.value.moraBase == GetKey(top, "mora.base")
                      && r.value.servers == GetKeyOr(EntryAt(top, 0).value, "servers", Arr([]))
                      && r.value.systemUser == EntryAt(top, 0).value["system_user"]
                      && r.value.password == EntryAt(top, 0).value["password"]
    ensures EntryAt(top, 0).Ok? && "system_user" !in EntryAt(top, 0).value ==> r == Err(KeyError("system_user"))
    ensures EntryAt(top, 0).Ok? && "system_user" in EntryAt(top, 0).value && "password" in EntryAt(top, 0).value
            && !Truthy(GetKey(top, "integrations.ad.winrm_host"))
            ==> r == Err(Exception("Missing hostname for remote management server"))
  {
    var e :- EntryAt(top, 0);
    var winrm := GetKey(top, "integrations.ad.winrm_host");
    if "system_user" !in e then Err(KeyError("system_user"))
    else if "password" !in e then Err(KeyError("password"))
    else if !Truthy(winrm) then Err(Exception("Missing hostname for remote management server"))
    else Ok(Global(GetKey(top, "mora.base"), GetKeyOr(e, "servers", Arr([])), winrm, e["system_user"], e["password"]))
  }

  // ---------------------------------------------------------------------------
  // Primary read settings.

  /** The settings that must be in place, in the order they are checked. */
  const Required: seq<string> := ["search_base", "cpr_field", "system_user", "password", "properties"]

  /** The names among `keys` whose value is None, in order. */
  function NoneKeys(e: map<string, Json>, keys: seq<string>): (r: seq<string>)
    ensures forall k :: k in r <==> k in keys && GetKey(e, k).Null?
    ensures |r| <= |keys|
  {
    if |keys| == 0 then []
    else NoneKeys(e, keys[..|keys| - 1]) + (if GetKey(e, keys[|keys| - 1]).Null? then [keys[|keys| - 1]] else [])
  }

  /** The names are reported in the order of `keys`: those of a longer list
      are those of its first part followed by those of the rest. */
  lemma {:induction false} NoneKeysAppend(e: map<string, Json>, a: seq<string>, b: seq<string>)
    ensures NoneKeys(e, a + b) == NoneKeys(e, a) + NoneKeys(e, b)
    decreases |b|
  {
    if |b| > 0 {
      var b' := b[..|b| - 1];
      assert (a + b)[..|a + b| - 1] == a + b';
      assert (a + b)[|a + b| - 1] == b[|b| - 1];
      NoneKeysAppend(e, a, b');
    } else {
      assert a + b == a;
    }
  }

  /** The discriminator settings a set discriminator field needs but lacks. */
  function DiscriminatorMissing(e: map<string, Json>): (r: seq<string>)
    ensures GetKey(e, "discriminator.field").Null? ==> r == []
    ensures !GetKey(e, "discriminator.field").Null? ==>
      ("discriminator.values" in r <==> GetKey(e, "discriminator.values").Null?) &&
      ("discriminator.function" in r <==> GetKey(e, "discriminator.function").Null?)
  {
    if GetKey(e, "discriminator.field").Null? then []
    else (if GetKey(e, "discriminator.values").Null? then ["discriminator.values"] else [])
         + (if GetKey(e, "discriminator.function").Null? then ["discriminator.function"] else [])
  }

  /** Every setting the primary AD lacks, collected before any is reported. */
  function PrimaryMissing(e: map<string, Json>): seq<string>
  {
    NoneKeys(e, Required) + DiscriminatorMissing(e)
  }

  /** The discriminator function is one of the two known ones. */
  predicate KnownFunction(f: Json)
  {
    f == Str("include") || f == Str("exclude")
  }

  /** Python's repr of a list of strings: `['a', 'b']`. */
  function ListRepr(xs: seq<string>): string
  {
    "[" + Joined(xs) + "]"
  }

  function Joined(xs: seq<string>): string
  {
    if |xs| == 0 then ""
    else if |xs| == 1 then "'" + xs[0] + "'"
    else Joined(xs[..|xs| - 1]) + ", '" + xs[|xs| - 1] + "'"
  }

  /** The discriminator that tells primary AD users from others: absent when
      its field is None, else the field, the values and the rule. */
  datatype Discriminator = NoDiscriminator | Discriminator(field: Json, values: Json, rule: Json)

  /** The primary AD's read settings. */
  datatype Primary = Primary(
    searchBase: Json, cprField: Json, systemUser: Json, password: Json, properties: Json,
    discriminator: Discriminator,
    servers: Json, caselessSamname: Json, samFilter: Json, cprSeparator: Json,
    adMoSyncMapping: Json, authMethod: Json, getAdObject: bool)

  /** The required settings are those read into the first five fields. */
  function RequiredValues(p: Primary): seq<Json>
  {
    [p.searchBase, p.cprField, p.systemUser, p.password, p.properties]
  }

  /** The primary settings of an AD entry, optional settings defaulted. */
  function PrimaryOf(e: map<string, Json>): (p: Primary)
    ensures forall i :: 0 <= i < |Required| ==> RequiredValues(p)[i] == GetKey(e, Required[i])
  {
    var field := GetKey(e, "discriminator.field");
    Primary(
      GetKey(e, "search_base"), GetKey(e, "cpr_field"), GetKey(e, "system_user"),
      GetKey(e, "password"), GetKey(e, "properties"),
      if field.Null? then NoDiscriminator
      else Discriminator(field, GetKey(e, "discriminator.values"), GetKey(e, "discriminator.function")),
      GetKeyOr(e, "servers", Arr([])),
      GetKeyOr(e, "caseless_samname", Bool(true)),
      GetKeyOr(e, "sam_filter", Str("")),
      GetKeyOr(e, "cpr_separator", Str("")),
      GetKeyOr(e, "ad_mo_sync_mapping", Obj(map[])),
      GetKeyOr(e, "method", Str("kerberos")),
      false)
  }

  /** `_read_primary_ad_settings`. */
  function ReadPrimary(top: Settings, index: nat): (r: Result<Primary>)
    ensures GetKey(top, AdKey).Null? ==> r == Err(Exception("integration.ad settings not found"))
    ensures GetKey(top, AdKey).Arr? && |GetKey(top, AdKey).items| < index + 1 ==>
      r == Err(Exception("ad index " + NatToDigits(index) + " not found"))
    ensures r.Ok? ==> EntryAt(top, index).Ok? && r.value == PrimaryOf(EntryAt(top, index).value)
  {
    var ad := GetKey(top, AdKey);
    if ad.Null? then Err(Exception("integration.ad settings not found"))
    else if !ad.Arr? then Err(TypeError("len() of a non-list"))
    else if |ad.items| < index + 1 then Err(Exception("ad index " + NatToDigits(index) + " not found"))
    else if !ad.items[index].Obj? then Err(AttributeError("get"))
    else
      var e := ad.items[index].fields;
      if !GetKey(e, "discriminator.field").Null? && !KnownFunction(GetKey(e, "discriminator.function")) then
        Err(ValueError("'ad.discriminator.function' must be 'include' or 'exclude' for AD " + NatToDigits(index)))
      else if PrimaryMissing(e) != [] then
        Err(Exception("Missing settings in AD " + NatToDigits(index) + ": " + ListRepr(PrimaryMissing(e))))
      else Ok(PrimaryOf(e))
  }

  /** The settings read are complete: every required value is set, and a set
      discriminator has its values and a known rule. */
  predicate Complete(p: Primary)
  {
    (forall i :: 0 <= i < |RequiredValues(p)| ==> !RequiredValues(p)[i].Null?)
    && (p.discriminator.Discriminator? ==>
          !p.discriminator.field.Null? && !p.discriminator.values.Null? && KnownFunction(p.discriminator.rule))
  }

  /** With the entry in place: an unknown (or missing) discriminator function
      fails at once with ValueError, before missing settings are reported;
      otherwise every missing setting is reported together in one exception;
      otherwise the settings are read, and they are complete. */
  lemma PrimaryOutcome(top: Settings, index: nat)
    requires EntryAt(top, index).Ok?
    ensures var e := EntryAt(top, index).value;
      if !GetKey(e, "discriminator.field").Null? && !KnownFunction(GetKey(e, "discriminator.function")) then
        ReadPrimary(top, index).Err? && ReadPrimary(top, index).error.ValueError?
      else if PrimaryMissing(e) != [] then
        ReadPrimary(top, index) == Err(Exception("Missing settings in AD " + NatToDigits(index) + ": " + ListRepr(PrimaryMissing(e))))
      else
        ReadPrimary(top, index) == Ok(PrimaryOf(e)) && Complete(PrimaryOf(e))
  {
    var e := EntryAt(top, index).value;
    if GetKey(e, "discriminator.field").Null? || KnownFunction(GetKey(e, "discriminator.function")) {
      if PrimaryMissing(e) == [] {
        var p := PrimaryOf(e);
        forall i | 0 <= i < |RequiredValues(p)| ensures !RequiredValues(p)[i].Null? {
          assert Required[i] !in NoneKeys(e, Required) by {
            assert NoneKeys(e, Required) <= PrimaryMissing(e);
          }
        }
        if p.discriminator.Discriminator? {
          assert "discriminator.values" !in DiscriminatorMissing(e) by {
            assert DiscriminatorMissing(e) <= PrimaryMissing(e);
          }
        }
      }
    }
  }

  /** The reported list names exactly the required settings that are None,
      then the discriminator settings a set discriminator field lacks. */
  lemma MissingReported(e: map<string, Json>, k: string)
    ensures k in PrimaryMissing(e) <==>
      (k in Required && GetKey(e, k).Null?) ||
      (!GetKey(e, "discriminator.field").Null? &&
        ((k == "discriminator.values" && GetKey(e, "discriminator.values").Null?) ||
         (k == "discriminator.function" && GetKey(e, "discriminator.function").Null?)))
  {
  }

  /** A missing discriminator function is never among the reported settings:
      it is rejected as an unknown function first. */
  lemma MissingFunctionIsValueError(top: Settings, index: nat)
    requires EntryAt(top, index).Ok?
    requires var e := EntryAt(top, index).value;
      !GetKey(e, "discriminator.field").Null? && GetKey(e, "discriminator.function").Null?
    ensures ReadPrimary(top, index).Err? && ReadPrimary(top, index).error.ValueError?
  {
  }

  /** The optional settings and their defaults; `get_ad_object` is always
      false, and the discriminator is read exactly when its field is set. */
  lemma PrimaryDefaults(e: map<string, Json>)
    ensures var p := PrimaryOf(e);
      p.servers == GetKeyOr(e, "servers", Arr([])) &&
      p.caselessSamname == GetKeyOr(e, "caseless_samname", Bool(true)) &&
      p.samFilter == GetKeyOr(e, "sam_filter", Str("")) &&
      p.cprSeparator == GetKeyOr(e, "cpr_separator", Str("")) &&
      p.adMoSyncMapping == GetKeyOr(e, "ad_mo_sync_mapping", Obj(map[])) &&
      p.authMethod == GetKeyOr(e, "method", Str("kerberos")) &&
      !p.getAdObject &&
      (p.discriminator.Discriminator? <==> !GetKey(e, "discriminator.field").Null?)
  {
  }

  // ---------------------------------------------------------------------------
  // Primary write settings.

  /** The primary AD's write settings; an empty dict, meaning writing is
      disabled, is `WriteDisabled`. */
  datatype Write =
    | WriteDisabled
    | Write(cprField: Json, uuidField: Json, level2orgunitField: Json, orgField: Json, upnEnd: Json,
            level2orgunitType: Json, moToAdFields: map<string, Json>, templateToAdFields: map<string, Json>)

  /** The six write settings, in the order they are read: the first AD's cpr
      field and five top-level settings. */
  function WriteValues(e: map<string, Json>, top: Settings): seq<Json>
    requires "cpr_field" in e
  {
    [e["cpr_field"],
     GetKey(top, "integrations.ad.write.uuid_field"),
     GetKey(top, "integrations.ad.write.level2orgunit_field"),
     GetKey(top, "integrations.ad.write.org_unit_field"),
     GetKey(top, "integrations.ad.write.upn_end"),
     GetKey(top, "integrations.ad.write.level2orgunit_type")]
  }

  /** A position of the AD field-name list: a value of the MO-to-AD map, a key
      of the template map, or one of the three configured fields. */
  datatype Slot = MoSlot(key: string) | TemplateSlot(name: string) | OrgSlot | LevelSlot | UuidSlot

  /** The AD field names the write settings would use. */
  datatype FieldNames = FieldNames(mo: map<string, string>, templates: set<string>, org: string, level: string, uuid: string)

  /** The case-folded AD field name at a slot. */
  function NameAt(f: FieldNames, s: Slot): string
  {
    match s
    case MoSlot(k) => if k in f.mo then Lower(f.mo[k]) else ""
    case TemplateSlot(k) => Lower(k)
    case OrgSlot => Lower(f.org)
    case LevelSlot => Lower(f.level)
    case UuidSlot => Lower(f.uuid)
  }

  function MoSlots(keys: set<string>): set<Slot>
  {
    set k | k in keys :: MoSlot(k)
  }

  function TemplateSlots(keys: set<string>): set<Slot>
  {
    set k | k in keys :: TemplateSlot(k)
  }

  /** Every position of the field-name list. */
  function Slots(f: FieldNames): set<Slot>
  {
    MoSlots(f.mo.Keys) + TemplateSlots(f.templates) + {OrgSlot, LevelSlot, UuidSlot}
  }

  /** The case-folded names at the given positions. */
  function Image(f: FieldNames, slots: set<Slot>): set<string>
  {
    set s | s in slots :: NameAt(f, s)
  }

  /** `len(ad_field_names) > len(set(ad_field_names))`. */
  predicate Collide(f: FieldNames)
  {
    |f.mo| + |f.templates| + 3 > |Image(f, Slots(f))|
  }

  /** Two positions of the list hold the same name ignoring case. */
  predicate Repeated(f: FieldNames)
  {
    exists s, t :: s in Slots(f) && t in Slots(f) && s != t && NameAt(f, s) == NameAt(f, t)
  }

  /** The field names, when `.lower()` applies to each of them. */
  function NamesOf(mo: map<string, Json>, tpl: map<string, Json>, org: Json, level: Json, uuid: Json): (r: Option<FieldNames>)
    ensures r.Some? <==> (forall k :: k in mo ==> mo[k].Str?) && org.Str? && level.Str? && uuid.Str?
    ensures r.Some? ==> r.value.mo.Keys == mo.Keys && r.value.templates == tpl.Keys
  {
    if (forall k :: k in mo ==> mo[k].Str?) && org.Str? && level.Str? && uuid.Str? then
      Some(FieldNames(map k | k in mo :: mo[k].s, tpl.Keys, org.s, level.s, uuid.s))
    else None
  }

  /** `_read_primary_write_information`. */
  function ReadWrite(top: Settings): (r: Result<Write>)
    ensures r.Ok? && r.value.Write? ==>
      EntryAt(top, 0).Ok? && "cpr_field" in EntryAt(top, 0).value &&
      r.value.cprField == EntryAt(top, 0).value["cpr_field"] &&
      [r.value.cprField, r.value.uuidField, r.value.level2orgunitField, r.value.orgField, r.value.upnEnd,
       r.value.level2orgunitType] == WriteValues(EntryAt(top, 0).value, top) &&
      forall i :: 0 <= i < 6 ==> !WriteValues(EntryAt(top, 0).value, top)[i].Null?
    ensures EntryAt(top, 0).Ok? && "cpr_field" !in EntryAt(top, 0).value ==> r == Err(KeyError("cpr_field"))
  {
    var e :- EntryAt(top, 0);
    if "cpr_field" !in e then Err(KeyError("cpr_field"))
    else
      var w := WriteValues(e, top);
      if exists i :: 0 <= i < |w| && w[i].Null? then Ok(WriteDisabled)
      else
        var mo := GetKeyOr(top, "integrations.ad_writer.mo_to_ad_fields", Obj(map[]));
        var tpl := GetKeyOr(top, "integrations.ad_writer.template_to_ad_fields", Obj(map[]));
        if !mo.Obj? then Err(AttributeError("values"))
        else if !tpl.Obj? then Err(AttributeError("keys"))
        else match NamesOf(mo.fields, tpl.fields, w[3], w[2], w[1])
          case None => Err(AttributeError("lower"))
          case Some(names) =>
            if Collide(names) then Ok(WriteDisabled)
            else Ok(Write(w[0], w[1], w[2], w[3], w[4], w[5], mo.fields, tpl.fields))
  }

  /** Any write setting that is None disables writing. */
  lemma WriteDisabledWhenMissing(top: Settings, i: nat)
    requires EntryAt(top, 0).Ok? && "cpr_field" in EntryAt(top, 0).value
    requires i < 6 && WriteValues(EntryAt(top, 0).value, top)[i].Null?
    ensures ReadWrite(top) == Ok(WriteDisabled)
  {
  }

  /** With every write setting present and every name text, writing is
      enabled exactly when no two AD field names are equal ignoring case; the
      template maps default to empty dicts. */
  lemma WriteEnabled(top: Settings)
    requires EntryAt(top, 0).Ok? && "cpr_field" in EntryAt(top, 0).value
    requires forall i :: 0 <= i < 6 ==> !WriteValues(EntryAt(top, 0).value, top)[i].Null?
    requires GetKeyOr(top, "integrations.ad_writer.mo_to_ad_fields", Obj(map[])).Obj?
    requires GetKeyOr(top, "integrations.ad_writer.template_to_ad_fields", Obj(map[])).Obj?
    requires var w := WriteValues(EntryAt(top, 0).value, top);
      NamesOf(GetKeyOr(top, "integrations.ad_writer.mo_to_ad_fields", Obj(map[])).fields,
              GetKeyOr(top, "integrations.ad_writer.template_to_ad_fields", Obj(map[])).fields,
              w[3], w[2], w[1]).Some?
    ensures var w := WriteValues(EntryAt(top, 0).value, top);
      var mo := GetKeyOr(top, "integrations.ad_writer.mo_to_ad_fields", Obj(map[])).fields;
      var tpl := GetKeyOr(top, "integrations.ad_writer.template_to_ad_fields", Obj(map[])).fields;
      var names := NamesOf(mo, tpl, w[3], w[2], w[1]).value;
      (ReadWrite(top).Ok? && ReadWrite(top).value.Write? <==> !Repeated(names)) &&
      (!Repeated(names) ==> ReadWrite(top) == Ok(Write(w[0], w[1], w[2], w[3], w[4], w[5], mo, tpl)))
  {
    var w := WriteValues(EntryAt(top, 0).value, top);
    var mo := GetKeyOr(top, "integrations.ad_writer.mo_to_ad_fields", Obj(map[])).fields;
    var tpl := GetKeyOr(top, "integrations.ad_writer.template_to_ad_fields", Obj(map[])).fields;
    CollideIffRepeated(NamesOf(mo, tpl, w[3], w[2], w[1]).value);
  }

  // ---------------------------------------------------------------------------
  // The duplicate check counts a repeated name.

  /** No two positions among `slots` share a name. */
  predicate Injective(f: FieldNames, slots: set<Slot>)
  {
    forall s, t :: s in slots && t in slots && NameAt(f, s) == NameAt(f, t) ==> s == t
  }

  /** The names at a set of positions are no more than the positions, and as
      many exactly when no two positions share a name. */
  lemma {:induction false} ImageCard(f: FieldNames, slots: set<Slot>)
    ensures |Image(f, slots)| <= |slots|
    ensures |Image(f, slots)| == |slots| <==> Injective(f, slots)
    decreases |slots|
  {
    if slots != {} {
      var x :| x in slots;
      var rest := slots - {x};
      ImageCard(f, rest);
      if NameAt(f, x) in Image(f, rest) {
        var z :| z in rest && NameAt(f, z) == NameAt(f, x);
        assert Image(f, slots) == Image(f, rest);
        assert z in slots && x in slots && z != x;
      } else {
        assert Image(f, slots) == Image(f, rest) + {NameAt(f, x)};
        if Injective(f, rest) {
          forall s, t | s in slots && t in slots && NameAt(f, s) == NameAt(f, t) ensures s == t {
          }
        }
      }
    }
  }

  lemma {:induction false} MoSlotsCard(keys: set<string>)
    ensures |MoSlots(keys)| == |keys|
    decreases |keys|
  {
    if keys != {} {
      var k :| k in keys;
      MoSlotsCard(keys - {k});
      assert MoSlots(keys) == MoSlots(keys - {k}) + {MoSlot(k)};
    }
  }

  lemma {:induction false} TemplateSlotsCard(keys: set<string>)
    ensures |TemplateSlots(keys)| == |keys|
    decreases |keys|
  {
    if keys != {} {
      var k :| k in keys;
      TemplateSlotsCard(keys - {k});
      assert TemplateSlots(keys) == TemplateSlots(keys - {k}) + {TemplateSlot(k)};
    }
  }

  /** The field-name list has `|mo| + |templates| + 3` positions. */
  lemma SlotCount(f: FieldNames)
    ensures |Slots(f)| == |f.mo| + |f.templates| + 3
  {
    var mo, templates := MoSlots(f.mo.Keys), TemplateSlots(f.templates);
    var fixed: set<Slot> := {OrgSlot, LevelSlot, UuidSlot};
    MoSlotsCard(f.mo.Keys);
    TemplateSlotsCard(f.templates);
    assert forall x :: x in mo ==> x.MoSlot?;
    assert forall x :: x in templates ==> x.TemplateSlot?;
    assert mo * templates == {};
    var named := mo + templates;
    assert |named| == |mo| + |templates|;
    assert forall x :: x in named ==> x.MoSlot? || x.TemplateSlot?;
    assert named * fixed == {};
    assert |fixed| == 3;
    assert Slots(f) == named + fixed;
  }

  /** The duplicate check fires exactly when two positions of the list hold
      the same name ignoring case. */
  lemma CollideIffRepeated(f: FieldNames)
    ensures Collide(f) <==> Repeated(f)
  {
    SlotCount(f);
    ImageCard(f, Slots(f));
  }

  /** A template field spelled like the uuid field up to case disables writing. */
  lemma CaseInsensitiveExample(f: FieldNames)
    requires f.uuid == "ObjectGuid" && f.templates == {"objectguid"}
    ensures Collide(f)
  {
    assert Lower("ObjectGuid") == "objectguid" by {
      assert Lower("ObjectGuid")[0] == 'o' && Lower("ObjectGuid")[6] == 'g';
    }
    assert TemplateSlot("objectguid") in Slots(f);
    assert UuidSlot in Slots(f);
    assert NameAt(f, TemplateSlot("objectguid")) == NameAt(f, UuidSlot);
    CollideIffRepeated(f);
  }

  // ---------------------------------------------------------------------------
  // All settings.

  /** The integration's settings. */
  datatype AdConfig = AdConfig(global: Global, primary: Primary, primaryWrite: Write)

  /** `read_settings`: the three parts, the first failure stopping the read. */
  function ReadSettings(top: Settings, index: nat): (r: Result<AdConfig>)
    ensures r.Ok? <==> ReadGlobal(top).Ok? && ReadPrimary(top, index).Ok? && ReadWrite(top).Ok?
    ensures ReadGlobal(top).Err? ==> r == Err(ReadGlobal(top).error)
    ensures ReadGlobal(top).Ok? && ReadPrimary(top, index).Err? ==> r == Err(ReadPrimary(top, index).error)
    ensures r.Ok? ==> r.value == AdConfig(ReadGlobal(top).value, ReadPrimary(top, index).value, ReadWrite(top).value)
  {
    var g :- ReadGlobal(top);
    var p :- ReadPrimary(top, index);
    var w :- ReadWrite(top);
    Ok(AdConfig(g, p, w))
  }
}

=== FILE: common.dfy ===
/** Failure-carrying values shared by every module of the model.

    The modelled code signals failure by raising Python exceptions; the model
    returns `Err` with the exception class the code would raise instead.
 */
module Common {

  datatype Option<+T> = None | Some(value: T)

  /** The Python exception classes the modelled code raises. */
  datatype Error =
    | TypeError(what: string)
    | ValueError(what: string)
    | KeyError(what: string)
    | IndexError(what: string)
    | ReferenceError(what: string)
    | AssertionError(what: string)
    | ConnectionError(what: string)
    | ZeroDivisionError(what: string)
    | AttributeError(what: string)
    | OverflowError(what: string)
    | Exception(what: string)

  datatype Result<+T> = Ok(value: T) | Err(error: Error) {
    predicate IsFailure() { Err? }

    function PropagateFailure<U>(): Result<U>
      requires Err?
    {
      Err(error)
    }

    function Extract(): T
      requires Ok?
    {
      value
    }
  }

  /** Being a prefix is transitive. */
  lemma PrefixTrans<T>(a: seq<T>, b: seq<T>, c: seq<T>)
    requires |a| <= |b| && b[..|a|] == a
    requires |b| <= |c| && c[..|b|] == b
    ensures |a| <= |c| && c[..|a|] == a
  {
    assert c[..|a|] == c[..|b|][..|a|];
  }

  /** Python's `d.get(k)` on a dict modelled as a map. */
  function Get<K, V>(m: map<K, V>, k: K): Option<V>
  {
    if k in m then Some(m[k]) else None
  }
}

=== FILE: dates.dfy ===
/** ISO 8601 calendar dates (`YYYY-MM-DD`) on the proleptic Gregorian calendar,
    as Python's `datetime` handles them: years 1..9999, day arithmetic through
    the ordinal day number, and the text form the directory exchanges. */
module Dates {
  import opened Common
  import opened Text

  datatype Date = Date(year: int, month: int, day: int)

  predicate IsLeap(y: int)
  {
    y % 4 == 0 && (y % 100 != 0 || y % 400 == 0)
  }

  function DaysInMonth(y: int, m: int): int
  {
    if m == 2 then (if IsLeap(y) then 29 else 28)
    else if m == 4 || m == 6 || m == 9 || m == 11 then 30
    else 31
  }

  function YearLength(y: int): int
  {
    if IsLeap(y) then 366 else 365
  }

  /** A date `datetime.date` accepts. */
  predicate Valid(d: Date)
  {
    1 <= d.year <= 9999 && 1 <= d.month <= 12 && 1 <= d.day <= DaysInMonth(d.year, d.month)
  }

  const MaxDate: Date := Date(9999, 12, 31)

  /** Chronological order. */
  predicate Before(a: Date, b: Date)
  {
    a.year < b.year
    || (a.year == b.year && a.month < b.month)
    || (a.year == b.year && a.month == b.month && a.day < b.day)
  }

  // ---------------------------------------------------------------------------
  // Ordinal day numbers (`date.toordinal()`: 0001-01-01 is day 1).

  function DaysBeforeYear(y: int): int
    requires y >= 1
  {
    var n := y - 1;
    n * 365 + n / 4 - n / 100 + n / 400
  }

  function DaysBeforeMonth(y: int, m: int): int
    requires 1 <= m <= 12
  {
    var table := [0, 31, 59, 90, 120, 151, 181, 212, 243, 273, 304, 334];
    table[m - 1] + (if m > 2 && IsLeap(y) then 1 else 0)
  }

  function Ordinal(d: Date): int
    requires Valid(d)
  {
    DaysBeforeYear(d.year) + DaysBeforeMonth(d.year, d.month) + d.day
  }

  lemma DaysBeforeYearStep(y: int)
    requires y >= 1
    ensures DaysBeforeYear(y + 1) == DaysBeforeYear(y) + YearLength(y)
  {
    var n := y - 1;
    Step4(n);
    Step100(n);
    Step400(n);
    Multiples(y);
  }

  lemma Step4(n: int)
    requires n >= 0
    ensures (n + 1) / 4 - n / 4 == if (n + 1) % 4 == 0 then 1 else 0
  {
  }

  lemma Step100(n: int)
    requires n >= 0
    ensures (n + 1) / 100 - n / 100 == if (n + 1) % 100 == 0 then 1 else 0
  {
  }

  lemma Step400(n: int)
    requires n >= 0
    ensures (n + 1) / 400 - n / 400 == if (n + 1) % 400 == 0 then 1 else 0
  {
  }

  lemma Multiples(y: int)
    requires y >= 1
    ensures y % 400 == 0 ==> y % 100 == 0
    ensures y % 100 == 0 ==> y % 4 == 0
  {
    if y % 400 == 0 {
      var q := y / 400;
      assert y == 100 * (4 * q);
      assert y / 100 == 4 * q;
    }
    if y % 100 == 0 {
      var q := y / 100;
      assert y == 4 * (25 * q);
      assert y / 4 == 25 * q;
    }
  }

  lemma {:induction false} DaysBeforeYearMonotone(y1: int, y2: int)
    requires 1 <= y1 < y2
    ensures DaysBeforeYear(y1) + YearLength(y1) <= DaysBeforeYear(y2)
    decreases y2 - y1
  {
    DaysBeforeYearStep(y1);
    if y1 + 1 < y2 {
      DaysBeforeYearMonotone(y1 + 1, y2);
    }
  }

  lemma MonthStep(y: int, m: int)
    requires 1 <= m < 12
    ensures DaysBeforeMonth(y, m + 1) == DaysBeforeMonth(y, m) + DaysInMonth(y, m)
  {
  }

  lemma YearEnd(y: int)
    ensures DaysBeforeMonth(y, 12) + 31 == YearLength(y)
  {
  }

  /** The ordinal numbering is strictly monotone in chronological order. */
  lemma OrdinalMonotone(a: Date, b: Date)
    requires Valid(a) && Valid(b) && Before(a, b)
    ensures Ordinal(a) < Ordinal(b)
  {
    if a.year < b.year {
      DaysBeforeYearMonotone(a.year, b.year);
      assert DaysBeforeMonth(a.year, a.month) + a.day <= YearLength(a.year) by {
        if a.month < 12 {
          MonthBound(a.year, a.month);
        } else {
          YearEnd(a.year);
        }
      }
    } else if a.month < b.month {
      MonthBound(a.year, a.month);
      MonthsMonotone(a.year, a.month + 1, b.month);
    }
  }

  lemma MonthBound(y: int, m: int)
    requires 1 <= m < 12
    ensures DaysBeforeMonth(y, m) + DaysInMonth(y, m) == DaysBeforeMonth(y, m + 1)
  {
  }

  lemma MonthsMonotone(y: int, m1: int, m2: int)
    requires 1 <= m1 <= m2 <= 12
    ensures DaysBeforeMonth(y, m1) <= DaysBeforeMonth(y, m2)
  {
  }

  /** Chronological order is exactly ordinal order, so equal ordinals mean
      equal dates. */
  lemma OrdinalOrder(a: Date, b: Date)
    requires Valid(a) && Valid(b)
    ensures Before(a, b) <==> Ordinal(a) < Ordinal(b)
    ensures a == b <==> Ordinal(a) == Ordinal(b)
  {
    if Before(a, b) {
      OrdinalMonotone(a, b);
    } else if Before(b, a) {
      OrdinalMonotone(b, a);
    }
  }

  // ---------------------------------------------------------------------------
  // The next calendar day.

  /** `d + timedelta(days=1)`; None where Python raises OverflowError. */
  function DayAfter(d: Date): (r: Option<Date>)
    requires Valid(d)
    ensures r.None? <==> d == MaxDate
    ensures r.Some? ==> Valid(r.value) && Before(d, r.value)
  {
    if d.day < DaysInMonth(d.year, d.month) then Some(Date(d.year, d.month, d.day + 1))
    else if d.month < 12 then Some(Date(d.year, d.month + 1, 1))
    else if d.year < 9999 then Some(Date(d.year + 1, 1, 1))
    else None
  }

  lemma DayAfterOrdinal(d: Date)
    requires Valid(d) && d != MaxDate
    ensures Ordinal(DayAfter(d).value) == Ordinal(d) + 1
  {
    if d.day < DaysInMonth(d.year, d.month) {
    } else if d.month < 12 {
      MonthStep(d.year, d.month);
    } else {
      DaysBeforeYearStep(d.year);
      YearEnd(d.year);
    }
  }

  /** The day after is the next day: no date lies strictly between. */
  lemma DayAfterIsNext(d: Date, e: Date)
    requires Valid(d) && Valid(e) && Before(d, e)
    ensures DayAfter(d).Some?
    ensures DayAfter(d).value == e || Before(DayAfter(d).value, e)
  {
    MaxDateIsLast(e);
    OrdinalOrder(d, e);
    DayAfterOrdinal(d);
    OrdinalOrder(DayAfter(d).value, e);
  }

  lemma MaxDateIsLast(e: Date)
    requires Valid(e)
    ensures !Before(MaxDate, e)
  {
  }

  // ---------------------------------------------------------------------------
  // Text form `YYYY-MM-DD`.

  function Pow10(k: nat): nat
  {
    if k == 0 then 1 else 10 * Pow10(k - 1)
  }

  /** `n` written with exactly `k` digits, zero-padded (n modulo 10^k). */
  function Pad(n: nat, k: nat): (r: string)
    ensures |r| == k && forall i :: 0 <= i < k ==> IsDigit(r[i])
  {
    if k == 0 then "" else Pad(n / 10, k - 1) + [DigitChar(n % 10)]
  }

  lemma {:induction false} PadValue(n: nat, k: nat)
    requires n < Pow10(k)
    ensures DigitsValue(Pad(n, k)) == n
  {
    if k > 0 {
      PadValue(n / 10, k - 1);
      assert Pad(n, k)[..k - 1] == Pad(n / 10, k - 1);
    }
  }

  lemma {:induction false} PadOfValue(s: string)
    requires forall i :: 0 <= i < |s| ==> IsDigit(s[i])
    ensures Pad(DigitsValue(s), |s|) == s
  {
    if |s| > 0 {
      var k := |s|;
      var v := DigitsValue(s);
      PadOfValue(s[..k - 1]);
      assert v / 10 == DigitsValue(s[..k - 1]);
      assert DigitChar(v % 10) == s[k - 1];
      assert s == s[..k - 1] + [s[k - 1]];
    }
  }

  lemma {:induction false} PadOrder(a: nat, b: nat, k: nat)
    requires a < Pow10(k) && b < Pow10(k)
    ensures StrLess(Pad(a, k), Pad(b, k)) <==> a < b
  {
    if k == 0 {
    } else {
      var pa, pb := Pad(a / 10, k - 1), Pad(b / 10, k - 1);
      assert Pad(a, k) == pa + [DigitChar(a % 10)] && Pad(b, k) == pb + [DigitChar(b % 10)];
      StrLessConcat(pa, [DigitChar(a % 10)], pb, [DigitChar(b % 10)]);
      DropDigit(a, k);
      DropDigit(b, k);
      PadOrder(a / 10, b / 10, k - 1);
      PadValue(a / 10, k - 1);
      PadValue(b / 10, k - 1);
      assert pa == pb <==> a / 10 == b / 10;
      DigitOrder(a % 10, b % 10);
      DecimalOrder(a, b);
    }
  }

  /** Dropping the last digit of a `k`-digit number leaves `k - 1` digits. */
  lemma DropDigit(n: nat, k: nat)
    requires k > 0 && n < Pow10(k)
    ensures n / 10 < Pow10(k - 1)
  {
  }

  /** Numbers compare as their leading digits, then their last digit. */
  lemma DecimalOrder(a: nat, b: nat)
    ensures a < b <==> a / 10 < b / 10 || (a / 10 == b / 10 && a % 10 < b % 10)
  {
    assert a == 10 * (a / 10) + a % 10 && b == 10 * (b / 10) + b % 10;
  }

  /** One-digit texts sort as their digits. */
  lemma DigitOrder(x: nat, y: nat)
    requires x < 10 && y < 10
    ensures StrLess([DigitChar(x)], [DigitChar(y)]) <==> x < y
  {
    var cx, cy := [DigitChar(x)], [DigitChar(y)];
    assert cx[1..] == [] && cy[1..] == [];
    if x == y {
      StrLessIrreflexive(cx);
    }
  }

  function Format(d: Date): (r: string)
    requires Valid(d)
    ensures |r| == 10
  {
    Pad(d.year, 4) + ("-" + (Pad(d.month, 2) + ("-" + Pad(d.day, 2))))
  }

  predicate AllDigits(s: string)
  {
    forall i :: 0 <= i < |s| ==> IsDigit(s[i])
  }

  /** `datetime.strptime(s, '%Y-%m-%d')` on the canonical ten-character form;
      None where Python raises ValueError. */
  function Parse(s: string): (r: Option<Date>)
    ensures r.Some? ==> Valid(r.value)
  {
    if |s| == 10 && s[4] == '-' && s[7] == '-'
       && AllDigits(s[..4]) && AllDigits(s[5..7]) && AllDigits(s[8..])
    then
      var d := Date(DigitsValue(s[..4]), DigitsValue(s[5..7]), DigitsValue(s[8..]));
      if Valid(d) then Some(d) else None
    else None
  }

  /** Reading back a written date yields the same date. */
  lemma ParseFormat(d: Date)
    requires Valid(d)
    ensures Parse(Format(d)) == Some(d)
  {
    var s := Format(d);
    assert s[..4] == Pad(d.year, 4);
    assert s[5..7] == Pad(d.month, 2);
    assert s[8..] == Pad(d.day, 2);
    PadValue(d.year, 4);
    PadValue(d.month, 2);
    PadValue(d.day, 2);
  }

  /** Every text Parse accepts is the canonical text of its date. */
  lemma FormatParse(s: string)
    requires Parse(s).Some?
    ensures Format(Parse(s).value) == s
  {
    PadOfValue(s[..4]);
    PadOfValue(s[5..7]);
    PadOfValue(s[8..]);
    assert s == s[..4] + ("-" + (s[5..7] + ("-" + s[8..])));
  }

  /** Sorting date texts as strings sorts the dates chronologically. */
  lemma FormatOrder(a: Date, b: Date)
    requires Valid(a) && Valid(b)
    ensures StrLess(Format(a), Format(b)) <==> Before(a, b)
  {
    var da, db := "-" + Pad(a.day, 2), "-" + Pad(b.day, 2);
    var ma, mb := "-" + (Pad(a.month, 2) + da), "-" + (Pad(b.month, 2) + db);
    StrLessConcat(Pad(a.year, 4), ma, Pad(b.year, 4), mb);
    PadOrder(a.year, b.year, 4);
    PadValue(a.year, 4);
    PadValue(b.year, 4);
    StrLessConcat("-", Pad(a.month, 2) + da, "-", Pad(b.month, 2) + db);
    StrLessIrreflexive("-");
    StrLessConcat(Pad(a.month, 2), da, Pad(b.month, 2), db);
    PadOrder(a.month, b.month, 2);
    PadValue(a.month, 2);
    PadValue(b.month, 2);
    StrLessConcat("-", Pad(a.day, 2), "-", Pad(b.day, 2));
    assert "-" + Pad(a.day, 2) + "" == da && "-" + Pad(b.day, 2) + "" == db;
    PadOrder(a.day, b.day, 2);
  }

  lemma FormatInjective(a: Date, b: Date)
    requires Valid(a) && Valid(b) && Format(a) == Format(b)
    ensures a == b
  {
    ParseFormat(a);
    ParseFormat(b);
  }

  // ---------------------------------------------------------------------------
  // `_compare_dates`.

  /** `strptime(first) + timedelta(days=diff) == strptime(second)`: true iff
      `second` is exactly `diff` calendar days after `first`. */
  function CompareDates(first: string, second: string, diff: int): (r: Result<bool>)
    ensures r.Err? ==> Parse(first).None? || Parse(second).None? || r.error.OverflowError?
    ensures r.Ok? ==> Parse(first).Some? && Parse(second).Some?
    ensures r == Ok(true) ==> Ordinal(Parse(second).value) == Ordinal(Parse(first).value) + diff
  {
    match Parse(first)
    case None => Err(ValueError("time data does not match format '%Y-%m-%d'"))
    case Some(a) =>
      match Parse(second)
      case None => Err(ValueError("time data does not match format '%Y-%m-%d'"))
      case Some(b) =>
        var target := Ordinal(a) + diff;
        if target < 1 || target > Ordinal(MaxDate) then Err(OverflowError("date value out of range"))
        else Ok(Ordinal(b) == target)
  }

  /** With the default difference of one day, the comparison holds exactly when
      the second date is the day after the first. */
  lemma CompareDatesDayAfter(first: string, second: string)
    requires Parse(first).Some? && Parse(second).Some?
    ensures CompareDates(first, second, 1) == Ok(true)
            <==> DayAfter(Parse(first).value) == Some(Parse(second).value)
  {
    var a, b := Parse(first).value, Parse(second).value;
    OrdinalOrder(a, MaxDate);
    OrdinalOrder(b, MaxDate);
    MaxDateIsLast(b);
    if a != MaxDate {
      DayAfterOrdinal(a);
      OrdinalOrder(DayAfter(a).value, b);
    }
  }

  /** The example texts read as the dates they spell. */
  lemma ExampleTexts()
    ensures Parse("2020-02-29") == Some(Date(2020, 2, 29))
    ensures Parse("2020-03-01") == Some(Date(2020, 3, 1))
    ensures Parse("2020-03-05") == Some(Date(2020, 3, 5))
  {
    var a := Date(2020, 2, 29);
    var b := Date(2020, 3, 1);
    var c := Date(2020, 3, 5);
    ParseFormat(a);
    ParseFormat(b);
    ParseFormat(c);
    assert Format(a) == "2020-02-29" by { FormatText(a); }
    assert Format(b) == "2020-03-01" by { FormatText(b); }
    assert Format(c) == "2020-03-05" by { FormatText(c); }
  }

  /** The day after a leap day is the first of March, not the fifth. */
  lemma CompareDatesExamples()
    ensures CompareDates("2020-02-29", "2020-03-01", 1) == Ok(true)
    ensures CompareDates("2020-02-29", "2020-03-05", 1) == Ok(false)
  {
    ExampleTexts();
    CompareDatesDayAfter("2020-02-29", "2020-03-01");
    CompareDatesDayAfter("2020-02-29", "2020-03-05");
  }

  /** 2019 has no 29 February, so the text does not parse. */
  lemma NoLeapDay2019()
    ensures CompareDates("2019-02-29", "2019-03-01", 1).Err?
  {
    var s := "2019-02-29";
    assert s[..4] == "2019" && s[5..7] == "02" && s[8..] == "29";
    assert DigitsValue("2019") == 2019 by {
      assert "2019"[..3] == "201" && "201"[..2] == "20" && "20"[..1] == "2" && "2"[..0] == "";
    }
    assert DigitsValue("02") == 2 by {
      assert "02"[..1] == "0" && "0"[..0] == "";
    }
    assert DigitsValue("29") == 29 by {
      assert "29"[..1] == "2" && "2"[..0] == "";
    }
    assert !IsLeap(2019);
    assert !Valid(Date(2019, 2, 29));
    assert Parse(s).None?;
  }

  lemma FormatText(d: Date)
    requires Valid(d)
    ensures Format(d) == Pad(d.year, 4) + "-" + Pad(d.month, 2) + "-" + Pad(d.day, 2)
  {
  }
}

=== FILE: execute_ad_script.dfy ===
/** The AD script executor's template handling: the keyword check of a loaded
    PowerShell template, the removal of `<# … #>` block comments, and the
    line-by-line rewrite that fills in the user's values. */
module ExecuteAdScript {
  import opened Common
  import opened Text

  /** Every template keyword starts with this. */
  const Opener: string := "%OS2MO_"

  /** The keys of the replacement scaffold, in dict order. */
  const Scaffold: seq<string> := [
    "%OS2MO_AD_BRUGERNAVN%", "%OS2MO_BRUGER_FORNAVN%", "%OS2MO_BRUGER_EFTERNAVN%", "%OS2MO_BRUGER_CPR%",
    "%OS2MO_LEDER_EMAIL%", "%OS2MO_LEDER_NAVN%", "%OS2MO_BRUGER_ENHED%", "%OS2MO_BRUGER_ENHED_UUID%"]

  /** Python's `s[i:j]` for non-negative bounds. */
  function Slice(s: string, i: nat, j: nat): (r: string)
    ensures i < j <= |s| ==> r == s[i..j]
  {
    if i >= j || i >= |s| then "" else s[i..if j <= |s| then j else |s|]
  }

  // ---------------------------------------------------------------------------
  // Keyword scan.

  /** The keyword read at an opener: through the next `%`, or the empty
      string when no `%` follows. */
  function TokenAt(line: string, p: nat): string
  {
    Slice(line, p, Find(line, "%", p + 1) + 1)
  }

  /** A complete keyword: the opener, then no `%` until the closing one. */
  predicate IsToken(k: string)
  {
    |k| >= |Opener| + 1 && k[..|Opener|] == Opener && k[|k| - 1] == '%'
    && forall j :: 0 < j < |k| - 1 ==> k[j] != '%'
  }

  /** The keyword at an opener is complete, or empty when unterminated. */
  lemma TokenShape(line: string, p: nat)
    requires OccursAt(line, Opener, p)
    ensures TokenAt(line, p) == "" <==> Find(line, "%", p + 1) == -1
    ensures TokenAt(line, p) != "" ==> IsToken(TokenAt(line, p))
  {
    var end := Find(line, "%", p + 1);
    assert line[p..p + |Opener|] == Opener;
    forall j | p < j < p + |Opener| ensures line[j] != '%' {
      assert line[j] == Opener[j - p];
    }
    if end != -1 {
      assert line[end] == '%' by {
        assert line[end..end + 1][0] == line[end];
      }
      assert end >= p + |Opener|;
      var k := TokenAt(line, p);
      assert k == line[p..end + 1];
      assert k[..|Opener|] == line[p..p + |Opener|];
      forall j | 0 < j < |k| - 1 ensures k[j] != '%' {
        assert k[j] == line[p + j];
        if p + j >= p + |Opener| {
          assert !OccursAt(line, "%", p + j);
          assert line[p + j..p + j + 1][0] == line[p + j];
        }
      }
    }
  }

  /** After reading the keyword at `index`, the scan resumes at a later
      opener or stops. */
  lemma NextOpener(line: string, index: nat)
    requires OccursAt(line, Opener, index)
    ensures var next := Find(line, Opener, Find(line, "%", index + 1));
            next == -1 || next > index
  {
  }

  function Measure(line: string, index: int): nat
    requires index == -1 || OccursAt(line, Opener, index)
  {
    if index < 0 then 0 else |line| + 1 - index
  }

  /** The loop of `_validate_script` on one line, from the opener found at
      `index`, running while `index > floor`. The code as written has floor 0. */
  function Collect(line: string, index: int, floor: int): (r: set<string>)
    requires floor >= -1
    requires index == -1 || OccursAt(line, Opener, index)
    ensures index <= floor ==> r == {}
    ensures forall k :: k in r ==> k == "" || IsToken(k)
    decreases Measure(line, index)
  {
    if index <= floor then {}
    else
      var end := Find(line, "%", index + 1);
      var next := Find(line, Opener, end);
      NextOpener(line, index);
      TokenShape(line, index);
      {TokenAt(line, index)} + Collect(line, next, floor)
  }

  /** Reference definition: the keywords at every opener at or after `from`. */
  function Occurrences(line: string, from: nat): set<string>
  {
    set p: nat | from <= p <= |line| && OccursAt(line, Opener, p) :: TokenAt(line, p)
  }

  /** No opener lies strictly between one opener and the next the scan finds. */
  lemma {:induction false} OccurrencesStep(line: string, index: nat)
    requires OccursAt(line, Opener, index)
    ensures var next := Find(line, Opener, Find(line, "%", index + 1));
            && (next == -1 ==> Occurrences(line, index) == {TokenAt(line, index)})
            && (next != -1 ==> Occurrences(line, index) == {TokenAt(line, index)} + Occurrences(line, next))
  {
    var end := Find(line, "%", index + 1);
    var next := Find(line, Opener, end);
    forall q: nat | index < q <= |line| && OccursAt(line, Opener, q)
      ensures next != -1 && next <= q
    {
      assert line[q] == Opener[0];
      assert OccursAt(line, "%", q) by {
        assert line[q..q + 1] == [line[q]];
      }
      assert end != -1 && end <= q;
    }
    NextOpener(line, index);
  }

  /** The scan collects exactly the keywords at the openers from `index` on. */
  lemma {:induction false} CollectExact(line: string, index: nat, floor: int)
    requires floor >= -1 && index > floor
    requires OccursAt(line, Opener, index)
    ensures Collect(line, index, floor) == Occurrences(line, index)
    decreases |line| - index
  {
    var end := Find(line, "%", index + 1);
    var next := Find(line, Opener, end);
    NextOpener(line, index);
    OccurrencesStep(line, index);
    if next != -1 {
      CollectExact(line, next, floor);
    }
  }

  /** Before the first opener there is none. */
  lemma OccurrencesFromFirst(line: string)
    requires Find(line, Opener, 0) != -1
    ensures Occurrences(line, 0) == Occurrences(line, Find(line, Opener, 0))
  {
  }

  /** The keywords of one line, text from the first `#` on excluded. */
  function LineKeywords(line: string, floor: int): set<string>
    requires floor >= -1
  {
    var code := Before(line, '#');
    Collect(code, Find(code, Opener, 0), floor)
  }

  /** As written, a line whose code starts with an opener yields no keyword
      at all; otherwise every opener's keyword is collected. */
  lemma LineKeywordsAsWritten(line: string)
    ensures var code := Before(line, '#');
            LineKeywords(line, 0) == if Find(code, Opener, 0) == 0 then {} else Occurrences(code, 0)
  {
    var code := Before(line, '#');
    var first := Find(code, Opener, 0);
    if first > 0 {
      CollectExact(code, first, 0);
      OccurrencesFromFirst(code);
    }
  }

  /** With the intended `index >= 0`, every opener's keyword is collected. */
  lemma LineKeywordsIntended(line: string)
    ensures var code := Before(line, '#');
            LineKeywords(line, -1) == Occurrences(code, 0)
  {
    var code := Before(line, '#');
    var first := Find(code, Opener, 0);
    if first >= 0 {
      CollectExact(code, first, -1);
      OccurrencesFromFirst(code);
    }
  }

  /** A comment changes nothing: only the code before `#` is scanned. */
  lemma CommentIgnored(code: string, comment: string, floor: int)
    requires floor >= -1 && '#' !in code
    ensures LineKeywords(code + "#" + comment, floor) == LineKeywords(code, floor)
  {
    var line := code + "#" + comment;
    assert '#' in line by { assert line[|code|] == '#'; }
    forall j | 0 <= j < |code| ensures line[j] != '#' {
      assert line[j] == code[j];
    }
    BeforeAt(line, '#', |code|);
    assert line[..|code|] == code;
  }

  /** The keywords of every line of a script. */
  function KeywordsOf(lines: seq<string>, floor: int): set<string>
    requires floor >= -1
  {
    if |lines| == 0 then {}
    else KeywordsOf(lines[..|lines| - 1], floor) + LineKeywords(lines[|lines| - 1], floor)
  }

  lemma {:induction false} KeywordsOfLines(lines: seq<string>, floor: int, k: string)
    requires floor >= -1
    ensures k in KeywordsOf(lines, floor) <==> exists i :: 0 <= i < |lines| && k in LineKeywords(lines[i], floor)
    decreases |lines|
  {
    if |lines| > 0 {
      var init := lines[..|lines| - 1];
      var last := LineKeywords(lines[|lines| - 1], floor);
      assert KeywordsOf(lines, floor) == KeywordsOf(init, floor) + last;
      KeywordsOfLines(init, floor, k);
      if exists i :: 0 <= i < |lines| && k in LineKeywords(lines[i], floor) {
        var i :| 0 <= i < |lines| && k in LineKeywords(lines[i], floor);
        if i < |lines| - 1 {
          assert lines[i] == init[i];
        }
      }
      if exists i :: 0 <= i < |init| && k in LineKeywords(init[i], floor) {
        var i :| 0 <= i < |init| && k in LineKeywords(init[i], floor);
        assert init[i] == lines[i];
      }
    }
  }

  /** Every keyword is a key of the scaffold. */
  predicate Known(keywords: set<string>)
  {
    forall k :: k in keywords ==> k in Scaffold
  }

  /** `_validate_script` with the loop running while `index > floor`: no
      script is an error, and so is any collected keyword outside the
      scaffold. */
  function Validate(script: Option<string>, floor: int): (r: Result<()>)
    requires floor >= -1
    ensures script.None? ==> r == Err(Exception("No script loaded!"))
    ensures r.Ok? <==> script.Some? && Known(KeywordsOf(Split(script.value, '\n'), floor))
  {
    match script
    case None => Err(Exception("No script loaded!"))
    case Some(s) =>
      if !Known(KeywordsOf(Split(s, '\n'), floor)) then Err(Exception("Unknown keywords present in template"))
      else Ok(())
  }

  /** As written, a line yields at most the keywords the intended scan finds
      on it, so a script yields at most those too. */
  lemma {:induction false} AsWrittenScansLess(lines: seq<string>)
    ensures KeywordsOf(lines, 0) <= KeywordsOf(lines, -1)
    decreases |lines|
  {
    if |lines| > 0 {
      AsWrittenScansLess(lines[..|lines| - 1]);
      LineKeywordsAsWritten(lines[|lines| - 1]);
      LineKeywordsIntended(lines[|lines| - 1]);
    }
  }

  /** The check as written: the scan loop requires `index > 0`. It accepts
      every script the intended check accepts (and, by
      ColumnZeroKeywordMissed, some it rejects). */
  function ValidateAsWritten(script: Option<string>): (r: Result<()>)
    ensures script.None? ==> r == Err(Exception("No script loaded!"))
    ensures ValidateScript(script).Ok? ==> r.Ok?
  {
    match script
    case None => Validate(script, 0)
    case Some(s) => AsWrittenScansLess(Split(s, '\n')); Validate(script, 0)
  }

  /** The check as evidently intended: the scan loop runs while an opener
      is found (`index >= 0`), so every keyword at every opener of every
      line's code is checked. */
  function ValidateScript(script: Option<string>): (r: Result<()>)
    ensures script.None? ==> r == Err(Exception("No script loaded!"))
    ensures script.Some? ==> (r.Ok? <==> AllLinesKnown(Split(script.value, '\n')))
    ensures r.Err? && script.Some? ==> r.error == Exception("Unknown keywords present in template")
  {
    match script
    case None => Validate(script, -1)
    case Some(s) => ValidateScriptExact(s); Validate(script, -1)
  }

  /** The keywords at every opener of every line's code are known. */
  predicate AllLinesKnown(lines: seq<string>)
  {
    forall i :: 0 <= i < |lines| ==> Known(Occurrences(Before(lines[i], '#'), 0))
  }

  /** The intended check passes exactly when every keyword at every opener
      of every line's code is a scaffold key. */
  lemma ValidateScriptExact(s: string)
    ensures Validate(Some(s), -1).Ok? <==> AllLinesKnown(Split(s, '\n'))
  {
    var lines := Split(s, '\n');
    forall i | 0 <= i < |lines| ensures LineKeywords(lines[i], -1) == Occurrences(Before(lines[i], '#'), 0) {
      LineKeywordsIntended(lines[i]);
    }
    forall k ensures k in KeywordsOf(lines, -1) <==> exists i :: 0 <= i < |lines| && k in LineKeywords(lines[i], -1) {
      KeywordsOfLines(lines, -1, k);
    }
  }

  /** A script of one line. */
  lemma OneLine(s: string, floor: int)
    requires floor >= -1 && '\n' !in s
    ensures KeywordsOf(Split(s, '\n'), floor) == LineKeywords(s, floor)
  {
    SplitPrefix(s, "", '\n');
    assert s + "" == s;
    var lines := Split(s, '\n');
    assert lines == [s];
    assert lines[..0] == [];
  }

  /** The keyword of `%OS2MO_FOO%` is the whole string. */
  lemma FooToken(s: string)
    requires s == "%OS2MO_FOO%"
    ensures OccursAt(s, Opener, 0) && TokenAt(s, 0) == s
  {
    assert s[0..7] == Opener;
    FindAt(s, "%", 1, 10) by {
      assert s[10..11] == "%";
      forall j | 1 <= j < 10 ensures !OccursAt(s, "%", j) {
        assert s[j..j + 1] == [s[j]];
      }
    }
  }

  /** An unknown keyword at the start of a line passes the check as written
      but fails the intended one. */
  lemma ColumnZeroKeywordMissed(s: string)
    requires s == "%OS2MO_FOO%"
    ensures ValidateAsWritten(Some(s)).Ok?
    ensures ValidateScript(Some(s)).Err?
  {
    assert '#' !in s && '\n' !in s;
    assert Before(s, '#') == s;
    FooToken(s);
    FindAt(s, Opener, 0, 0);
    OneLine(s, 0);
    LineKeywordsAsWritten(s);
    OneLine(s, -1);
    LineKeywordsIntended(s);
    assert s in Occurrences(s, 0);
    FooUnknown(s);
  }

  /** `%OS2MO_FOO%` is not a scaffold key: every key has another letter
      after the `%OS2MO_` prefix. */
  lemma FooUnknown(s: string)
    requires s == "%OS2MO_FOO%"
    ensures s !in Scaffold
  {
    assert forall i :: 0 <= i < |Scaffold| ==> |Scaffold[i]| > 7 && Scaffold[i][7] != 'F';
  }

  // ---------------------------------------------------------------------------
  // Block comments.

  /** Python's `s[:a] + s[b:]` for non-negative bounds. */
  function Cut(s: string, a: nat, b: nat): string
  {
    s[..if a <= |s| then a else |s|] + (if b >= |s| then "" else s[b..])
  }

  /** The removal ranges `_remove_block_comments` collects from `index` on,
      as written: the end is the `#>` found after the start plus 3, and the
      next start is searched as `<%`. `None`: the loop has not stopped
      within `fuel` rounds. */
  function BlockRanges(s: string, index: int, fuel: nat): (r: Option<seq<(nat, nat)>>)
    ensures index <= 0 ==> r == Some([])
    ensures index > 0 && fuel == 0 ==> r.None?
    ensures index > 0 && fuel > 0 && r.Some? ==>
              var end := Find(s, "#>", index + 1) + 3;
              |r.value| >= 1 && r.value[0] == (index as nat, end as nat)
              && BlockRanges(s, Find(s, "<%", end), fuel - 1) == Some(r.value[1..])
    decreases fuel
  {
    if index <= 0 then Some([])
    else if fuel == 0 then None
    else
      var end := Find(s, "#>", index + 1) + 3;
      match BlockRanges(s, Find(s, "<%", end), fuel - 1)
      case None => None
      case Some(rest) => Some([(index as nat, end as nat)] + rest)
  }

  /** Each range cut from the script as it stands after the previous cuts. */
  function CutAll(s: string, ranges: seq<(nat, nat)>): string
    decreases |ranges|
  {
    if |ranges| == 0 then s else CutAll(Cut(s, ranges[0].0, ranges[0].1), ranges[1..])
  }

  /** `_remove_block_comments` as written: a script without `<#`, or with
      one only at its very start, is returned as it is. */
  function RemoveBlockCommentsAsWritten(s: string, fuel: nat): (r: Option<string>)
    ensures Find(s, "<#", 0) <= 0 ==> r == Some(s)
  {
    match BlockRanges(s, Find(s, "<#", 0), fuel)
    case None => None
    case Some(ranges) => Some(CutAll(s, ranges))
  }

  /** `_remove_block_comments` as evidently intended: every `<#` from the
      start of the script, through its `#>` and one more character, is
      removed; an unterminated comment is left in place. */
  function StripBlockComments(s: string): (r: string)
    ensures |r| <= |s|
    decreases |s|
  {
    var i := Find(s, "<#", 0);
    if i == -1 then s
    else
      var j := Find(s, "#>", i + 1);
      if j == -1 then s
      else s[..i] + StripBlockComments(if j + 3 >= |s| then "" else s[j + 3..])
  }

  /** A script without `<#` is left as it is. */
  lemma StripNoComment(s: string)
    requires forall p :: !OccursAt(s, "<#", p)
    ensures StripBlockComments(s) == s
  {
  }

  /** The intended removal on one comment: the text before it is kept, the
      comment with the character after its `#>` is dropped, and the rest is
      handled the same way. */
  lemma {:induction false} StripOneBlock(a: string, c: string, x: char, b: string)
    requires forall p :: !OccursAt(a, "<#", p)
    requires forall p :: !OccursAt("#" + c, "#>", p)
    ensures StripBlockComments(a + "<#" + c + "#>" + [x] + b) == a + StripBlockComments(b)
  {
    var s := a + "<#" + c + "#>" + [x] + b;
    var i := |a|;
    var j := |a| + 2 + |c|;
    assert s[i..i + 2] == "<#";
    assert s[..i] == a && s[i] == '<';
    OpenerFirstAt(a, s);
    FindAt(s, "<#", 0, i);
    assert s[j..j + 2] == "#>";
    assert s[i + 1..j] == "#" + c && s[j] == '#';
    CloserFirstAt(c, s, i + 1);
    FindAt(s, "#>", i + 1, j);
    assert s[..i] == a;
    assert s[j + 3..] == b;
  }

  /** In `a + "<#" + c + "#>" + …`, the first `<#` is the one after `a`, and
      the first `#>` after it closes it. */
  lemma OneBlockFinds(a: string, c: string, rest: string)
    requires forall p :: !OccursAt(a, "<#", p)
    requires forall p :: !OccursAt("#" + c, "#>", p)
    ensures Find(a + "<#" + c + "#>" + rest, "<#", 0) == |a|
    ensures Find(a + "<#" + c + "#>" + rest, "#>", |a| + 1) == |a| + 2 + |c|
  {
    var s := a + "<#" + c + "#>" + rest;
    var i := |a|;
    var j := |a| + 2 + |c|;
    assert s[i..i + 2] == "<#";
    assert s[..i] == a && s[i] == '<';
    OpenerFirstAt(a, s);
    FindAt(s, "<#", 0, i);
    assert s[j..j + 2] == "#>";
    assert s[i + 1..j] == "#" + c && s[j] == '#';
    CloserFirstAt(c, s, i + 1);
    FindAt(s, "#>", i + 1, j);
  }

  /** One range, and no `<%` after it: the loop as written stops. */
  lemma OneRange(s: string, i: nat, e: nat, fuel: nat)
    requires i > 0 && fuel >= 1
    requires Find(s, "#>", i + 1) + 3 == e && Find(s, "<%", e) == -1
    ensures BlockRanges(s, i, fuel) == Some([(i, e)])
  {
    assert BlockRanges(s, -1, fuel - 1) == Some([]);
    assert [(i, e)] + [] == [(i, e)];
  }

  /** The removal as written on one comment after the first column, in a
      script without `<%`: the text before it is kept, the comment with the
      character after its `#>` is dropped, and the search for the next comment
      finds nothing, so the rest is kept as it is. */
  lemma RemoveOneBlockAsWritten(a: string, c: string, x: char, b: string, fuel: nat)
    requires |a| > 0 && fuel >= 1
    requires forall p :: !OccursAt(a, "<#", p)
    requires forall p :: !OccursAt("#" + c, "#>", p)
    requires forall p :: !OccursAt(a + "<#" + c + "#>" + [x] + b, "<%", p)
    ensures RemoveBlockCommentsAsWritten(a + "<#" + c + "#>" + [x] + b, fuel) == Some(a + b)
  {
    var s := a + "<#" + c + "#>" + ([x] + b);
    assert s == a + "<#" + c + "#>" + [x] + b;
    var i := |a|;
    var e := |a| + 2 + |c| + 3;
    OneBlockFinds(a, c, [x] + b);
    OneRange(s, i, e, fuel);
    assert s[..i] == a && s[e..] == b;
    assert CutAll(s, [(i, e)]) == CutAll(Cut(s, i, e), []);
  }

  /** Text without an opener, followed by `<`, has no opener before the `<`. */
  lemma OpenerFirstAt(a: string, s: string)
    requires forall p :: !OccursAt(a, "<#", p)
    requires |a| < |s| && s[..|a|] == a && s[|a|] == '<'
    ensures forall p :: 0 <= p < |a| ==> !OccursAt(s, "<#", p)
  {
    forall p | 0 <= p < |a| ensures !OccursAt(s, "<#", p) {
      if p + 2 <= |a| {
        assert s[p..p + 2] == a[p..p + 2];
        assert !OccursAt(a, "<#", p);
      } else {
        assert p + 1 == |a|;
        assert s[p..p + 2][1] == '<';
      }
    }
  }

  /** A comment body without a closer, followed by `#`, has no closer
      before that `#`. */
  lemma CloserFirstAt(c: string, s: string, k: nat)
    requires forall p :: !OccursAt("#" + c, "#>", p)
    requires k + |c| + 1 < |s| && s[k..k + 1 + |c|] == "#" + c && s[k + 1 + |c|] == '#'
    ensures forall p :: k <= p < k + 1 + |c| ==> !OccursAt(s, "#>", p)
  {
    var j := k + 1 + |c|;
    forall p | k <= p < j ensures !OccursAt(s, "#>", p) {
      var q := p - k;
      if p + 2 <= j {
        assert s[p..p + 2] == s[k..j][q..q + 2];
        assert !OccursAt("#" + c, "#>", q);
      } else {
        assert p + 1 == j;
        assert s[p..p + 2][1] == '#';
      }
    }
  }

  /** An unterminated comment is left in place by the intended removal. */
  lemma StripUnterminated(a: string, c: string)
    requires forall p :: !OccursAt(a, "<#", p)
    requires forall p :: !OccursAt("#" + c, "#>", p)
    ensures StripBlockComments(a + "<#" + c) == a + "<#" + c
  {
    var s := a + "<#" + c;
    var i := |a|;
    assert s[..i] == a && s[i] == '<';
    OpenerFirstAt(a, s);
    assert s[i..i + 2] == "<#";
    FindAt(s, "<#", 0, i);
    forall p | i + 1 <= p ensures !OccursAt(s, "#>", p) {
      if p + 2 <= |s| {
        var q := p - (i + 1);
        assert s[i + 1..] == "#" + c;
        assert s[p..p + 2] == ("#" + c)[q..q + 2];
        assert !OccursAt("#" + c, "#>", q);
      }
    }
  }

  /** A second comment survives the removal as written: after the first
      comment the search looks for `<%`. */
  lemma SecondCommentKept(s: string, fuel: nat)
    requires s == "x<#a#>\ny<#b#>\n" && fuel >= 1
    ensures RemoveBlockCommentsAsWritten(s, fuel) == Some("xy<#b#>\n")
    ensures StripBlockComments(s) == "xy"
  {
    SecondCommentRanges(s, fuel);
    assert Cut(s, 1, 7) == "xy<#b#>\n";
    SecondCommentStripped(s);
  }

  lemma SecondCommentRanges(s: string, fuel: nat)
    requires s == "x<#a#>\ny<#b#>\n" && fuel >= 1
    ensures Find(s, "<#", 0) == 1
    ensures BlockRanges(s, 1, fuel) == Some([(1, 7)])
  {
    assert OccursAt(s, "<#", 1) by { assert s[1..3] == "<#"; }
    assert !OccursAt(s, "<#", 0) by { assert s[0] == 'x'; }
    FindAt(s, "<#", 0, 1);
    FindAt(s, "#>", 2, 4) by {
      assert s[4..6] == "#>";
      assert !OccursAt(s, "#>", 2) by { assert s[3] == 'a'; }
      assert !OccursAt(s, "#>", 3) by { assert s[3] == 'a'; }
    }
    AbsentChar(s, "<%", '%');
    assert Find(s, "#>", 2) + 3 == 7;
    assert Find(s, "<%", 7) == -1;
    assert BlockRanges(s, -1, fuel - 1) == Some([]);
    assert [(1 as nat, 7 as nat)] + [] == [(1, 7)];
  }

  lemma SecondCommentStripped(s: string)
    requires s == "x<#a#>\ny<#b#>\n"
    ensures StripBlockComments(s) == "xy"
  {
    var b := "y<#b#>\n";
    assert s == ['x', '<', '#', 'a', '#', '>', '\n'] + b;
    assert b == ['y', '<', '#', 'b', '#', '>', '\n'] + "";
    LetterComment(s, 'x', 'a', b);
    LetterComment(b, 'y', 'b', "");
    AbsentChar("", "<#", '<');
    StripNoComment("");
    assert StripBlockComments(b) == ['y'];
    assert ['x'] + ['y'] == "xy";
  }

  /** One-letter text followed by a one-letter comment and a line end. */
  lemma LetterComment(s: string, x: char, y: char, b: string)
    requires x != '<' && y != '>'
    requires s == [x, '<', '#', y, '#', '>', '\n'] + b
    ensures StripBlockComments(s) == [x] + StripBlockComments(b)
  {
    assert s == [x] + "<#" + [y] + "#>" + ['\n'] + b;
    AbsentChar([x], "<#", '<');
    AbsentChar("#" + [y], "#>", '>');
    StripOneBlock([x], [y], '\n', b);
  }

  /** A comment at the very start is kept as written: the loop needs
      `index > 0`. */
  lemma FirstColumnCommentKept(s: string, fuel: nat)
    requires s == "<#a#>\nx"
    ensures RemoveBlockCommentsAsWritten(s, fuel) == Some(s)
    ensures StripBlockComments(s) == "x"
  {
    assert OccursAt(s, "<#", 0) by { assert s[0..2] == "<#"; }
    assert Find(s, "<#", 0) == 0;
    assert s == "" + "<#" + "a" + "#>" + ['\n'] + "x";
    AbsentChar("", "<#", '<');
    AbsentChar("#a", "#>", '>');
    StripOneBlock("", "a", '\n', "x");
    AbsentChar("x", "<#", '<');
    StripNoComment("x");
  }

  /** The as-written loop from the `<%` at index 4 of `x<#a<%` returns to the
      same index every round. */
  lemma {:induction false} StuckAtFour(s: string, fuel: nat)
    requires s == "x<#a<%"
    ensures BlockRanges(s, 4, fuel) == None
    decreases fuel
  {
    if fuel > 0 {
      AbsentChar(s, "#>", '>');
      FindAt(s, "<%", 2, 4) by {
        assert s[4..6] == "<%";
        assert !OccursAt(s, "<%", 2) by { assert s[2] == '#'; }
        assert !OccursAt(s, "<%", 3) by { assert s[3] == 'a'; }
      }
      StuckAtFour(s, fuel - 1);
    }
  }

  /** An unterminated comment followed by `<%` never lets the loop as written
      stop. */
  lemma UnterminatedNeverStops(s: string, fuel: nat)
    requires s == "x<#a<%"
    ensures RemoveBlockCommentsAsWritten(s, fuel) == None
  {
    assert OccursAt(s, "<#", 1) by { assert s[1..3] == "<#"; }
    FindAt(s, "<#", 0, 1) by { assert s[0] == 'x'; }
    AbsentChar(s, "#>", '>');
    if fuel > 0 {
      FindAt(s, "<%", 2, 4) by {
        assert s[4..6] == "<%";
        assert !OccursAt(s, "<%", 2) by { assert s[2] == '#'; }
        assert !OccursAt(s, "<%", 3) by { assert s[3] == 'a'; }
      }
      StuckAtFour(s, fuel - 1);
    }
  }

  /** The intended removal leaves that unterminated comment in place. */
  lemma UnterminatedKept(s: string)
    requires s == "x<#a<%"
    ensures StripBlockComments(s) == s
  {
    assert s == "x" + "<#" + "a<%";
    AbsentChar("x", "<#", '<');
    AbsentChar("#a<%", "#>", '>');
    StripUnterminated("x", "a<%");
  }

  // ---------------------------------------------------------------------------
  // The line rewrite of `fill_script_template`.

  /** The values read for the user from MO and AD, in scaffold order; None
      where MO has no value. */
  datatype ScriptValues = ScriptValues(
    samAccountName: Option<string>, firstName: Option<string>, lastName: Option<string>, cpr: Option<string>,
    managerMail: Option<string>, managerName: Option<string>, unit: Option<string>, unitUuid: Option<string>)

  function ValuesOf(v: ScriptValues): (r: seq<Option<string>>)
    ensures |r| == |Scaffold|
  {
    [v.samAccountName, v.firstName, v.lastName, v.cpr, v.managerMail, v.managerName, v.unit, v.unitUuid]
  }

  predicate AllSet(v: ScriptValues)
  {
    forall i :: 0 <= i < |ValuesOf(v)| ==> ValuesOf(v)[i].Some?
  }

  /** The values, every one set. */
  function Texts(v: ScriptValues): (r: seq<string>)
    requires AllSet(v)
    ensures |r| == |Scaffold| && forall i :: 0 <= i < |r| ==> ValuesOf(v)[i] == Some(r[i])
  {
    seq(|Scaffold|, i requires 0 <= i < |Scaffold| => ValuesOf(v)[i].value)
  }

  /** `line.replace(key, value)` for each key in turn. */
  function ReplaceKeys(line: string, keys: seq<string>, vals: seq<string>): string
    requires |keys| == |vals| && forall i :: 0 <= i < |keys| ==> keys[i] != ""
    decreases |keys|
  {
    if |keys| == 0 then line
    else ReplaceKeys(ReplaceAll(line, keys[0], vals[0]), keys[1..], vals[1..])
  }

  /** One line rewritten: comment cut, every scaffold key replaced. */
  function RewriteLine(line: string, vals: seq<string>): string
    requires |vals| == |Scaffold|
  {
    ReplaceKeys(Before(line, '#'), Scaffold, vals)
  }

  /** The kept lines, each ended by a newline; blank ones are dropped. */
  function RewriteLines(lines: seq<string>, vals: seq<string>): string
    requires |vals| == |Scaffold|
  {
    if |lines| == 0 then ""
    else
      var l := RewriteLine(lines[0], vals);
      (if IsBlank(l) then "" else l + "\n") + RewriteLines(lines[1..], vals)
  }

  /** The rewrite as written: the guard `None in execution_replacement` asks
      about the keys, which are never None, so a missing value reaches
      `str.replace` on the first line and raises TypeError there. */
  function FillScriptAsWritten(script: string, v: ScriptValues): (r: Result<string>)
    ensures r.Err? <==> exists i :: 0 <= i < |Scaffold| && ValuesOf(v)[i].None?
    ensures r.Err? ==> r.error == TypeError("replace() argument 2 must be str, not None")
    ensures r.Ok? ==> r == FillScript(script, v)
  {
    if !AllSet(v) then Err(TypeError("replace() argument 2 must be str, not None"))
    else Ok(RewriteLines(Split(script, '\n'), Texts(v)))
  }

  /** The rewrite as evidently intended: a missing value is reported by the
      guard before any line is rewritten. */
  function FillScript(script: string, v: ScriptValues): (r: Result<string>)
    ensures r.Err? <==> exists i :: 0 <= i < |Scaffold| && ValuesOf(v)[i].None?
    ensures r.Err? ==> r.error == Exception("Not all replacement values available")
  {
    if !AllSet(v) then Err(Exception("Not all replacement values available"))
    else Ok(RewriteLines(Split(script, '\n'), Texts(v)))
  }

  /** A missing manager address raises TypeError as written instead of the
      guard's exception. */
  lemma MissingValueAsWritten(script: string, v: ScriptValues)
    requires v.managerMail.None?
    ensures FillScriptAsWritten(script, v).Err? && FillScriptAsWritten(script, v).error.TypeError?
    ensures FillScript(script, v) == Err(Exception("Not all replacement values available"))
  {
    assert ValuesOf(v)[4].None?;
  }

  lemma {:induction false} ReplaceKeysKeepsOut(line: string, keys: seq<string>, vals: seq<string>, c: char)
    requires |keys| == |vals| && forall i :: 0 <= i < |keys| ==> keys[i] != ""
    requires c !in line && forall i :: 0 <= i < |vals| ==> c !in vals[i]
    ensures c !in ReplaceKeys(line, keys, vals)
    decreases |keys|
  {
    if |keys| > 0 {
      ReplaceAllKeepsOut(line, keys[0], vals[0], c);
      ReplaceKeysKeepsOut(ReplaceAll(line, keys[0], vals[0]), keys[1..], vals[1..], c);
    }
  }

  lemma {:induction false} RewriteLinesNoHash(lines: seq<string>, vals: seq<string>)
    requires |vals| == |Scaffold| && forall i :: 0 <= i < |vals| ==> '#' !in vals[i]
    ensures '#' !in RewriteLines(lines, vals)
    decreases |lines|
  {
    if |lines| > 0 {
      ReplaceKeysKeepsOut(Before(lines[0], '#'), Scaffold, vals, '#');
      RewriteLinesNoHash(lines[1..], vals);
    }
  }

  /** Comments never reach the rewritten script when no value holds a `#`. */
  lemma CommentsRemoved(script: string, v: ScriptValues)
    requires AllSet(v) && forall i :: 0 <= i < |Scaffold| ==> '#' !in ValuesOf(v)[i].value
    ensures FillScript(script, v).Ok? && '#' !in FillScript(script, v).value
  {
    RewriteLinesNoHash(Split(script, '\n'), Texts(v));
  }

  lemma {:induction false} ReplaceKeysNoPercent(line: string, keys: seq<string>, vals: seq<string>)
    requires |keys| == |vals| && forall i :: 0 <= i < |keys| ==> keys[i] != "" && '%' in keys[i]
    requires '%' !in line
    ensures ReplaceKeys(line, keys, vals) == line
    decreases |keys|
  {
    if |keys| > 0 {
      AbsentChar(line, keys[0], '%');
      ReplaceKeysNoPercent(line, keys[1..], vals[1..]);
    }
  }

  /** The output of rewriting lines that need nothing done. */
  function Terminated(lines: seq<string>): string
  {
    if |lines| == 0 then "" else lines[0] + "\n" + Terminated(lines[1..])
  }

  lemma {:induction false} RewritePlainLines(lines: seq<string>, vals: seq<string>)
    requires |vals| == |Scaffold|
    requires forall i :: 0 <= i < |lines| ==> '#' !in lines[i] && '%' !in lines[i] && !IsBlank(lines[i])
    ensures RewriteLines(lines, vals) == Terminated(lines)
    decreases |lines|
  {
    if |lines| > 0 {
      ReplaceKeysNoPercent(lines[0], Scaffold, vals) by {
        forall i | 0 <= i < |Scaffold| ensures '%' in Scaffold[i] {
          assert Scaffold[i][0] == '%';
        }
      }
      RewritePlainLines(lines[1..], vals);
    }
  }

  /** Lines with no comment, no keyword and some text pass through, each
      ended by a newline. */
  lemma PlainScriptUnchanged(lines: seq<string>, v: ScriptValues)
    requires AllSet(v) && |lines| > 0
    requires forall i :: 0 <= i < |lines| ==> '#' !in lines[i] && '%' !in lines[i] && '\n' !in lines[i] && !IsBlank(lines[i])
    ensures FillScript(Join(lines, '\n'), v) == Ok(Terminated(lines))
  {
    SplitJoin(lines, '\n');
    RewritePlainLines(lines, Texts(v));
  }
}

=== FILE: json.dfy ===
/** JSON-shaped values: the dicts, lists and scalars the modelled code builds
    and reads. A Python dict is an `Obj` over a map (key order is not modelled). */
module Json {
  import opened Common

  datatype Json =
    | Null
    | Bool(b: bool)
    | Int(i: int)
    | Str(s: string)
    | Arr(items: seq<Json>)
    | Obj(fields: map<string, Json>)

  /** Python truthiness: None, False, 0, "" and empty containers are false. */
  predicate Truthy(v: Json)
  {
    match v
    case Null => false
    case Bool(b) => b
    case Int(i) => i != 0
    case Str(s) => s != ""
    case Arr(items) => items != []
    case Obj(fields) => fields != map[]
  }

  /** Truthiness of an optional string field (None or "" is false). */
  predicate Set(o: Option<string>)
  {
    o.Some? && o.value != ""
  }

  /** An optional string as a JSON value: None becomes null. */
  function OfOpt(o: Option<string>): Json
  {
    match o
    case None => Null
    case Some(s) => Str(s)
  }

  /** `{"uuid": u}`, the reference shape every payload uses. */
  function UuidRef(u: Json): Json
  {
    Obj(map["uuid" := u])
  }

  /** Python's `d.get(k)`: a missing key reads as None. */
  function GetKey(m: map<string, Json>, k: string): Json
  {
    if k in m then m[k] else Null
  }

  /** Python's `d.get(k, default)`: only a missing key yields the default. */
  function GetKeyOr(m: map<string, Json>, k: string, default: Json): Json
  {
    if k in m then m[k] else default
  }

  /** True when `v` is a dict that has key `k`. */
  predicate HasKey(v: Json, k: string)
  {
    v.Obj? && k in v.fields
  }

  /** `d[k] = v` only when `cond` holds. */
  function PutIf<K>(m: map<K, Json>, cond: bool, k: K, v: Json): (r: map<K, Json>)
    ensures k in r <==> cond || k in m
    ensures cond ==> r[k] == v
    ensures forall j :: j in m && j != k ==> j in r && r[j] == m[j]
    ensures forall j :: j in r && j != k ==> j in m
  {
    if cond then m[k := v] else m
  }

  /** The keys `PutIf` leaves: the old ones, and `k` when `cond` holds. */
  lemma PutIfKeys<K>(m: map<K, Json>, cond: bool, k: K, v: Json)
    ensures PutIf(m, cond, k, v).Keys == m.Keys + (if cond then {k} else {})
  {
  }
}

=== FILE: med_payloads.dfy ===
/** The LoRa facet and klasse documents the MED-organisation import posts:
    fixed shapes in which some entries exist only under stated conditions, and
    every entry carries the same `virkning` (validity) record. */
module MedPayloads {
  import opened Json

  const DefaultFrom: string := "1910-01-01 00:00:00"
  const Infinity: string := "infinity"
  const ActorRef: string := "ddc99abd-c1b0-48c2-aef7-74fea841adae"
  const ActorType: string := "Bruger"
  const Published: string := "Publiceret"

  /** `_virkning`: valid from `dato` (or the fixed 1910 default when it is
      None) to infinity, registered by the fixed import actor. */
  function Virkning(dato: Json): (v: Json)
    ensures v.Obj? && v.fields.Keys == {"from", "to", "aktoerref", "aktoertypekode"}
    ensures v.fields["from"] == (if dato.Null? then Str(DefaultFrom) else dato)
    ensures v.fields["to"] == Str(Infinity)
    ensures v.fields["aktoerref"] == Str(ActorRef) && v.fields["aktoertypekode"] == Str(ActorType)
  {
    var from := if dato.Null? then Str(DefaultFrom) else dato;
    Obj(map["from" := from, "to" := Str(Infinity), "aktoerref" := Str(ActorRef), "aktoertypekode" := Str(ActorType)])
  }

  /** Two dates give the same validity record exactly when they are the same
      date, or one is missing and the other is the 1910 default it stands for. */
  lemma VirkningDefault(a: Json, b: Json)
    ensures Virkning(a) == Virkning(b) <==>
              a == b || (a.Null? && b == Str(DefaultFrom)) || (b.Null? && a == Str(DefaultFrom))
  {
    if Virkning(a) == Virkning(b) {
      assert Virkning(a).fields["from"] == Virkning(b).fields["from"];
    }
  }

  /** The three sections every LoRa document has. */
  function Document(attributter: Json, relationer: Json, tilstande: Json): (d: Json)
    ensures d.Obj? && d.fields.Keys == {"attributter", "relationer", "tilstande"}
    ensures d.fields["attributter"] == attributter && d.fields["relationer"] == relationer
    ensures d.fields["tilstande"] == tilstande
  {
    Obj(map["attributter" := attributter, "relationer" := relationer, "tilstande" := tilstande])
  }

  /** A section holding one list with a single entry. */
  function Section(name: string, entry: Json): (s: Json)
    ensures s.Obj? && s.fields.Keys == {name} && s.fields[name] == Arr([entry])
  {
    Obj(map[name := Arr([entry])])
  }

  /** The published state entry. */
  function PublishedState(dato: Json): (e: Json)
    ensures e.Obj? && "publiceret" in e.fields && e.fields["publiceret"] == Str(Published)
    ensures "virkning" in e.fields && e.fields["virkning"] == Virkning(dato)
  {
    Obj(map["publiceret" := Str(Published), "virkning" := Virkning(dato)])
  }

  /** The facet's property record: the description only when truthy. */
  function FacetProps(bvn: Json, description: Json): (p: map<string, Json>)
    ensures "brugervendtnoegle" in p && p["brugervendtnoegle"] == bvn
    ensures "beskrivelse" in p <==> Truthy(description)
    ensures "virkning" in p && p["virkning"] == Virkning(Null)
  {
    PutIf(map["brugervendtnoegle" := bvn, "virkning" := Virkning(Null)], Truthy(description), "beskrivelse", description)
  }

  /** The facet's responsible organisation. */
  function FacetOwner(orgUuid: Json): (e: Json)
    ensures e.Obj? && "uuid" in e.fields && e.fields["uuid"] == orgUuid
    ensures "virkning" in e.fields && e.fields["virkning"] == Virkning(Null)
  {
    Obj(map["objekttype" := Str("organisation"), "uuid" := orgUuid, "virkning" := Virkning(Null)])
  }

  /** `lora_facet`: one property record (with the description only when it is
      truthy), one responsible organisation, one published state. */
  function LoraFacet(bvn: Json, orgUuid: Json, description: Json): (f: Json)
    ensures f.Obj? && f.fields.Keys == {"attributter", "relationer", "tilstande"}
    ensures Has(f, "attributter", "facetegenskaber", "brugervendtnoegle")
    ensures Get(f, "attributter", "facetegenskaber", "brugervendtnoegle") == bvn
    ensures Has(f, "attributter", "facetegenskaber", "beskrivelse") <==> Truthy(description)
    ensures RelationNames(f) == {"ansvarlig"}
    ensures Has(f, "relationer", "ansvarlig", "uuid") && Get(f, "relationer", "ansvarlig", "uuid") == orgUuid
    ensures Has(f, "tilstande", "facetpubliceret", "publiceret")
    ensures Get(f, "tilstande", "facetpubliceret", "publiceret") == Str(Published)
  {
    var props := FacetProps(bvn, description);
    var owner := FacetOwner(orgUuid);
    var f := Document(Section("facetegenskaber", Obj(props)), Section("ansvarlig", owner),
                      Section("facetpubliceret", PublishedState(Null)));
    ReadSingle(f, "attributter", "facetegenskaber", Obj(props));
    ReadSingle(f, "relationer", "ansvarlig", owner);
    ReadSingle(f, "tilstande", "facetpubliceret", PublishedState(Null));
    f
  }

  /** One relation entry of a klasse. */
  function Relation(uuid: Json, dato: Json, kind: string): (e: Json)
    ensures e.Obj? && "uuid" in e.fields && e.fields["uuid"] == uuid
    ensures "virkning" in e.fields && e.fields["virkning"] == Virkning(dato)
  {
    Obj(map["uuid" := uuid, "virkning" := Virkning(dato), "objekttype" := Str(kind)])
  }

  /** The klasse's property record: the description and scope only when truthy. */
  function KlasseProps(bvn: Json, title: Json, description: Json, dato: Json, scope: Json): (p: map<string, Json>)
    ensures "beskrivelse" in p <==> Truthy(description)
    ensures "omfang" in p <==> Truthy(scope)
    ensures p.Keys <= {"brugervendtnoegle", "titel", "virkning", "beskrivelse", "omfang"}
    ensures "brugervendtnoegle" in p && p["brugervendtnoegle"] == bvn
    ensures "titel" in p && p["titel"] == title
    ensures "virkning" in p && p["virkning"] == Virkning(dato)
  {
    var props0 := map["brugervendtnoegle" := bvn, "titel" := title, "virkning" := Virkning(dato)];
    var props1 := PutIf(props0, Truthy(description), "beskrivelse", description);
    PutIf(props1, Truthy(scope), "omfang", scope)
  }

  /** The klasse's relations: parent klasse and owner only when not None. */
  function KlasseRelations(facetUuid: Json, orgUuid: Json, orgUnitUuid: Json, dato: Json, overklasse: Json): (r: map<string, Json>)
    ensures "overordnetklasse" in r <==> !overklasse.Null?
    ensures "ejer" in r <==> !orgUnitUuid.Null?
    ensures r.Keys <= {"facet", "ansvarlig", "overordnetklasse", "ejer"}
    ensures "facet" in r && r["facet"] == Arr([Relation(facetUuid, dato, "Facet")])
    ensures "ansvarlig" in r && r["ansvarlig"] == Arr([Relation(orgUuid, dato, "Organisation")])
    ensures "overordnetklasse" in r ==> r["overordnetklasse"] == Arr([Relation(overklasse, dato, "Klasse")])
    ensures "ejer" in r ==> r["ejer"] == Arr([Relation(orgUnitUuid, dato, "OrganisationEnhed")])
  {
    var rel0 := map["facet" := Arr([Relation(facetUuid, dato, "Facet")]),
                    "ansvarlig" := Arr([Relation(orgUuid, dato, "Organisation")])];
    var rel1 := PutIf(rel0, !overklasse.Null?, "overordnetklasse", Arr([Relation(overklasse, dato, "Klasse")]));
    PutIf(rel1, !orgUnitUuid.Null?, "ejer", Arr([Relation(orgUnitUuid, dato, "OrganisationEnhed")]))
  }

  /** `lora_klasse`: the property record (description and scope only when
      truthy), the relations (parent klasse and owner only when their uuid is
      not None; an empty-string uuid still gives a relation) and the published
      state. */
  function LoraKlasse(bvn: Json, title: Json, facetUuid: Json, orgUuid: Json, orgUnitUuid: Json,
                      description: Json, dato: Json, scope: Json, overklasse: Json): (k: Json)
    ensures k.Obj? && k.fields.Keys == {"attributter", "relationer", "tilstande"}
    ensures k.fields["relationer"].Obj?
            && ("overordnetklasse" in k.fields["relationer"].fields <==> !overklasse.Null?)
            && ("ejer" in k.fields["relationer"].fields <==> !orgUnitUuid.Null?)
  {
    Document(Section("klasseegenskaber", Obj(KlasseProps(bvn, title, description, dato, scope))),
             Obj(KlasseRelations(facetUuid, orgUuid, orgUnitUuid, dato, overklasse)),
             Section("klassepubliceret", PublishedState(dato)))
  }

  // ---------------------------------------------------------------------------
  // Reading a document back.

  /** `doc[a][b][0]`, the single entry of a one-element list two levels down. */
  function Entry(doc: Json, a: string, b: string): Json
  {
    if doc.Obj? && a in doc.fields && doc.fields[a].Obj? && b in doc.fields[a].fields
       && doc.fields[a].fields[b].Arr? && |doc.fields[a].fields[b].items| == 1
    then doc.fields[a].fields[b].items[0]
    else Null
  }

  /** The list `doc[a][b]` has exactly one entry. */
  predicate Single(doc: Json, a: string, b: string)
  {
    doc.Obj? && a in doc.fields && doc.fields[a].Obj? && b in doc.fields[a].fields
    && doc.fields[a].fields[b].Arr? && |doc.fields[a].fields[b].items| == 1
    && doc.fields[a].fields[b].items[0].Obj?
  }

  /** The single entry `doc[a][b][0]` has the field `key`. */
  predicate Has(doc: Json, a: string, b: string, key: string)
  {
    Single(doc, a, b) && key in Entry(doc, a, b).fields
  }

  /** `doc[a][b][0][key]`, Null when it is missing. */
  function Get(doc: Json, a: string, b: string, key: string): Json
  {
    if Has(doc, a, b, key) then Entry(doc, a, b).fields[key] else Null
  }

  /** The relation names a document carries. */
  function RelationNames(doc: Json): set<string>
  {
    if doc.Obj? && "relationer" in doc.fields && doc.fields["relationer"].Obj?
    then doc.fields["relationer"].fields.Keys
    else {}
  }

  // ---------------------------------------------------------------------------
  // Properties.

  /** A klasse's optional properties: the description and scope exactly
      when truthy. */
  lemma KlasseOptionalProps(bvn: Json, title: Json, facetUuid: Json, orgUuid: Json, orgUnitUuid: Json,
                            description: Json, dato: Json, scope: Json, overklasse: Json)
    ensures var k := LoraKlasse(bvn, title, facetUuid, orgUuid, orgUnitUuid, description, dato, scope, overklasse);
      && (Has(k, "attributter", "klasseegenskaber", "beskrivelse") <==> Truthy(description))
      && (Has(k, "attributter", "klasseegenskaber", "omfang") <==> Truthy(scope))
  {
    var k := LoraKlasse(bvn, title, facetUuid, orgUuid, orgUnitUuid, description, dato, scope, overklasse);
    ReadSingle(k, "attributter", "klasseegenskaber", Obj(KlasseProps(bvn, title, description, dato, scope)));
  }

  /** A klasse's optional relations: the parent klasse and the owner exactly
      when their uuid is not None; the facet and the responsible organisation
      always. */
  lemma KlasseOptionalRelations(bvn: Json, title: Json, facetUuid: Json, orgUuid: Json, orgUnitUuid: Json,
                                description: Json, dato: Json, scope: Json, overklasse: Json)
    ensures var k := LoraKlasse(bvn, title, facetUuid, orgUuid, orgUnitUuid, description, dato, scope, overklasse);
      && ("overordnetklasse" in RelationNames(k) <==> !overklasse.Null?)
      && ("ejer" in RelationNames(k) <==> !orgUnitUuid.Null?)
      && {"facet", "ansvarlig"} <= RelationNames(k) <= {"facet", "ansvarlig", "overordnetklasse", "ejer"}
  {
    var k := LoraKlasse(bvn, title, facetUuid, orgUuid, orgUnitUuid, description, dato, scope, overklasse);
    var rel := KlasseRelations(facetUuid, orgUuid, orgUnitUuid, dato, overklasse);
    assert RelationNames(k) == rel.Keys;
  }

  /** Reading back a one-entry list: the entry, its fields, and Null for a
      missing field. */
  lemma ReadSingle(doc: Json, a: string, b: string, e: Json)
    requires doc.Obj? && a in doc.fields && doc.fields[a].Obj? && b in doc.fields[a].fields
    requires doc.fields[a].fields[b] == Arr([e]) && e.Obj?
    ensures Single(doc, a, b) && Entry(doc, a, b) == e
    ensures forall key :: Has(doc, a, b, key) <==> key in e.fields
    ensures forall key :: key in e.fields ==> Get(doc, a, b, key) == e.fields[key]
  {
  }

  /** A klasse's fixed parts: its keys, and a property record holding bvn
      and title. */
  lemma KlasseFixed(bvn: Json, title: Json, facetUuid: Json, orgUuid: Json, orgUnitUuid: Json,
                    description: Json, dato: Json, scope: Json, overklasse: Json)
    ensures var k := LoraKlasse(bvn, title, facetUuid, orgUuid, orgUnitUuid, description, dato, scope, overklasse);
      k.Obj? && k.fields.Keys == {"attributter", "relationer", "tilstande"} &&
      Has(k, "attributter", "klasseegenskaber", "brugervendtnoegle") &&
      Get(k, "attributter", "klasseegenskaber", "brugervendtnoegle") == bvn &&
      Has(k, "attributter", "klasseegenskaber", "titel") &&
      Get(k, "attributter", "klasseegenskaber", "titel") == title
  {
    var k := LoraKlasse(bvn, title, facetUuid, orgUuid, orgUnitUuid, description, dato, scope, overklasse);
    var props := KlasseProps(bvn, title, description, dato, scope);
    ReadSingle(k, "attributter", "klasseegenskaber", Obj(props));
  }

  /** A klasse always relates to its facet and its responsible organisation,
      and is published. */
  lemma KlasseLinks(bvn: Json, title: Json, facetUuid: Json, orgUuid: Json, orgUnitUuid: Json,
                    description: Json, dato: Json, scope: Json, overklasse: Json)
    ensures var k := LoraKlasse(bvn, title, facetUuid, orgUuid, orgUnitUuid, description, dato, scope, overklasse);
      Has(k, "relationer", "facet", "uuid") && Get(k, "relationer", "facet", "uuid") == facetUuid
    ensures var k := LoraKlasse(bvn, title, facetUuid, orgUuid, orgUnitUuid, description, dato, scope, overklasse);
      Has(k, "relationer", "ansvarlig", "uuid") && Get(k, "relationer", "ansvarlig", "uuid") == orgUuid
    ensures var k := LoraKlasse(bvn, title, facetUuid, orgUuid, orgUnitUuid, description, dato, scope, overklasse);
      Has(k, "tilstande", "klassepubliceret", "publiceret") &&
      Get(k, "tilstande", "klassepubliceret", "publiceret") == Str(Published)
  {
    var k := LoraKlasse(bvn, title, facetUuid, orgUuid, orgUnitUuid, description, dato, scope, overklasse);
    var facet := Relation(facetUuid, dato, "Facet");
    var owner := Relation(orgUuid, dato, "Organisation");
    ReadSingle(k, "relationer", "facet", facet);
    ReadSingle(k, "relationer", "ansvarlig", owner);
    ReadSingle(k, "tilstande", "klassepubliceret", PublishedState(dato));
  }

  /** Every entry of the list carries `v` as its validity. */
  predicate ListValid(items: seq<Json>, v: Json)
  {
    forall i :: 0 <= i < |items| ==> items[i].Obj? && "virkning" in items[i].fields && items[i].fields["virkning"] == v
  }

  /** Every list of a section is a list of entries valid as `v`. */
  predicate SectionValid(sec: map<string, Json>, v: Json)
  {
    forall b :: b in sec ==> sec[b].Arr? && ListValid(sec[b].items, v)
  }

  /** Every section of a document holds entries valid as `v`. */
  predicate AllValid(doc: Json, v: Json)
  {
    doc.Obj? && forall a :: a in doc.fields ==> doc.fields[a].Obj? && SectionValid(doc.fields[a].fields, v)
  }

  lemma RelationsValid(facetUuid: Json, orgUuid: Json, orgUnitUuid: Json, dato: Json, overklasse: Json)
    ensures SectionValid(KlasseRelations(facetUuid, orgUuid, orgUnitUuid, dato, overklasse), Virkning(dato))
  {
    var v := Virkning(dato);
    var rel := KlasseRelations(facetUuid, orgUuid, orgUnitUuid, dato, overklasse);
    forall b | b in rel ensures rel[b].Arr? && ListValid(rel[b].items, v) {
      if b == "facet" {
        RelationValid(facetUuid, dato, "Facet");
      } else if b == "ansvarlig" {
        RelationValid(orgUuid, dato, "Organisation");
      } else if b == "overordnetklasse" {
        RelationValid(overklasse, dato, "Klasse");
      } else {
        RelationValid(orgUnitUuid, dato, "OrganisationEnhed");
      }
    }
  }

  lemma RelationValid(uuid: Json, dato: Json, kind: string)
    ensures ListValid([Relation(uuid, dato, kind)], Virkning(dato))
  {
    assert Relation(uuid, dato, kind).fields["virkning"] == Virkning(dato);
  }

  lemma OneEntryValid(name: string, entry: Json, v: Json)
    requires entry.Obj? && "virkning" in entry.fields && entry.fields["virkning"] == v
    ensures SectionValid(Section(name, entry).fields, v)
  {
    assert ListValid([entry], v);
  }

  /** A document whose three sections are valid as `v` is valid as `v`. */
  lemma DocumentValid(attributter: Json, relationer: Json, tilstande: Json, v: Json)
    requires attributter.Obj? && SectionValid(attributter.fields, v)
    requires relationer.Obj? && SectionValid(relationer.fields, v)
    requires tilstande.Obj? && SectionValid(tilstande.fields, v)
    ensures AllValid(Document(attributter, relationer, tilstande), v)
  {
  }

  /** Every entry of a klasse is valid from the same `dato`. */
  lemma KlasseSameDate(bvn: Json, title: Json, facetUuid: Json, orgUuid: Json, orgUnitUuid: Json,
                       description: Json, dato: Json, scope: Json, overklasse: Json)
    ensures AllValid(LoraKlasse(bvn, title, facetUuid, orgUuid, orgUnitUuid, description, dato, scope, overklasse), Virkning(dato))
  {
    var v := Virkning(dato);
    RelationsValid(facetUuid, orgUuid, orgUnitUuid, dato, overklasse);
    var props := KlasseProps(bvn, title, description, dato, scope);
    OneEntryValid("klasseegenskaber", Obj(props), v);
    OneEntryValid("klassepubliceret", PublishedState(dato), v);
    DocumentValid(Section("klasseegenskaber", Obj(props)),
                  Obj(KlasseRelations(facetUuid, orgUuid, orgUnitUuid, dato, overklasse)),
                  Section("klassepubliceret", PublishedState(dato)), v);
  }

  /** Every entry of a facet is valid from the 1910 default. */
  lemma FacetDefaultDate(bvn: Json, orgUuid: Json, description: Json)
    ensures AllValid(LoraFacet(bvn, orgUuid, description), Virkning(Null))
    ensures Virkning(Null).fields["from"] == Str("1910-01-01 00:00:00")
  {
    var v := Virkning(Null);
    var props := FacetProps(bvn, description);
    OneEntryValid("facetegenskaber", Obj(props), v);
    OneEntryValid("ansvarlig", FacetOwner(orgUuid), v);
    OneEntryValid("facetpubliceret", PublishedState(Null), v);
    DocumentValid(Section("facetegenskaber", Obj(props)), Section("ansvarlig", FacetOwner(orgUuid)),
                  Section("facetpubliceret", PublishedState(Null)), v);
  }
}

=== FILE: mora_data_types.dfy ===
/** The MO object types of the import tool (`mora_data_types.py`). Each object
    carries references the importer later resolves to uuids; `build` checks
    the uuids it needs and assembles the POST payload around the validity,
    uuid, type, person and unit entries every object shares. */
module MoraDataTypes {
  import opened Common
  import opened Json

  /** The object's `payload` attribute: a dict, or some other value a caller
      stored there. */
  datatype Stored = Dict(entries: Payload) | NotDict

  /** The attributes every MO object has (`MoType.__init__`). */
  datatype Base = Base(typeId: Json, payload: Stored, dateFrom: Json, dateTo: Json,
                       uuid: Json, personUuid: Json, orgUnitUuid: Json)

  /** The objects the import tool builds, one constructor per class. The
      `*Ref` fields hold user references; the matching `*Uuid` fields are
      None until the importer resolves them. */
  datatype MoObject =
    | Address(base: Base, value: Json, typeRef: Json, typeRefUuid: Json,
              visibilityRef: Json, visibilityRefUuid: Json, organisationUuid: Json)
    | Engagement(base: Base, orgUnitRef: Json, typeRef: Json, typeRefUuid: Json,
                 jobFunctionRef: Json, jobFunctionUuid: Json)
    | Association(base: Base, orgUnitRef: Json, jobFunctionRef: Json, jobFunctionUuid: Json,
                  typeRef: Json, typeRefUuid: Json, addressUuid: Json,
                  addressTypeRef: Json, addressTypeUuid: Json)
    | Itsystem(base: Base, userKey: Json, itsystemRef: Json, itsystemUuid: Json)
    | Leave(base: Base, typeRef: Json, typeRefUuid: Json)
    | Role(base: Base, orgUnitRef: Json, typeRef: Json, typeRefUuid: Json)
    | Manager(base: Base, orgUnitRef: Json, typeRef: Json, typeRefUuid: Json,
              managerLevelRef: Json, managerLevelUuid: Json,
              responsibilityList: seq<Json>, responsibilities: seq<Json>,
              addressUuid: Json, addressTypeRef: Json, addressTypeUuid: Json)
    | OrgUnit(base: Base, name: Json, userKey: Json, parentRef: Json, parentUuid: Json,
              typeRef: Json, typeRefUuid: Json, details: seq<Payload>)
    | Employee(base: Base, name: Json, cprNo: Json, userKey: Json, org: Json, orgUuid: Json)

  /** The keys an MO payload can hold; `Name` gives each its JSON spelling. */
  datatype Key =
    | ValueKey
    | OrgKey
    | AddressTypeKey
    | VisibilityKey
    | OrgUnitKey
    | JobFunctionKey
    | EngagementTypeKey
    | AssociationTypeKey
    | AddressKey
    | UserKeyKey
    | ItsystemKey
    | LeaveTypeKey
    | RoleTypeKey
    | ManagerTypeKey
    | ManagerLevelKey
    | ResponsibilityKey
    | NameKey
    | ParentKey
    | OrgUnitTypeKey
    | CprNoKey
    | UuidKey
    | TypeKey
    | PersonKey
    | ValidityKey
    | IntegrationDataKey

  function Name(k: Key): string
  {
    match k
    case ValueKey => "value"
    case OrgKey => "org"
    case AddressTypeKey => "address_type"
    case VisibilityKey => "visibility"
    case OrgUnitKey => "org_unit"
    case JobFunctionKey => "job_function"
    case EngagementTypeKey => "engagement_type"
    case AssociationTypeKey => "association_type"
    case AddressKey => "address"
    case UserKeyKey => "user_key"
    case ItsystemKey => "itsystem"
    case LeaveTypeKey => "leave_type"
    case RoleTypeKey => "role_type"
    case ManagerTypeKey => "manager_type"
    case ManagerLevelKey => "manager_level"
    case ResponsibilityKey => "responsibility"
    case NameKey => "name"
    case ParentKey => "parent"
    case OrgUnitTypeKey => "org_unit_type"
    case CprNoKey => "cpr_no"
    case UuidKey => "uuid"
    case TypeKey => "type"
    case PersonKey => "person"
    case ValidityKey => "validity"
    case IntegrationDataKey => "integration_data"
  }

  /** A POST payload: a dict over the payload keys. */
  type Payload = map<Key, Json>

  const DefaultAddressType: string := "AdressePostEmployee"

  const OrganisationMissing: string := "Organisation UUID is missing"
  const ParentUnitMissing: string := "Reference to parent org unit is missing"
  const JobFunctionMissing: string := "Reference to job function is missing"
  const EngagementTypeMissing: string := "Reference to engagenment type is missing"
  const OrgUnitUuidMissing: string := "Reference to org_unit_uuid is missing"
  const JobFunctionUuidMissing: string := "Reference to job_function_uuid is missing"
  const AssociationTypeMissing: string := "Reference to association_type_uuid is missing"
  const ItsystemMissing: string := "UUID of itsystem type is missing"
  const ParentMissing: string := "UUID of the parent organisation is missing"
  const UnitTypeMissing: string := "UUID of the unit type is missing"
  const OrgMissing: string := "UUID of the organisation is missing"

  /** A fresh `MoType.__init__` after the subclass has set its type id, uuid
      and dates: empty payload dict, no person, no unit. */
  function NewBase(typeId: Json, uuid: Json, dateFrom: Json, dateTo: Json): Base
  {
    Base(typeId, Dict(map[]), dateFrom, dateTo, uuid, Null, Null)
  }

  /** The `validity` entry. */
  function Validity(from: Json, to: Json): Json
  {
    Obj(map["from" := from, "to" := to])
  }

  /** The keys `_build_payload` adds: the validity always, the others when the
      object's field is truthy. */
  function Added(b: Base): set<Key>
  {
    {ValidityKey}
    + (if Truthy(b.uuid) then {UuidKey} else {})
    + (if Truthy(b.typeId) then {TypeKey} else {})
    + (if Truthy(b.personUuid) then {PersonKey} else {})
    + (if Truthy(b.orgUnitUuid) then {OrgUnitKey} else {})
  }

  /** Every key `_build_payload` may add. */
  const Framing: set<Key> := {ValidityKey, UuidKey, TypeKey, PersonKey, OrgUnitKey}

  /** The shared entries of a built payload carry the object's own values. */
  predicate Framed(p: Payload, b: Base)
  {
    && ValidityKey in p && p[ValidityKey] == Validity(b.dateFrom, b.dateTo)
    && (Truthy(b.uuid) ==> UuidKey in p && p[UuidKey] == b.uuid)
    && (Truthy(b.typeId) ==> TypeKey in p && p[TypeKey] == b.typeId)
    && (Truthy(b.personUuid) ==> PersonKey in p && p[PersonKey] == UuidRef(b.personUuid))
    && (Truthy(b.orgUnitUuid) ==> OrgUnitKey in p && p[OrgUnitKey] == UuidRef(b.orgUnitUuid))
  }

  /** The entries `_build_payload` writes over a dict, in the order it
      writes them. */
  function Frame(m: Payload, b: Base): Payload
  {
    var p1 := PutIf(m, Truthy(b.uuid), UuidKey, b.uuid);
    var p2 := PutIf(p1, Truthy(b.typeId), TypeKey, b.typeId);
    var p3 := PutIf(p2, Truthy(b.personUuid), PersonKey, UuidRef(b.personUuid));
    var p4 := PutIf(p3, Truthy(b.orgUnitUuid), OrgUnitKey, UuidRef(b.orgUnitUuid));
    p4[ValidityKey := Validity(b.dateFrom, b.dateTo)]
  }

  lemma FrameKeys(m: Payload, b: Base)
    ensures Frame(m, b).Keys == m.Keys + Added(b)
  {
    var p1 := PutIf(m, Truthy(b.uuid), UuidKey, b.uuid);
    var p2 := PutIf(p1, Truthy(b.typeId), TypeKey, b.typeId);
    var p3 := PutIf(p2, Truthy(b.personUuid), PersonKey, UuidRef(b.personUuid));
    PutIfKeys(m, Truthy(b.uuid), UuidKey, b.uuid);
    PutIfKeys(p1, Truthy(b.typeId), TypeKey, b.typeId);
    PutIfKeys(p2, Truthy(b.personUuid), PersonKey, UuidRef(b.personUuid));
    PutIfKeys(p3, Truthy(b.orgUnitUuid), OrgUnitKey, UuidRef(b.orgUnitUuid));
  }

  lemma FrameValues(m: Payload, b: Base)
    ensures Framed(Frame(m, b), b)
  {
  }

  lemma FrameKeeps(m: Payload, b: Base)
    ensures forall k :: k in m && k !in Added(b) ==> Frame(m, b)[k] == m[k]
  {
  }

  /** `MoType._build_payload`: only a dict payload can be built; it gains the
      shared entries and keeps everything else it held. */
  function BuildPayload(b: Base): (r: Result<Payload>)
    ensures r.Err? <==> !b.payload.Dict?
    ensures r.Err? ==> r.error.TypeError?
    ensures r.Ok? ==> Framed(r.value, b)
    ensures r.Ok? ==> r.value.Keys == b.payload.entries.Keys + Added(b)
    ensures r.Ok? ==> forall k :: k in b.payload.entries && k !in Added(b) ==> r.value[k] == b.payload.entries[k]
  {
    if !b.payload.Dict? then Err(TypeError("Cannot build non-dict types"))
    else
      FrameKeys(b.payload.entries, b);
      FrameValues(b.payload.entries, b);
      FrameKeeps(b.payload.entries, b);
      Ok(Frame(b.payload.entries, b))
  }

  /** Building a class-specific body: the body replaces the payload, then the
      shared entries are added. */
  function Finish(b: Base, body: Payload): (r: Payload)
    ensures Framed(r, b)
    ensures r.Keys == body.Keys + Added(b)
    ensures forall k :: k in body && k !in Added(b) ==> r[k] == body[k]
    ensures forall k :: k in body && k !in Framing ==> r[k] == body[k]
    ensures OrgUnitKey in body && body[OrgUnitKey] == UuidRef(b.orgUnitUuid) ==> r[OrgUnitKey] == body[OrgUnitKey]
  {
    BuildPayload(b.(payload := Dict(body))).value
  }

  // ---------------------------------------------------------------------------
  // Constructors

  /** `AddressType.__init__`. */
  function NewAddress(value: Json, typeRef: Json, dateFrom: Json, dateTo: Json,
                      uuid: Json, visibility: Json): (o: MoObject)
    ensures o.Address? && o.base == NewBase(Str("address"), uuid, dateFrom, dateTo)
    ensures o.value == value && o.typeRef == typeRef && o.visibilityRef == visibility
    ensures o.typeRefUuid.Null? && o.visibilityRefUuid.Null? && o.organisationUuid.Null?
    ensures BuildAddress(o) == Err(ValueError(OrganisationMissing))
  {
    Address(NewBase(Str("address"), uuid, dateFrom, dateTo), value, typeRef, Null, visibility, Null, Null)
  }

  /** `EngagementType.__init__`. */
  function NewEngagement(orgUnitRef: Json, jobFunctionRef: Json, engagementTypeRef: Json,
                         dateFrom: Json, dateTo: Json, uuid: Json): (o: MoObject)
    ensures o.Engagement? && o.base == NewBase(Str("engagement"), uuid, dateFrom, dateTo)
    ensures o.orgUnitRef == orgUnitRef && o.jobFunctionRef == jobFunctionRef && o.typeRef == engagementTypeRef
    ensures o.typeRefUuid.Null? && o.jobFunctionUuid.Null?
    ensures BuildEngagement(o) == Err(ReferenceError(ParentUnitMissing))
  {
    Engagement(NewBase(Str("engagement"), uuid, dateFrom, dateTo), orgUnitRef, engagementTypeRef, Null, jobFunctionRef, Null)
  }

  /** `AssociationType.__init__`: a missing (falsy) address type reference
      falls back to the postal address type. */
  function NewAssociation(associationTypeRef: Json, orgUnitRef: Json, jobFunctionRef: Json,
                          dateFrom: Json, dateTo: Json, addressUuid: Json,
                          addressTypeRef: Json, uuid: Json): (o: MoObject)
    ensures o.Association? && o.base == NewBase(Str("association"), uuid, dateFrom, dateTo)
    ensures o.typeRef == associationTypeRef && o.orgUnitRef == orgUnitRef && o.jobFunctionRef == jobFunctionRef
    ensures o.addressUuid == addressUuid
    ensures Truthy(o.addressTypeRef)
    ensures Truthy(addressTypeRef) ==> o.addressTypeRef == addressTypeRef
    ensures !Truthy(addressTypeRef) ==> o.addressTypeRef == Str(DefaultAddressType)
    ensures o.jobFunctionUuid.Null? && o.typeRefUuid.Null? && o.addressTypeUuid.Null?
  {
    var typeRef := if Truthy(addressTypeRef) then addressTypeRef else Str(DefaultAddressType);
    Association(NewBase(Str("association"), uuid, dateFrom, dateTo), orgUnitRef, jobFunctionRef, Null,
                associationTypeRef, Null, addressUuid, typeRef, Null)
  }

  /** `ItsystemType.__init__`. */
  function NewItsystem(userKey: Json, itsystemRef: Json, dateFrom: Json, dateTo: Json, uuid: Json): (o: MoObject)
    ensures o.Itsystem? && o.base == NewBase(Str("it"), uuid, dateFrom, dateTo)
    ensures o.userKey == userKey && o.itsystemRef == itsystemRef && o.itsystemUuid.Null?
    ensures BuildItsystem(o) == Err(ReferenceError(ItsystemMissing))
  {
    Itsystem(NewBase(Str("it"), uuid, dateFrom, dateTo), userKey, itsystemRef, Null)
  }

  /** `LeaveType.__init__`. */
  function NewLeave(leaveTypeRef: Json, dateFrom: Json, dateTo: Json, uuid: Json): (o: MoObject)
    ensures o.Leave? && o.base == NewBase(Str("leave"), uuid, dateFrom, dateTo)
    ensures o.typeRef == leaveTypeRef && o.typeRefUuid.Null?
    ensures BuildLeave(o)[LeaveTypeKey] == UuidRef(Null)
  {
    Leave(NewBase(Str("leave"), uuid, dateFrom, dateTo), leaveTypeRef, Null)
  }

  /** `RoleType.__init__`. */
  function NewRole(orgUnit: Json, roleTypeRef: Json, dateFrom: Json, dateTo: Json, uuid: Json): (o: MoObject)
    ensures o.Role? && o.base == NewBase(Str("role"), uuid, dateFrom, dateTo)
    ensures o.orgUnitRef == orgUnit && o.typeRef == roleTypeRef && o.typeRefUuid.Null?
    ensures BuildRole(o)[OrgUnitKey] == UuidRef(Null) && BuildRole(o)[RoleTypeKey] == UuidRef(Null)
  {
    Role(NewBase(Str("role"), uuid, dateFrom, dateTo), orgUnit, roleTypeRef, Null)
  }

  /** `ManagerType.__init__`: the responsibility references must come as a
      list; the resolved responsibilities start empty. */
  function NewManager(orgUnit: Json, managerTypeRef: Json, managerLevelRef: Json,
                      responsibilityList: Json, dateFrom: Json, dateTo: Json,
                      addressUuid: Json, addressTypeRef: Json, uuid: Json): (r: Result<MoObject>)
    ensures r.Err? <==> !responsibilityList.Arr?
    ensures r.Err? ==> r.error.TypeError?
    ensures r.Ok? ==> r.value.Manager? && r.value.base == NewBase(Str("manager"), uuid, dateFrom, dateTo)
    ensures r.Ok? ==> r.value.responsibilityList == responsibilityList.items && r.value.responsibilities == []
    ensures r.Ok? ==> r.value.orgUnitRef == orgUnit && r.value.typeRef == managerTypeRef
                      && r.value.managerLevelRef == managerLevelRef
                      && r.value.addressUuid == addressUuid && r.value.addressTypeRef == addressTypeRef
  {
    if !responsibilityList.Arr? then Err(TypeError("Responsabilities must be passed as a list"))
    else
      Ok(Manager(NewBase(Str("manager"), uuid, dateFrom, dateTo), orgUnit, managerTypeRef, Null,
                 managerLevelRef, Null, responsibilityList.items, [], addressUuid, addressTypeRef, Null))
  }

  /** `OrganisationUnitType.__init__`: no type id is set, and the user key
      falls back to the name when it is falsy. */
  function NewOrgUnit(name: Json, typeRef: Json, dateFrom: Json, dateTo: Json,
                      userKey: Json, parentRef: Json, uuid: Json): (o: MoObject)
    ensures o.OrgUnit? && o.base == NewBase(Null, uuid, dateFrom, dateTo)
    ensures Truthy(userKey) ==> o.userKey == userKey
    ensures !Truthy(userKey) ==> o.userKey == name
    ensures o.name == name && o.parentRef == parentRef && o.typeRef == typeRef
    ensures o.parentUuid.Null? && o.typeRefUuid.Null? && o.details == []
  {
    OrgUnit(NewBase(Null, uuid, dateFrom, dateTo), name, if Truthy(userKey) then userKey else name,
            parentRef, Null, typeRef, Null, [])
  }

  /** `EmployeeType.__init__`: no type id and no dates are set. */
  function NewEmployee(name: Json, cprNo: Json, org: Json, uuid: Json, userKey: Json): (o: MoObject)
    ensures o.Employee? && o.base == NewBase(Null, uuid, Null, Null)
    ensures o.name == name && o.cprNo == cprNo && o.org == org && o.userKey == userKey && o.orgUuid.Null?
    ensures BuildEmployee(o) == Err(ReferenceError(OrgMissing))
  {
    Employee(NewBase(Null, uuid, Null, Null), name, cprNo, userKey, org, Null)
  }

  // ---------------------------------------------------------------------------
  // Builders

  /** `AddressType.build`. */
  function BuildAddress(o: MoObject): (r: Result<Payload>)
    requires o.Address?
    ensures r.Err? <==> !Truthy(o.organisationUuid)
    ensures r.Err? ==> r.error == ValueError(OrganisationMissing)
    ensures r.Ok? ==> Framed(r.value, o.base)
    ensures r.Ok? ==> r.value.Keys == {ValueKey, OrgKey, AddressTypeKey}
                                      + (if Truthy(o.visibilityRef) then {VisibilityKey} else {})
                                      + Added(o.base)
    ensures r.Ok? ==> r.value[ValueKey] == o.value && r.value[OrgKey] == UuidRef(o.organisationUuid)
                      && r.value[AddressTypeKey] == UuidRef(o.typeRefUuid)
    ensures r.Ok? && Truthy(o.visibilityRef) ==> r.value[VisibilityKey] == UuidRef(o.visibilityRefUuid)
  {
    if !Truthy(o.organisationUuid) then Err(ValueError(OrganisationMissing))
    else
      var body := map[ValueKey := o.value, OrgKey := UuidRef(o.organisationUuid),
                      AddressTypeKey := UuidRef(o.typeRefUuid)];
      assert body.Keys == {ValueKey, OrgKey, AddressTypeKey};
      var full := PutIf(body, Truthy(o.visibilityRef), VisibilityKey, UuidRef(o.visibilityRefUuid));
      assert full.Keys == body.Keys + (if Truthy(o.visibilityRef) then {VisibilityKey} else {});
      Ok(Finish(o.base, full))
  }

  /** `EngagementType.build`: the references are checked in order (unit, job
      function, engagement type) and written into the existing payload, which
      keeps whatever an earlier build left in it. */
  function BuildEngagement(o: MoObject): (r: Result<Payload>)
    requires o.Engagement?
    ensures r.Err? <==> !Truthy(o.base.orgUnitUuid) || !o.base.payload.Dict?
                        || !Truthy(o.jobFunctionUuid) || !Truthy(o.typeRefUuid)
    ensures !Truthy(o.base.orgUnitUuid) ==> r == Err(ReferenceError(ParentUnitMissing))
    ensures Truthy(o.base.orgUnitUuid) && !o.base.payload.Dict? ==> r.Err? && r.error.TypeError?
    ensures Truthy(o.base.orgUnitUuid) && o.base.payload.Dict? && !Truthy(o.jobFunctionUuid)
            ==> r == Err(ReferenceError(JobFunctionMissing))
    ensures Truthy(o.base.orgUnitUuid) && o.base.payload.Dict? && Truthy(o.jobFunctionUuid) && !Truthy(o.typeRefUuid)
            ==> r == Err(ReferenceError(EngagementTypeMissing))
    ensures r.Ok? ==> Framed(r.value, o.base)
    ensures r.Ok? ==> r.value.Keys == o.base.payload.entries.Keys + {JobFunctionKey, EngagementTypeKey} + Added(o.base)
    ensures r.Ok? ==> r.value[OrgUnitKey] == UuidRef(o.base.orgUnitUuid)
                      && r.value[JobFunctionKey] == UuidRef(o.jobFunctionUuid)
                      && r.value[EngagementTypeKey] == UuidRef(o.typeRefUuid)
  {
    if !Truthy(o.base.orgUnitUuid) then Err(ReferenceError(ParentUnitMissing))
    else if !o.base.payload.Dict? then Err(TypeError("payload does not support item assignment"))
    else
      if !Truthy(o.jobFunctionUuid) then Err(ReferenceError(JobFunctionMissing))
      else if !Truthy(o.typeRefUuid) then Err(ReferenceError(EngagementTypeMissing))
      else
        var body := EngagementBody(o);
        var r := Finish(o.base, body);
        assert r[JobFunctionKey] == body[JobFunctionKey] && r[EngagementTypeKey] == body[EngagementTypeKey];
        Ok(r)
  }

  /** The payload an engagement writes its references into: the stored
      payload with the unit, job function and engagement type added. */
  function EngagementBody(o: MoObject): (body: Payload)
    requires o.Engagement? && o.base.payload.Dict?
    ensures body.Keys == o.base.payload.entries.Keys + {OrgUnitKey, JobFunctionKey, EngagementTypeKey}
    ensures body[OrgUnitKey] == UuidRef(o.base.orgUnitUuid)
    ensures body[JobFunctionKey] == UuidRef(o.jobFunctionUuid) && body[EngagementTypeKey] == UuidRef(o.typeRefUuid)
  {
    o.base.payload.entries[OrgUnitKey := UuidRef(o.base.orgUnitUuid)]
                          [JobFunctionKey := UuidRef(o.jobFunctionUuid)]
                          [EngagementTypeKey := UuidRef(o.typeRefUuid)]
  }

  /** The `address` entry of associations and managers. */
  function AddressEntry(addressUuid: Json, addressTypeUuid: Json): Json
  {
    Obj(map["uuid" := addressUuid, "address_type" := UuidRef(addressTypeUuid)])
  }

  /** `AssociationType.build`. */
  function BuildAssociation(o: MoObject): (r: Result<Payload>)
    requires o.Association?
    ensures r.Err? <==> !Truthy(o.base.orgUnitUuid) || !Truthy(o.jobFunctionUuid) || !Truthy(o.typeRefUuid)
    ensures !Truthy(o.base.orgUnitUuid) ==> r == Err(ReferenceError(OrgUnitUuidMissing))
    ensures Truthy(o.base.orgUnitUuid) && !Truthy(o.jobFunctionUuid) ==> r == Err(ReferenceError(JobFunctionUuidMissing))
    ensures Truthy(o.base.orgUnitUuid) && Truthy(o.jobFunctionUuid) && !Truthy(o.typeRefUuid)
            ==> r == Err(ReferenceError(AssociationTypeMissing))
    ensures r.Ok? ==> Framed(r.value, o.base)
    ensures r.Ok? ==> r.value.Keys == {OrgUnitKey, JobFunctionKey, AssociationTypeKey}
                                      + (if Truthy(o.addressUuid) then {AddressKey} else {})
                                      + Added(o.base)
    ensures r.Ok? ==> r.value[JobFunctionKey] == UuidRef(o.jobFunctionUuid)
                      && r.value[AssociationTypeKey] == UuidRef(o.typeRefUuid)
    ensures r.Ok? && Truthy(o.addressUuid) ==> r.value[AddressKey] == AddressEntry(o.addressUuid, o.addressTypeUuid)
  {
    if !Truthy(o.base.orgUnitUuid) then Err(ReferenceError(OrgUnitUuidMissing))
    else if !Truthy(o.jobFunctionUuid) then Err(ReferenceError(JobFunctionUuidMissing))
    else if !Truthy(o.typeRefUuid) then Err(ReferenceError(AssociationTypeMissing))
    else
      var body := map[OrgUnitKey := UuidRef(o.base.orgUnitUuid), JobFunctionKey := UuidRef(o.jobFunctionUuid),
                      AssociationTypeKey := UuidRef(o.typeRefUuid)];
      assert body.Keys == {OrgUnitKey, JobFunctionKey, AssociationTypeKey};
      var full := PutIf(body, Truthy(o.addressUuid), AddressKey, AddressEntry(o.addressUuid, o.addressTypeUuid));
      PutIfKeys(body, Truthy(o.addressUuid), AddressKey, AddressEntry(o.addressUuid, o.addressTypeUuid));
      var r := Finish(o.base, full);
      assert r[JobFunctionKey] == full[JobFunctionKey] && r[AssociationTypeKey] == full[AssociationTypeKey];
      Ok(r)
  }

  /** `ItsystemType.build`. */
  function BuildItsystem(o: MoObject): (r: Result<Payload>)
    requires o.Itsystem?
    ensures r.Err? <==> !Truthy(o.itsystemUuid)
    ensures r.Err? ==> r.error == ReferenceError(ItsystemMissing)
    ensures r.Ok? ==> Framed(r.value, o.base)
    ensures r.Ok? ==> r.value.Keys == {UserKeyKey, ItsystemKey} + Added(o.base)
    ensures r.Ok? ==> r.value[UserKeyKey] == o.userKey && r.value[ItsystemKey] == UuidRef(o.itsystemUuid)
  {
    if !Truthy(o.itsystemUuid) then Err(ReferenceError(ItsystemMissing))
    else
      var body := map[UserKeyKey := o.userKey, ItsystemKey := UuidRef(o.itsystemUuid)];
      assert body.Keys == {UserKeyKey, ItsystemKey};
      Ok(Finish(o.base, body))
  }

  /** `LeaveType.build`: no reference is checked. */
  function BuildLeave(o: MoObject): (r: Payload)
    requires o.Leave?
    ensures Framed(r, o.base)
    ensures r.Keys == {LeaveTypeKey} + Added(o.base)
    ensures r[LeaveTypeKey] == UuidRef(o.typeRefUuid)
  {
    var body := map[LeaveTypeKey := UuidRef(o.typeRefUuid)];
    assert body.Keys == {LeaveTypeKey};
    Finish(o.base, body)
  }

  /** `RoleType.build`: no reference is checked; the unit entry is written
      even when its uuid is None. */
  function BuildRole(o: MoObject): (r: Payload)
    requires o.Role?
    ensures Framed(r, o.base)
    ensures r.Keys == {OrgUnitKey, RoleTypeKey} + Added(o.base)
    ensures r[OrgUnitKey] == UuidRef(o.base.orgUnitUuid) && r[RoleTypeKey] == UuidRef(o.typeRefUuid)
  {
    var body := map[OrgUnitKey := UuidRef(o.base.orgUnitUuid), RoleTypeKey := UuidRef(o.typeRefUuid)];
    assert body.Keys == {OrgUnitKey, RoleTypeKey};
    Finish(o.base, body)
  }

  /** `[{"uuid": u} for u in us]`. */
  function UuidRefs(us: seq<Json>): (r: seq<Json>)
    ensures |r| == |us|
    ensures forall i :: 0 <= i < |us| ==> r[i] == UuidRef(us[i])
  {
    if us == [] then [] else [UuidRef(us[0])] + UuidRefs(us[1..])
  }

  /** `ManagerType.build`: no reference is checked; one responsibility entry
      per resolved responsibility, in order. */
  function BuildManager(o: MoObject): (r: Payload)
    requires o.Manager?
    ensures Framed(r, o.base)
    ensures r.Keys == {OrgUnitKey, ManagerTypeKey, ManagerLevelKey, ResponsibilityKey}
                      + (if Truthy(o.addressUuid) then {AddressKey} else {})
                      + Added(o.base)
    ensures r[OrgUnitKey] == UuidRef(o.base.orgUnitUuid) && r[ManagerTypeKey] == UuidRef(o.typeRefUuid)
            && r[ManagerLevelKey] == UuidRef(o.managerLevelUuid)
    ensures r[ResponsibilityKey].Arr? && |r[ResponsibilityKey].items| == |o.responsibilities|
    ensures forall i :: 0 <= i < |o.responsibilities| ==> r[ResponsibilityKey].items[i] == UuidRef(o.responsibilities[i])
    ensures Truthy(o.addressUuid) ==> r[AddressKey] == AddressEntry(o.addressUuid, o.addressTypeUuid)
  {
    var body := ManagerBody(o);
    var r := Finish(o.base, body);
    assert r[ResponsibilityKey] == body[ResponsibilityKey];
    r
  }

  /** The class-specific part of a manager payload. */
  function ManagerBody(o: MoObject): (body: Payload)
    requires o.Manager?
    ensures body.Keys == {OrgUnitKey, ManagerTypeKey, ManagerLevelKey, ResponsibilityKey}
                         + (if Truthy(o.addressUuid) then {AddressKey} else {})
    ensures body[OrgUnitKey] == UuidRef(o.base.orgUnitUuid) && body[ManagerTypeKey] == UuidRef(o.typeRefUuid)
            && body[ManagerLevelKey] == UuidRef(o.managerLevelUuid)
    ensures body[ResponsibilityKey] == Arr(UuidRefs(o.responsibilities))
    ensures Truthy(o.addressUuid) ==> body[AddressKey] == AddressEntry(o.addressUuid, o.addressTypeUuid)
  {
    var body := map[OrgUnitKey := UuidRef(o.base.orgUnitUuid), ManagerTypeKey := UuidRef(o.typeRefUuid),
                    ManagerLevelKey := UuidRef(o.managerLevelUuid),
                    ResponsibilityKey := Arr(UuidRefs(o.responsibilities))];
    assert body.Keys == {OrgUnitKey, ManagerTypeKey, ManagerLevelKey, ResponsibilityKey};
    var full := PutIf(body, Truthy(o.addressUuid), AddressKey, AddressEntry(o.addressUuid, o.addressTypeUuid));
    assert full.Keys == body.Keys + (if Truthy(o.addressUuid) then {AddressKey} else {});
    full
  }

  /** `OrganisationUnitType.build`: parent first, then unit type. */
  function BuildOrgUnit(o: MoObject): (r: Result<Payload>)
    requires o.OrgUnit?
    ensures r.Err? <==> !Truthy(o.parentUuid) || !Truthy(o.typeRefUuid)
    ensures !Truthy(o.parentUuid) ==> r == Err(ReferenceError(ParentMissing))
    ensures Truthy(o.parentUuid) && !Truthy(o.typeRefUuid) ==> r == Err(ReferenceError(UnitTypeMissing))
    ensures r.Ok? ==> Framed(r.value, o.base)
    ensures r.Ok? ==> r.value.Keys == {UserKeyKey, NameKey, ParentKey, OrgUnitTypeKey} + Added(o.base)
    ensures r.Ok? ==> r.value[UserKeyKey] == o.userKey && r.value[NameKey] == o.name
                      && r.value[ParentKey] == UuidRef(o.parentUuid)
                      && r.value[OrgUnitTypeKey] == UuidRef(o.typeRefUuid)
  {
    if !Truthy(o.parentUuid) then Err(ReferenceError(ParentMissing))
    else if !Truthy(o.typeRefUuid) then Err(ReferenceError(UnitTypeMissing))
    else
      var body := map[UserKeyKey := o.userKey, NameKey := o.name, ParentKey := UuidRef(o.parentUuid),
                      OrgUnitTypeKey := UuidRef(o.typeRefUuid)];
      assert body.Keys == {UserKeyKey, NameKey, ParentKey, OrgUnitTypeKey};
      Ok(Finish(o.base, body))
  }

  /** A unit without a uuid builds a payload without one. */
  lemma UnitWithoutUuid(o: MoObject)
    requires o.OrgUnit? && !Truthy(o.base.uuid) && BuildOrgUnit(o).Ok?
    ensures UuidKey !in BuildOrgUnit(o).value
  {
    var keys := {UserKeyKey, NameKey, ParentKey, OrgUnitTypeKey};
    assert UuidKey !in keys;
    assert UuidKey !in Added(o.base);
  }

  /** `EmployeeType.build`. */
  function BuildEmployee(o: MoObject): (r: Result<Payload>)
    requires o.Employee?
    ensures r.Err? <==> !Truthy(o.orgUuid)
    ensures r.Err? ==> r.error == ReferenceError(OrgMissing)
    ensures r.Ok? ==> Framed(r.value, o.base)
    ensures r.Ok? ==> r.value.Keys == {NameKey, CprNoKey, OrgKey} + Added(o.base)
    ensures r.Ok? ==> r.value[NameKey] == o.name && r.value[CprNoKey] == o.cprNo && r.value[OrgKey] == UuidRef(o.orgUuid)
  {
    if !Truthy(o.orgUuid) then Err(ReferenceError(OrgMissing))
    else
      var body := map[NameKey := o.name, CprNoKey := o.cprNo, OrgKey := UuidRef(o.orgUuid)];
      assert body.Keys == {NameKey, CprNoKey, OrgKey};
      Ok(Finish(o.base, body))
  }

  /** `build` of whichever class the object is. */
  function Build(o: MoObject): (r: Result<Payload>)
    ensures r.Ok? ==> Framed(r.value, o.base)
  {
    match o
    case Address(_, _, _, _, _, _, _) => BuildAddress(o)
    case Engagement(_, _, _, _, _, _) => BuildEngagement(o)
    case Association(_, _, _, _, _, _, _, _, _) => BuildAssociation(o)
    case Itsystem(_, _, _, _) => BuildItsystem(o)
    case Leave(_, _, _) => Ok(BuildLeave(o))
    case Role(_, _, _, _) => Ok(BuildRole(o))
    case Manager(_, _, _, _, _, _, _, _, _, _, _) => Ok(BuildManager(o))
    case OrgUnit(_, _, _, _, _, _, _, _) => BuildOrgUnit(o)
    case Employee(_, _, _, _, _, _) => BuildEmployee(o)
  }

  /** The uuids each class needs before it can be built, stated apart from
      the builders. */
  predicate Ready(o: MoObject)
  {
    match o
    case Address(_, _, _, _, _, _, orgUuid) => Truthy(orgUuid)
    case Engagement(b, _, _, typeUuid, _, jobUuid) =>
      Truthy(b.orgUnitUuid) && b.payload.Dict? && Truthy(jobUuid) && Truthy(typeUuid)
    case Association(b, _, _, jobUuid, _, typeUuid, _, _, _) =>
      Truthy(b.orgUnitUuid) && Truthy(jobUuid) && Truthy(typeUuid)
    case Itsystem(_, _, _, itUuid) => Truthy(itUuid)
    case Leave(_, _, _) => true
    case Role(_, _, _, _) => true
    case Manager(_, _, _, _, _, _, _, _, _, _, _) => true
    case OrgUnit(_, _, _, _, parentUuid, _, typeUuid, _) => Truthy(parentUuid) && Truthy(typeUuid)
    case Employee(_, _, _, _, _, orgUuid) => Truthy(orgUuid)
  }

  /** An object builds exactly when the uuids its class needs are set. */
  lemma BuildOkIff(o: MoObject)
    ensures Build(o).Ok? <==> Ready(o)
  {
  }

  /** Freshly constructed objects: the classes that check references refuse
      to build until the importer has resolved them; leave, role and manager
      build at once, with None in their reference entries. */
  lemma FreshObjects(v: Json, r1: Json, r2: Json, r3: Json, from: Json, to: Json, u: Json)
    ensures BuildAddress(NewAddress(v, r1, from, to, u, r2)) == Err(ValueError(OrganisationMissing))
    ensures BuildEngagement(NewEngagement(r1, r2, r3, from, to, u)) == Err(ReferenceError(ParentUnitMissing))
    ensures BuildAssociation(NewAssociation(r1, r2, r3, from, to, v, v, u)) == Err(ReferenceError(OrgUnitUuidMissing))
    ensures BuildItsystem(NewItsystem(v, r1, from, to, u)) == Err(ReferenceError(ItsystemMissing))
    ensures BuildOrgUnit(NewOrgUnit(v, r1, from, to, r2, r3, u)) == Err(ReferenceError(ParentMissing))
    ensures BuildEmployee(NewEmployee(v, r1, r2, u, r3)) == Err(ReferenceError(OrgMissing))
    ensures BuildLeave(NewLeave(r1, from, to, u))[LeaveTypeKey] == UuidRef(Null)
  {
  }
}

=== FILE: multiple_replace.dfy ===
/** Single-pass simultaneous string replacement: every key of a replacement
    dict is replaced by its value in one left-to-right scan, the way a regular
    expression alternation of the escaped keys substitutes. */
module MultipleReplace {
  import opened Common
  import opened Text

  /** A replacement dict, in its iteration order. */
  type Pairs = seq<(string, string)>

  /** Dict keys are distinct. */
  predicate DistinctKeys(d: Pairs)
  {
    forall i, j :: 0 <= i < j < |d| ==> d[i].0 != d[j].0
  }

  /** The keys of a dict in iteration order. */
  function Keys(d: Pairs): (r: seq<string>)
    ensures |r| == |d|
    ensures forall i :: 0 <= i < |d| ==> r[i] == d[i].0
    ensures forall k :: k in r <==> exists i :: 0 <= i < |d| && d[i].0 == k
    ensures DistinctKeys(d) ==> forall i, j :: 0 <= i < j < |r| ==> r[i] != r[j]
  {
    seq(|d|, i requires 0 <= i < |d| => d[i].0)
  }

  /** `replacement_dict.get(key, '')`. */
  function Lookup(d: Pairs, key: string): (r: string)
    ensures (forall i :: 0 <= i < |d| ==> d[i].0 != key) ==> r == ""
  {
    if |d| == 0 then ""
    else if d[0].0 == key then d[0].1
    else Lookup(d[1..], key)
  }

  /** A key is looked up to the value stored with it. */
  lemma {:induction false} LookupAt(d: Pairs, i: nat)
    requires DistinctKeys(d) && i < |d|
    ensures Lookup(d, d[i].0) == d[i].1
  {
    if i > 0 {
      assert d[0].0 != d[i].0;
      assert d[1..][i - 1] == d[i];
      LookupAt(d[1..], i - 1);
    }
  }

  // ---------------------------------------------------------------------------
  // Compiling the pattern.

  /** No key is the empty string. */
  predicate NonEmptyKeys(keys: seq<string>)
  {
    forall k :: 0 <= k < |keys| ==> keys[k] != ""
  }

  /** `multiple_replace_compile`: the alternation of the keys in dict order;
      a dict with the empty key is refused. */
  function Compile(d: Pairs): (r: Result<seq<string>>)
    ensures r.Err? <==> exists i :: 0 <= i < |d| && d[i].0 == ""
    ensures r.Err? ==> r.error.AssertionError?
    ensures r.Ok? ==> r.value == Keys(d) && NonEmptyKeys(r.value)
  {
    if exists i :: 0 <= i < |d| && d[i].0 == "" then Err(AssertionError("Cannot replace empty string"))
    else Ok(Keys(d))
  }

  // ---------------------------------------------------------------------------
  // Matching.

  /** The alternation tried at the front of `s`: the first key, in pattern
      order, that `s` starts with. */
  function FirstKeyAt(keys: seq<string>, s: string): (r: Option<nat>)
    ensures r.Some? ==> r.value < |keys| && OccursAt(s, keys[r.value], 0)
    ensures r.Some? ==> forall k :: 0 <= k < r.value ==> !OccursAt(s, keys[k], 0)
    ensures r.None? <==> forall k :: 0 <= k < |keys| ==> !OccursAt(s, keys[k], 0)
  {
    FirstKeyFrom(keys, s, 0)
  }

  function FirstKeyFrom(keys: seq<string>, s: string, i: nat): (r: Option<nat>)
    requires i <= |keys|
    ensures r.Some? ==> i <= r.value < |keys| && OccursAt(s, keys[r.value], 0)
    ensures r.Some? ==> forall k :: i <= k < r.value ==> !OccursAt(s, keys[k], 0)
    ensures r.None? <==> forall k :: i <= k < |keys| ==> !OccursAt(s, keys[k], 0)
    decreases |keys| - i
  {
    if i == |keys| then None
    else if OccursAt(s, keys[i], 0) then Some(i)
    else FirstKeyFrom(keys, s, i + 1)
  }

  /** One step of the scan: a key matched at the front, or a character kept. */
  datatype Token = Lit(c: char) | Hit(key: string)

  /** The scan `pattern.sub` performs: at each position the first matching key
      is consumed whole, otherwise one character is kept; the scan resumes
      after what was consumed. */
  function Tokenize(keys: seq<string>, s: string): (r: seq<Token>)
    requires NonEmptyKeys(keys)
    ensures forall t :: t in r && t.Hit? ==> t.key in keys
    decreases |s|
  {
    if s == "" then []
    else match FirstKeyAt(keys, s)
      case Some(k) => [Hit(keys[k])] + Tokenize(keys, s[|keys[k]|..])
      case None => [Lit(s[0])] + Tokenize(keys, s[1..])
  }

  /** The input text a token stands for. */
  function Source(ts: seq<Token>): string
  {
    if ts == [] then ""
    else (match ts[0] case Lit(c) => [c] case Hit(k) => k) + Source(ts[1..])
  }

  /** The output text a token produces. */
  function Render(d: Pairs, ts: seq<Token>): string
  {
    if ts == [] then ""
    else (match ts[0] case Lit(c) => [c] case Hit(k) => Lookup(d, k)) + Render(d, ts[1..])
  }

  /** `multiple_replace_run`: each key the scan finds is replaced by its value. */
  function Run(keys: seq<string>, d: Pairs, s: string): string
    requires NonEmptyKeys(keys)
  {
    Render(d, Tokenize(keys, s))
  }

  /** `multiple_replace`: compile the dict, then run it over the string. */
  function Replace(d: Pairs, s: string): (r: Result<string>)
    ensures r.Err? <==> exists i :: 0 <= i < |d| && d[i].0 == ""
    ensures r.Ok? ==> NonEmptyKeys(Keys(d)) && r.value == Run(Keys(d), d, s)
  {
    var keys :- Compile(d);
    Ok(Run(keys, d, s))
  }

  // ---------------------------------------------------------------------------
  // Properties.

  /** The scan reads the whole input exactly once: the tokens spell out `s`. */
  lemma {:induction false} TokenizeCovers(keys: seq<string>, s: string)
    requires NonEmptyKeys(keys)
    ensures Source(Tokenize(keys, s)) == s
    decreases |s|
  {
    if s != "" {
      var ts := Tokenize(keys, s);
      match FirstKeyAt(keys, s)
      case Some(k) =>
        var rest := s[|keys[k]|..];
        assert ts == [Hit(keys[k])] + Tokenize(keys, rest);
        assert ts[1..] == Tokenize(keys, rest);
        TokenizeCovers(keys, rest);
        assert Source(ts) == keys[k] + rest;
        assert s[..|keys[k]|] == keys[k];
        assert s == keys[k] + rest;
      case None =>
        assert ts == [Lit(s[0])] + Tokenize(keys, s[1..]);
        assert ts[1..] == Tokenize(keys, s[1..]);
        TokenizeCovers(keys, s[1..]);
        assert s == [s[0]] + s[1..];
    }
  }

  /** No key occurs anywhere in `s`. */
  predicate NoKeyIn(keys: seq<string>, s: string)
  {
    forall k, j :: 0 <= k < |keys| && 0 <= j <= |s| ==> !OccursAt(s, keys[k], j)
  }

  /** A string in which no key occurs is returned unchanged. */
  lemma {:induction false} NoKeyUnchanged(keys: seq<string>, d: Pairs, s: string)
    requires NonEmptyKeys(keys) && NoKeyIn(keys, s)
    ensures Run(keys, d, s) == s
    decreases |s|
  {
    if s != "" {
      assert FirstKeyAt(keys, s).None? by {
        forall k | 0 <= k < |keys| ensures !OccursAt(s, keys[k], 0) {
        }
      }
      assert NoKeyIn(keys, s[1..]) by {
        forall k, j | 0 <= k < |keys| && 0 <= j <= |s[1..]| ensures !OccursAt(s[1..], keys[k], j) {
          if OccursAt(s[1..], keys[k], j) {
            assert s[j + 1..j + 1 + |keys[k]|] == s[1..][j..j + |keys[k]|];
            assert OccursAt(s, keys[k], j + 1);
          }
        }
      }
      NoKeyUnchanged(keys, d, s[1..]);
      assert s == [s[0]] + s[1..];
    }
  }

  /** Under an empty dict every string is returned unchanged. */
  lemma EmptyDictUnchanged(s: string)
    ensures Replace([], s) == Ok(s)
  {
    NoKeyUnchanged([], [], s);
  }

  /** Every key maps to itself. */
  predicate IsIdentity(d: Pairs)
  {
    forall i :: 0 <= i < |d| ==> d[i].0 == d[i].1
  }

  lemma {:induction false} RenderIdentity(d: Pairs, ts: seq<Token>)
    requires DistinctKeys(d) && IsIdentity(d)
    requires forall t :: t in ts && t.Hit? ==> t.key in Keys(d)
    ensures Render(d, ts) == Source(ts)
  {
    if ts != [] {
      if ts[0].Hit? {
        var i :| 0 <= i < |d| && Keys(d)[i] == ts[0].key;
        LookupAt(d, i);
      }
      assert forall t :: t in ts[1..] ==> t in ts;
      RenderIdentity(d, ts[1..]);
    }
  }

  /** Replacing every key by itself changes nothing: the scan consumes the
      input without loss, and only matched keys are touched. */
  lemma IdentityUnchanged(d: Pairs, s: string)
    requires DistinctKeys(d) && IsIdentity(d)
    requires forall i :: 0 <= i < |d| ==> d[i].0 != ""
    ensures Replace(d, s) == Ok(s)
  {
    RenderIdentity(d, Tokenize(Keys(d), s));
    TokenizeCovers(Keys(d), s);
  }

  /** When several keys match at the front, the one earliest in dict order is
      replaced, and the scan continues after it in the input. */
  lemma {:induction false} EarliestKeyWins(d: Pairs, s: string, i: nat)
    requires DistinctKeys(d) && NonEmptyKeys(Keys(d))
    requires i < |d| && OccursAt(s, d[i].0, 0)
    requires forall k :: 0 <= k < i ==> !OccursAt(s, d[k].0, 0)
    ensures Run(Keys(d), d, s) == d[i].1 + Run(Keys(d), d, s[|d[i].0|..])
  {
    var keys := Keys(d);
    assert FirstKeyAt(keys, s) == Some(i) by {
      var r := FirstKeyAt(keys, s);
      assert r.Some?;
      assert !(r.value < i) && !(i < r.value);
    }
    LookupAt(d, i);
  }

  /** One round of the scan: the text it emits and how much input it
      consumes (a whole key, or one character). */
  function Step(keys: seq<string>, d: Pairs, s: string): (r: (string, nat))
    requires NonEmptyKeys(keys) && s != ""
    ensures 1 <= r.1 <= |s|
    ensures Run(keys, d, s) == r.0 + Run(keys, d, s[r.1..])
  {
    match FirstKeyAt(keys, s)
    case Some(k) => HitStep(keys, d, s, k); (Lookup(d, keys[k]), |keys[k]|)
    case None => LitStep(keys, d, s); ([s[0]], 1)
  }

  /** `multiple_replace_run` as the loop it performs: a cursor over the input
      and an output buffer; it computes the scan's result. */
  method RunScan(keys: seq<string>, d: Pairs, s: string) returns (out: string)
    requires NonEmptyKeys(keys)
    ensures out == Run(keys, d, s)
  {
    out := "";
    var rest := s;
    while rest != ""
      invariant out + Run(keys, d, rest) == Run(keys, d, s)
      decreases |rest|
    {
      var step := Step(keys, d, rest);
      var v, n := step.0, step.1;
      var tail := Run(keys, d, rest[n..]);
      assert (out + v) + tail == out + (v + tail);
      out := out + v;
      rest := rest[n..];
    }
  }

  // Unfolding steps used by the examples.

  lemma HitStep(keys: seq<string>, d: Pairs, s: string, k: nat)
    requires NonEmptyKeys(keys) && s != ""
    requires FirstKeyAt(keys, s) == Some(k)
    ensures Run(keys, d, s) == Lookup(d, keys[k]) + Run(keys, d, s[|keys[k]|..])
  {
    var ts := Tokenize(keys, s);
    assert ts == [Hit(keys[k])] + Tokenize(keys, s[|keys[k]|..]);
    assert ts[1..] == Tokenize(keys, s[|keys[k]|..]);
  }

  lemma LitStep(keys: seq<string>, d: Pairs, s: string)
    requires NonEmptyKeys(keys) && s != ""
    requires FirstKeyAt(keys, s).None?
    ensures Run(keys, d, s) == [s[0]] + Run(keys, d, s[1..])
  {
    var ts := Tokenize(keys, s);
    assert ts == [Lit(s[0])] + Tokenize(keys, s[1..]);
    assert ts[1..] == Tokenize(keys, s[1..]);
  }

  lemma NotAtFront(s: string, key: string)
    requires s != "" && key != "" && s[0] != key[0]
    ensures !OccursAt(s, key, 0)
  {
  }

  lemma NoneOfTwo(a: string, b: string, s: string)
    requires a != "" && b != "" && s != "" && s[0] != a[0] && s[0] != b[0]
    ensures FirstKeyAt([a, b], s).None?
  {
    NotAtFront(s, a);
    NotAtFront(s, b);
  }

  lemma ReplaceRuns(d: Pairs, s: string)
    requires NonEmptyKeys(Keys(d))
    ensures Replace(d, s) == Ok(Run(Keys(d), d, s))
  {
    assert forall i :: 0 <= i < |d| ==> d[i].0 == Keys(d)[i];
  }

  // ---------------------------------------------------------------------------
  // Examples.

  /** Two-key scans in which every step is decided by the first character. */
  lemma HitThen(keys: seq<string>, d: Pairs, s: string, k: nat, out: string)
    requires NonEmptyKeys(keys) && s != "" && k < |keys|
    requires OccursAt(s, keys[k], 0) && forall j :: 0 <= j < k ==> !OccursAt(s, keys[j], 0)
    requires Run(keys, d, s[|keys[k]|..]) == out
    ensures Run(keys, d, s) == Lookup(d, keys[k]) + out
  {
    assert FirstKeyAt(keys, s) == Some(k) by {
      var r := FirstKeyAt(keys, s);
      assert r.Some?;
      assert !(r.value < k) && !(k < r.value);
    }
    HitStep(keys, d, s, k);
  }

  lemma LitThen(keys: seq<string>, d: Pairs, s: string, out: string)
    requires NonEmptyKeys(keys) && s != ""
    requires forall j :: 0 <= j < |keys| ==> keys[j] == "" || keys[j][0] != s[0]
    requires Run(keys, d, s[1..]) == out
    ensures Run(keys, d, s) == [s[0]] + out
  {
    forall j | 0 <= j < |keys| ensures !OccursAt(s, keys[j], 0) {
      NotAtFront(s, keys[j]);
    }
    LitStep(keys, d, s);
  }

  lemma TeaSteps(d: Pairs, keys: seq<string>, s3: string)
    requires d == [("like", "love"), ("tea", "coffee")] && keys == ["like", "tea"]
    requires s3 == " tea"
    ensures NonEmptyKeys(keys)
    ensures Run(keys, d, s3) == " coffee"
  {
    LookupAt(d, 1);
    var s4 := "tea";
    assert s4[3..] == "";
    assert Run(keys, d, s4[3..]) == "";
    assert s4[0..3] == keys[1];
    HitThen(keys, d, s4, 1, "");
    assert s3[1..] == s4;
    LitThen(keys, d, s3, "coffee");
  }

  /** The concatenations the example's output is assembled from. */
  lemma LoveCoffee()
    ensures "love" + " coffee" == "love coffee"
    ensures [' '] + "love coffee" == " love coffee"
    ensures ['I'] + " love coffee" == "I love coffee"
  {
  }

  lemma LikeSteps(d: Pairs, keys: seq<string>, s2: string)
    requires d == [("like", "love"), ("tea", "coffee")] && keys == ["like", "tea"]
    requires s2 == "like tea"
    ensures NonEmptyKeys(keys)
    ensures Run(keys, d, s2) == "love coffee"
  {
    LookupAt(d, 0);
    var s3 := " tea";
    TeaSteps(d, keys, s3);
    assert s2[0..4] == keys[0];
    assert s2[4..] == s3;
    HitThen(keys, d, s2, 0, " coffee");
    LoveCoffee();
  }

  lemma LikeTeaSteps(d: Pairs, keys: seq<string>, s1: string)
    requires d == [("like", "love"), ("tea", "coffee")] && keys == ["like", "tea"]
    requires s1 == " like tea"
    ensures NonEmptyKeys(keys)
    ensures Run(keys, d, s1) == " love coffee"
  {
    var s2 := "like tea";
    LikeSteps(d, keys, s2);
    assert s1[1..] == s2;
    LitThen(keys, d, s1, "love coffee");
    LoveCoffee();
  }

  /** The documented example (the docstring lists the two arguments the other
      way round from the signature). */
  lemma LikeTeaExample(d: Pairs, s: string)
    requires d == [("like", "love"), ("tea", "coffee")] && s == "I like tea"
    ensures Replace(d, s) == Ok("I love coffee")
  {
    assert NonEmptyKeys(Keys(d)) && Run(Keys(d), d, s) == "I love coffee" by {
      var keys := ["like", "tea"];
      assert Keys(d) == keys;
      var s1 := " like tea";
      LikeTeaSteps(d, keys, s1);
      assert s[1..] == s1;
      LitThen(keys, d, s, " love coffee");
      LoveCoffee();
    }
    ReplaceRuns(d, s);
  }

  /** Inserted text is never scanned again: with "a" -> "b" and "b" -> "c",
      "a" becomes "b", not "c". */
  lemma NoRescanExample(d: Pairs, s: string)
    requires d == [("a", "b"), ("b", "c")] && s == "a"
    ensures Replace(d, s) == Ok("b")
  {
    var keys := ["a", "b"];
    assert Keys(d) == keys;
    LookupAt(d, 0);
    assert s[1..] == "";
    assert Run(keys, d, s[1..]) == "";
    assert s[0..1] == keys[0];
    HitThen(keys, d, s, 0, "");
    assert Lookup(d, keys[0]) == "b";
    assert Run(keys, d, s) == "b";
    assert Run(Keys(d), d, s) == "b";
    ReplaceRuns(d, s);
  }

  /** The alternation is ordered, not longest-match: dict order decides which
      of "a" and "ab" is replaced in "ab". */
  lemma OrderExample(d1: Pairs, d2: Pairs, s: string)
    requires d1 == [("ab", "X"), ("a", "Y")] && d2 == [("a", "Y"), ("ab", "X")] && s == "ab"
    ensures Replace(d1, s) == Ok("X")
    ensures Replace(d2, s) == Ok("Yb")
  {
    LongFirst(d1, s);
    ShortFirst(d2, s);
  }

  /** With "ab" listed first, the whole text is one match. */
  lemma LongFirst(d: Pairs, s: string)
    requires d == [("ab", "X"), ("a", "Y")] && s == "ab"
    ensures Replace(d, s) == Ok("X")
  {
    var k := ["ab", "a"];
    assert Keys(d) == k;
    LookupAt(d, 0);
    assert s[0..2] == k[0];
    assert s[2..] == "";
    assert Run(k, d, s[2..]) == "";
    HitThen(k, d, s, 0, "");
    assert Run(Keys(d), d, s) == "X";
    ReplaceRuns(d, s);
  }

  /** With "a" listed first, "a" matches and "b" is kept. */
  lemma ShortFirst(d: Pairs, s: string)
    requires d == [("a", "Y"), ("ab", "X")] && s == "ab"
    ensures Replace(d, s) == Ok("Yb")
  {
    var k := ["a", "ab"];
    assert Keys(d) == k;
    LookupAt(d, 0);
    var t := "b";
    assert s[0..1] == k[0];
    assert s[1..] == t && t[1..] == "";
    assert Run(k, d, t[1..]) == "";
    LitThen(k, d, t, "");
    HitThen(k, d, s, 0, "b");
    assert Run(Keys(d), d, s) == "Yb";
    ReplaceRuns(d, s);
  }
}

=== FILE: query_actualstate.dfy ===
/** `set_of_org_units` of the MED-members report: every unit below a named head
    unit, found by repeatedly asking for the children of the previous level. */
module QueryActualState {
  import opened Common

  /** A row of the unit table: its uuid, name and parent uuid. */
  datatype Unit = Unit(uuid: string, name: string, parent: Option<string>)

  // ---------------------------------------------------------------------------
  // The children query and the levels it produces.

  /** The child query: uuids of the units whose parent is in `s`. */
  function Children(units: seq<Unit>, s: set<string>): set<string>
  {
    set i | 0 <= i < |units| && units[i].parent.Some? && units[i].parent.value in s :: units[i].uuid
  }

  /** The units exactly `n` child steps below `s`. */
  function Level(units: seq<Unit>, n: nat, s: set<string>): set<string>
  {
    if n == 0 then s else Children(units, Level(units, n - 1, s))
  }

  /** The units one to `n` child steps below `s`. */
  function Upto(units: seq<Unit>, n: nat, s: set<string>): set<string>
  {
    if n == 0 then {} else Upto(units, n - 1, s) + Level(units, n, s)
  }

  // ---------------------------------------------------------------------------
  // The reference definition: paths in the hierarchy.

  /** `c` is a child of `p` in the table. */
  predicate ChildOf(units: seq<Unit>, c: string, p: string)
  {
    exists i :: 0 <= i < |units| && units[i].uuid == c && units[i].parent == Some(p)
  }

  /** A downward path: each element is a child of the one before. */
  predicate IsPath(units: seq<Unit>, p: seq<string>)
  {
    |p| >= 1 && forall i :: 0 <= i < |p| - 1 ==> ChildOf(units, p[i + 1], p[i])
  }

  /** `u` lies one or more child steps below `h`. */
  ghost predicate Descendant(units: seq<Unit>, h: string, u: string)
  {
    exists p :: IsPath(units, p) && |p| >= 2 && p[0] == h && p[|p| - 1] == u
  }

  /** Some downward path from `h` visits a unit twice: the hierarchy below `h`
      contains a cycle. */
  ghost predicate ReachableCycle(units: seq<Unit>, h: string)
  {
    exists p :: IsPath(units, p) && p[0] == h && !Distinct(p)
  }

  predicate Distinct(p: seq<string>)
  {
    forall i, j :: 0 <= i < j < |p| ==> p[i] != p[j]
  }

  /** The last element of a path is on the level its length names. */
  lemma {:induction false} PathLevel(units: seq<Unit>, p: seq<string>, s: set<string>)
    requires IsPath(units, p) && p[0] in s
    ensures p[|p| - 1] in Level(units, |p| - 1, s)
    decreases |p|
  {
    if |p| > 1 {
      var q := p[..|p| - 1];
      assert IsPath(units, q) by {
        forall i | 0 <= i < |q| - 1 ensures ChildOf(units, q[i + 1], q[i]) {
          assert ChildOf(units, p[i + 1], p[i]);
        }
      }
      PathLevel(units, q, s);
      assert ChildOf(units, p[|p| - 1], p[|p| - 2]);
    }
  }

  /** Every unit on level `n` ends a path of `n` steps from `s`. */
  lemma {:induction false} LevelPath(units: seq<Unit>, n: nat, s: set<string>, u: string) returns (p: seq<string>)
    requires u in Level(units, n, s)
    ensures IsPath(units, p) && |p| == n + 1 && p[0] in s && p[n] == u
  {
    if n == 0 {
      p := [u];
    } else {
      var i :| 0 <= i < |units| && units[i].uuid == u && units[i].parent.Some? && units[i].parent.value in Level(units, n - 1, s);
      var q := LevelPath(units, n - 1, s, units[i].parent.value);
      p := q + [u];
      forall k | 0 <= k < |p| - 1 ensures ChildOf(units, p[k + 1], p[k]) {
        if k < |p| - 2 {
          assert ChildOf(units, q[k + 1], q[k]);
        } else {
          assert units[i].parent == Some(p[k]);
        }
      }
    }
  }

  /** Levels are exactly the ends of paths of that length. */
  lemma LevelIsPathEnd(units: seq<Unit>, n: nat, h: string, u: string)
    ensures u in Level(units, n, {h}) <==> exists p :: IsPath(units, p) && |p| == n + 1 && p[0] == h && p[n] == u
  {
    if u in Level(units, n, {h}) {
      var p := LevelPath(units, n, {h}, u);
    }
    if exists p :: IsPath(units, p) && |p| == n + 1 && p[0] == h && p[n] == u {
      var p :| IsPath(units, p) && |p| == n + 1 && p[0] == h && p[n] == u;
      PathLevel(units, p, {h});
    }
  }

  lemma {:induction false} EmptyStays(units: seq<Unit>, m: nat, j: nat, s: set<string>)
    requires Level(units, m, s) == {}
    ensures Level(units, m + j, s) == {}
  {
    if j > 0 {
      EmptyStays(units, m, j - 1, s);
    }
  }

  lemma {:induction false} LevelInUpto(units: seq<Unit>, i: nat, n: nat, s: set<string>)
    requires 1 <= i <= n
    ensures Level(units, i, s) <= Upto(units, n, s)
  {
    if i < n {
      LevelInUpto(units, i, n - 1, s);
    }
  }

  lemma {:induction false} UptoLevel(units: seq<Unit>, n: nat, s: set<string>, u: string) returns (i: nat)
    requires u in Upto(units, n, s)
    ensures 1 <= i <= n && u in Level(units, i, s)
  {
    if u in Level(units, n, s) {
      i := n;
    } else {
      i := UptoLevel(units, n - 1, s, u);
    }
  }

  // ---------------------------------------------------------------------------
  // The loop.

  /** The `while under_enheder` loop: ask for the children of the last level
      and add them, until a level is empty. `fuel` bounds the rounds; None
      means the loop has not stopped within them. */
  function Expand(units: seq<Unit>, under: set<string>, all: set<string>, fuel: nat): (r: Option<set<string>>)
    ensures r.Some? ==> all <= r.value
    decreases fuel
  {
    if under == {} then Some(all)
    else if fuel == 0 then None
    else
      var next := Children(units, under);
      Expand(units, next, all + next, fuel - 1)
  }

  /** The loop started at level `k` stops exactly at the first empty level
      within its fuel, holding every level up to it. */
  lemma {:induction false} ExpandLevels(units: seq<Unit>, k: nat, s: set<string>, fuel: nat) returns (m: nat)
    ensures Expand(units, Level(units, k, s), Upto(units, k, s), fuel).Some? ==>
      k <= m <= k + fuel && Level(units, m, s) == {} &&
      Expand(units, Level(units, k, s), Upto(units, k, s), fuel) == Some(Upto(units, m, s))
    ensures Expand(units, Level(units, k, s), Upto(units, k, s), fuel).None? <==>
      forall i :: k <= i <= k + fuel ==> Level(units, i, s) != {}
    decreases fuel
  {
    if Level(units, k, s) == {} {
      m := k;
    } else if fuel == 0 {
      m := k;
    } else {
      assert Level(units, k + 1, s) == Children(units, Level(units, k, s));
      assert Upto(units, k + 1, s) == Upto(units, k, s) + Level(units, k + 1, s);
      m := ExpandLevels(units, k + 1, s, fuel - 1);
    }
  }

  // ---------------------------------------------------------------------------
  // The operation.

  /** The number of units whose name is `name`. */
  function CountNamed(units: seq<Unit>, name: string): nat
  {
    if |units| == 0 then 0
    else CountNamed(units[..|units| - 1], name) + (if units[|units| - 1].name == name then 1 else 0)
  }

  /** The uuid of the only unit named `name`. */
  function NamedUuid(units: seq<Unit>, name: string): (u: string)
    requires CountNamed(units, name) == 1
    ensures exists i :: 0 <= i < |units| && units[i].name == name && units[i].uuid == u
  {
    if units[|units| - 1].name == name then units[|units| - 1].uuid
    else NamedUuid(units[..|units| - 1], name)
  }

  /** `set_of_org_units`: the head unit is looked up by its exact name (`one()`
      fails on none and on several), then the loop collects the levels below
      it. Ok(None) stands for a loop that has not stopped within `fuel` rounds. */
  function SetOfOrgUnits(units: seq<Unit>, name: string, fuel: nat): (r: Result<Option<set<string>>>)
    ensures r.Err? <==> CountNamed(units, name) != 1
  {
    if CountNamed(units, name) != 1 then Err(Exception("one(): no or multiple rows for " + name))
    else
      var head := NamedUuid(units, name);
      var under := Children(units, {head});
      Ok(Expand(units, under, under, fuel))
  }

  // ---------------------------------------------------------------------------
  // Properties.

  /** The loop as started: level one, both as the frontier and as the result. */
  lemma {:induction false} StartIsLevelOne(units: seq<Unit>, head: string, fuel: nat) returns (m: nat)
    ensures Expand(units, Children(units, {head}), Children(units, {head}), fuel).Some? ==>
      1 <= m && Level(units, m, {head}) == {} &&
      Expand(units, Children(units, {head}), Children(units, {head}), fuel) == Some(Upto(units, m, {head}))
    ensures Expand(units, Children(units, {head}), Children(units, {head}), fuel).None? <==>
      forall i :: 1 <= i <= 1 + fuel ==> Level(units, i, {head}) != {}
  {
    assert Level(units, 1, {head}) == Children(units, {head});
    assert Upto(units, 1, {head}) == Children(units, {head});
    m := ExpandLevels(units, 1, {head}, fuel);
  }

  /** A returned set holds every descendant of the head and nothing else, and
      never the head itself. */
  lemma Exact(units: seq<Unit>, name: string, fuel: nat, u: string)
    requires SetOfOrgUnits(units, name, fuel).Ok? && SetOfOrgUnits(units, name, fuel).value.Some?
    ensures u in SetOfOrgUnits(units, name, fuel).value.value <==> Descendant(units, NamedUuid(units, name), u)
    ensures NamedUuid(units, name) !in SetOfOrgUnits(units, name, fuel).value.value
  {
    var head := NamedUuid(units, name);
    var m := StartIsLevelOne(units, head, fuel);
    var r := SetOfOrgUnits(units, name, fuel).value.value;
    assert r == Upto(units, m, {head});
    if u in r {
      var i := UptoLevel(units, m, {head}, u);
      var p := LevelPath(units, i, {head}, u);
    }
    if Descendant(units, head, u) {
      var p :| IsPath(units, p) && |p| >= 2 && p[0] == head && p[|p| - 1] == u;
      PathLevel(units, p, {head});
      if |p| - 1 > m {
        EmptyStays(units, m, |p| - 1 - m, {head});
      }
      LevelInUpto(units, |p| - 1, m, {head});
    }
    if head in r {
      var i := UptoLevel(units, m, {head}, head);
      var p := LevelPath(units, i, {head}, head);
      CycleNeverEmpties(units, head, p, 0, i, m);
    }
  }

  /** A path that comes back to a unit keeps every later level non-empty. */
  lemma CycleNeverEmpties(units: seq<Unit>, h: string, p: seq<string>, a: nat, b: nat, n: nat)
    requires IsPath(units, p) && p[0] == h && a < b < |p| && p[a] == p[b]
    requires n >= b
    ensures Level(units, n, {h}) != {}
  {
    var x, c, k := Pump(units, h, p, a, b, n);
  }

  /** Walking round the cycle: for every `n` past the cycle's end there is a
      unit on level `n` that starts a cycle `c`. */
  lemma {:induction false} Pump(units: seq<Unit>, h: string, p: seq<string>, a: nat, b: nat, n: nat)
    returns (x: string, c: seq<string>, k: nat)
    requires IsPath(units, p) && p[0] == h && a < b < |p| && p[a] == p[b]
    requires n >= b
    ensures x in Level(units, n, {h})
    ensures IsPath(units, c) && |c| >= 2 && c[0] == x && c[|c| - 1] == x
    decreases n
  {
    if n == b {
      x := p[b];
      c := p[a..b + 1];
      k := 0;
      var q := p[..b + 1];
      assert IsPath(units, q) by {
        forall i | 0 <= i < |q| - 1 ensures ChildOf(units, q[i + 1], q[i]) {
          assert ChildOf(units, p[i + 1], p[i]);
        }
      }
      PathLevel(units, q, {h});
      forall i | 0 <= i < |c| - 1 ensures ChildOf(units, c[i + 1], c[i]) {
        assert ChildOf(units, p[a + i + 1], p[a + i]);
      }
    } else {
      var y, d, j := Pump(units, h, p, a, b, n - 1);
      x := d[1];
      k := j + 1;
      c := d[1..] + [d[1]];
      assert ChildOf(units, d[1], d[0]);
      var w :| 0 <= w < |units| && units[w].uuid == d[1] && units[w].parent == Some(d[0]);
      assert x in Children(units, Level(units, n - 1, {h}));
      forall i | 0 <= i < |c| - 1 ensures ChildOf(units, c[i + 1], c[i]) {
        if i < |d| - 2 {
          assert ChildOf(units, d[i + 2], d[i + 1]);
        } else {
          assert c[i] == d[|d| - 1] == d[0];
        }
      }
    }
  }

  /** A cycle below the head keeps the loop running for ever: no fuel is
      enough. */
  lemma Diverges(units: seq<Unit>, name: string, fuel: nat)
    requires CountNamed(units, name) == 1
    requires ReachableCycle(units, NamedUuid(units, name))
    ensures SetOfOrgUnits(units, name, fuel) == Ok(None)
  {
    var head := NamedUuid(units, name);
    var p :| IsPath(units, p) && p[0] == head && !Distinct(p);
    var a, b :| 0 <= a < b < |p| && p[a] == p[b];
    var m := StartIsLevelOne(units, head, fuel);
    forall i | 1 <= i <= 1 + fuel ensures Level(units, i, {head}) != {} {
      if i >= b {
        CycleNeverEmpties(units, head, p, a, b, i);
      } else {
        var q := p[..i + 1];
        assert IsPath(units, q) by {
          forall t | 0 <= t < |q| - 1 ensures ChildOf(units, q[t + 1], q[t]) {
            assert ChildOf(units, p[t + 1], p[t]);
          }
        }
        PathLevel(units, q, {head});
      }
    }
  }

  /** Without a cycle below the head the loop stops within as many rounds as
      there are units: a longer path would repeat a unit. */
  lemma Terminates(units: seq<Unit>, name: string, fuel: nat)
    requires CountNamed(units, name) == 1
    requires !ReachableCycle(units, NamedUuid(units, name))
    requires fuel >= |units|
    ensures SetOfOrgUnits(units, name, fuel).Ok? && SetOfOrgUnits(units, name, fuel).value.Some?
  {
    var head := NamedUuid(units, name);
    var n := |units| + 1;
    var m := StartIsLevelOne(units, head, fuel);
    assert Expand(units, Children(units, {head}), Children(units, {head}), fuel).None? <==>
      forall i :: 1 <= i <= 1 + fuel ==> Level(units, i, {head}) != {};
    if Level(units, n, {head}) != {} {
      var u :| u in Level(units, n, {head});
      var p := LevelPath(units, n, {head}, u);
      var uuids := set i | 0 <= i < |units| :: units[i].uuid;
      var tail := p[1..];
      forall t | 0 <= t < |tail| ensures tail[t] in uuids {
        assert ChildOf(units, p[t + 1], p[t]);
      }
      CardUuids(units);
      var a, b := Pigeonhole(tail, uuids);
      assert false;
    }
    assert 1 <= n <= 1 + fuel && Level(units, n, {head}) == {};
    assert !Expand(units, Children(units, {head}), Children(units, {head}), fuel).None?;
    assert SetOfOrgUnits(units, name, fuel) == Ok(Expand(units, Children(units, {head}), Children(units, {head}), fuel));
  }

  lemma {:induction false} CardUuids(units: seq<Unit>)
    ensures |set i | 0 <= i < |units| :: units[i].uuid| <= |units|
  {
    if |units| > 0 {
      var front := units[..|units| - 1];
      CardUuids(front);
      var all := set i | 0 <= i < |units| :: units[i].uuid;
      var fs := set i | 0 <= i < |front| :: front[i].uuid;
      assert all == fs + {units[|units| - 1].uuid} by {
        forall x | x in all ensures x in fs + {units[|units| - 1].uuid} {
          var i :| 0 <= i < |units| && units[i].uuid == x;
          if i < |front| {
            assert front[i].uuid == x;
          }
        }
        forall x | x in fs ensures x in all {
          var i :| 0 <= i < |front| && front[i].uuid == x;
          assert units[i].uuid == x;
        }
      }
    }
  }

  /** A sequence longer than the set its elements come from repeats one. */
  lemma {:induction false} Pigeonhole(s: seq<string>, within: set<string>) returns (a: nat, b: nat)
    requires forall t :: 0 <= t < |s| ==> s[t] in within
    requires |s| > |within|
    ensures a < b < |s| && s[a] == s[b]
  {
    var last := s[|s| - 1];
    var front := s[..|s| - 1];
    if t :| 0 <= t < |front| && front[t] == last {
      a, b := t, |s| - 1;
    } else {
      forall t | 0 <= t < |front| ensures front[t] in within - {last} {
        assert front[t] == s[t];
      }
      a, b := Pigeonhole(front, within - {last});
    }
  }

  /** A one-unit chain below "Top": the result is just the child. */
  lemma ChainExample(units: seq<Unit>)
    requires units == [Unit("u1", "Top", None), Unit("u2", "Mid", Some("u1"))]
    ensures SetOfOrgUnits(units, "Top", 2) == Ok(Some({"u2"}))
  {
    assert CountNamed(units[..1], "Top") == 1;
    assert units[..1][..0] == [];
    assert CountNamed(units, "Top") == 1;
    assert NamedUuid(units, "Top") == "u1";
    var c1 := Children(units, {"u1"});
    assert c1 == {"u2"} by {
      assert units[1].uuid == "u2";
      forall x | x in c1 ensures x == "u2" {
        var i :| 0 <= i < |units| && units[i].uuid == x && units[i].parent.Some? && units[i].parent.value in {"u1"};
      }
    }
    var c2 := Children(units, c1);
    assert c2 == {} by {
      assert "u1" !in c1;
      assert forall i :: 0 <= i < |units| ==> !(units[i].parent.Some? && units[i].parent.value in c1);
    }
    assert c1 + c2 == c1;
    assert Expand(units, c2, c1 + c2, 1) == Some(c1);
    assert Expand(units, c1, c1, 2) == Some(c1);
  }
}

=== FILE: sd_changed_at.dfy ===
/** The SD change-sync engine (`ChangeAtSD`): turns one person's changed SD
    employments into a log of directory writes.

    Directory reads are inputs (`Env.readOu`, the engagement and association
    lists in `State`), the directory's answers to writes are inputs
    (`Env.respond`, `Env.mint`), and every write is appended to `State.log`.
    A fault ends the person's processing with the exception the code raises. */
module SdChangedAt {
  import opened Common
  import opened Text
  import opened SdRecords
  import Dates

  /** Org-unit types too fine-grained to hold an engagement. */
  const TooDeep: seq<string> := ["Afdelings-niveau", "NY1-niveau", "NY2-niveau"]

  /** The status codes the engine knows. */
  const KnownCodes: seq<string> := ["0", "1", "3", "8", "9", "S"]

  /** The answer text that marks a rejected edit as harmless. */
  const NoEffect: string := "not give raise to a new registration"

  /** The profession name `edit_engagement` registers, as written. */
  const LiteralEmpName: string := "emp_name"

  /** A unit as `read_ou` returns it: its type and its whole ancestor chain. */
  datatype OrgUnitInfo = OrgUnitInfo(uuid: string, typeName: string, parent: Option<OrgUnitInfo>)

  datatype Association = Association(orgUnit: string, validity: Validity)

  datatype Response = Response(status: int, text: string)

  /** The one attribute an engagement edit changes. */
  datatype Change = NewOrgUnit(unit: string) | NewJobFunction(jobFunction: Option<string>) | NewFraction(fraction: int)

  datatype Write =
    | AddJobFunction(name: string)
    | CreateEngagement(orgUnit: string, person: string, jobFunction: Option<string>,
                       engagementType: string, userKey: string, fraction: int, validity: Validity)
    | EditEngagement(engagement: Option<string>, change: Change, validity: Validity)
    | TerminateEngagement(terminated: string, to: string)
    | CreateLeave(engagement: Option<string>, jobId: string, validity: Validity)
    | CreateAssociation(orgUnit: string, person: string, jobId: string, validity: Validity)

  /** A uuid the directory hands out: never empty, so never falsy. */
  type Uuid = s: string | s != "" witness "0"

  /** What the engine reads from the directory besides the state it threads. */
  datatype Env = Env(
    person: string,                    // uuid of the person being processed
    nonPrimary: string,                // uuid of the non-primary engagement type
    readOu: string -> OrgUnitInfo,     // `read_ou`
    respond: (nat, Write) -> Response, // the answer to the n-th write of the log
    mint: nat -> Uuid)                 // the uuid the n-th write creates

  /** Per-person working state: the current engagements and associations as the
      directory would now return them, the job-function cache, and the log. */
  datatype State = State(
    engagements: seq<MoEngagement>,
    associations: seq<Association>,
    jobFunctions: map<string, string>,
    log: seq<Write>)

  /** The cache holds a usable uuid for the name: `if not job_uuid` treats a
      missing name and an empty uuid alike. */
  predicate Registered(cache: map<string, string>, name: string)
  {
    name in cache && cache[name] != ""
  }

  // ---------------------------------------------------------------------------
  // Responses.

  /** `_assert`: 200 and 404 pass; 400 passes only when its text holds the
      no-effect phrase at a position after the first character. */
  function CheckResponse(r: Response): (res: Result<()>)
  {
    if r.status !in {200, 400, 404} then Err(AssertionError("unexpected status"))
    else if r.status == 400 && !(Find(r.text, NoEffect, 0) > 0) then Err(AssertionError("400 without no-effect text"))
    else Ok(())
  }

  /** A 400 passes exactly when the phrase occurs somewhere but not at the very
      start of the text. */
  lemma CheckResponseBadRequest(text: string)
    ensures CheckResponse(Response(400, text)).Ok?
            <==> !OccursAt(text, NoEffect, 0) && exists j :: 0 < j && OccursAt(text, NoEffect, j)
  {
    var f := Find(text, NoEffect, 0);
    if f > 0 {
      assert OccursAt(text, NoEffect, f);
    }
  }

  lemma CheckResponseStatus(r: Response)
    ensures r.status == 200 || r.status == 404 ==> CheckResponse(r).Ok?
    ensures r.status !in {200, 400, 404} ==> CheckResponse(r).Err?
  {
  }

  /** A write whose answer goes through `_assert`. */
  function PostChecked(env: Env, st: State, w: Write): (r: Result<State>)
    ensures r.Ok? <==> CheckResponse(env.respond(|st.log|, w)).Ok?
    ensures r.Ok? ==> r.value == st.(log := st.log + [w])
  {
    var _ :- CheckResponse(env.respond(|st.log|, w));
    Ok(st.(log := st.log + [w]))
  }

  /** A write that must answer 201 Created. */
  function PostCreated(env: Env, st: State, w: Write): (r: Result<State>)
    ensures r.Ok? <==> env.respond(|st.log|, w).status == 201
    ensures r.Ok? ==> r.value == st.(log := st.log + [w])
  {
    if env.respond(|st.log|, w).status == 201 then Ok(st.(log := st.log + [w]))
    else Err(AssertionError("expected 201"))
  }

  // ---------------------------------------------------------------------------
  // Job functions (`_update_professions`).

  /** Registers a profession the cache has no usable uuid for: a name that is
      missing, or cached with an empty uuid, is posted and cached anew. */
  function UpdateProfessions(env: Env, st: State, name: string): (r: Result<State>)
    ensures r.Ok? ==> name in r.value.jobFunctions
    ensures r.Ok? ==> r.value.engagements == st.engagements && r.value.associations == st.associations
    ensures Registered(st.jobFunctions, name) ==> r == Ok(st)
    ensures !Registered(st.jobFunctions, name) ==>
              (r.Ok? <==> env.respond(|st.log|, AddJobFunction(name)).status == 201)
    ensures r.Ok? && !Registered(st.jobFunctions, name) ==>
              r.value.log == st.log + [AddJobFunction(name)]
              && r.value.jobFunctions == st.jobFunctions[name := env.mint(|st.log|)]
  {
    if Registered(st.jobFunctions, name) then Ok(st)
    else
      var st1 :- PostCreated(env, st, AddJobFunction(name));
      Ok(st1.(jobFunctions := st1.jobFunctions[name := env.mint(|st.log|)]))
  }

  // ---------------------------------------------------------------------------
  // Editing (`edit_engagement`).

  function DepartmentEdits(target: Option<string>, deps: seq<SdDepartment>): (ws: seq<Write>)
    ensures |ws| == |deps|
  {
    if |deps| == 0 then [] else
      [EditEngagement(target, NewOrgUnit(deps[0].unit), ToValidity(deps[0].span))]
      + DepartmentEdits(target, deps[1..])
  }

  function ProfessionEdits(target: Option<string>, profs: seq<SdProfession>, cache: map<string, string>): (ws: seq<Write>)
    ensures |ws| == |profs|
  {
    if |profs| == 0 then [] else
      [EditEngagement(target, NewJobFunction(Get(cache, profs[0].name)), ToValidity(profs[0].span))]
      + ProfessionEdits(target, profs[1..], cache)
  }

  function WorkingTimeEdits(target: Option<string>, wts: seq<SdWorkingTime>): (ws: seq<Write>)
    ensures |ws| == |wts|
  {
    if |wts| == 0 then [] else
      [EditEngagement(target, NewFraction(wts[0].fraction), ToValidity(wts[0].span))]
      + WorkingTimeEdits(target, wts[1..])
  }

  /** One edit per department, in order. */
  function EditDepartments(env: Env, st: State, target: Option<string>, deps: seq<SdDepartment>): (r: Result<State>)
    ensures r.Ok? ==> r.value == st.(log := st.log + DepartmentEdits(target, deps))
    decreases |deps|
  {
    if |deps| == 0 then Ok(st)
    else
      var w := EditEngagement(target, NewOrgUnit(deps[0].unit), ToValidity(deps[0].span));
      var st1 :- PostChecked(env, st, w);
      var r := EditDepartments(env, st1, target, deps[1..]);
      assert DepartmentEdits(target, deps) == [w] + DepartmentEdits(target, deps[1..]);
      assert st.log + [w] + DepartmentEdits(target, deps[1..]) == st.log + DepartmentEdits(target, deps);
      r
  }

  /** The cache after the first profession edit has registered the literal name. */
  function EmpNameCache(env: Env, st: State): map<string, string>
  {
    if Registered(st.jobFunctions, LiteralEmpName) then st.jobFunctions
    else st.jobFunctions[LiteralEmpName := env.mint(|st.log|)]
  }

  function EmpNameWrites(st: State): seq<Write>
  {
    if Registered(st.jobFunctions, LiteralEmpName) then [] else [AddJobFunction(LiteralEmpName)]
  }

  /** One edit per profession, in order. As written, every round registers the
      literal name "emp_name" and then looks the real name up in the cache. */
  function EditProfessions(env: Env, st: State, target: Option<string>, profs: seq<SdProfession>): (r: Result<State>)
    ensures r.Ok? && |profs| == 0 ==> r.value == st
    ensures r.Ok? && |profs| > 0 ==>
              r.value == st.(log := st.log + EmpNameWrites(st) + ProfessionEdits(target, profs, EmpNameCache(env, st)),
                             jobFunctions := EmpNameCache(env, st))
    decreases |profs|
  {
    if |profs| == 0 then Ok(st)
    else
      var st1 :- UpdateProfessions(env, st, LiteralEmpName);
      var jobFunction := Get(st1.jobFunctions, profs[0].name);
      var st2 :- PostChecked(env, st1, EditEngagement(target, NewJobFunction(jobFunction), ToValidity(profs[0].span)));
      EditProfessions(env, st2, target, profs[1..])
  }

  /** One edit per working-time entry, in order. */
  function EditWorkingTimes(env: Env, st: State, target: Option<string>, wts: seq<SdWorkingTime>): (r: Result<State>)
    ensures r.Ok? ==> r.value == st.(log := st.log + WorkingTimeEdits(target, wts))
    decreases |wts|
  {
    if |wts| == 0 then Ok(st)
    else
      var w := EditEngagement(target, NewFraction(wts[0].fraction), ToValidity(wts[0].span));
      var st1 :- PostChecked(env, st, w);
      var r := EditWorkingTimes(env, st1, target, wts[1..]);
      assert WorkingTimeEdits(target, wts) == [w] + WorkingTimeEdits(target, wts[1..]);
      assert st.log + [w] + WorkingTimeEdits(target, wts[1..]) == st.log + WorkingTimeEdits(target, wts);
      r
  }

  /** The uuid of the engagement an edit addresses (None when not found). */
  function EditTarget(st: State, jobId: string): Option<string>
  {
    match FindEngagement(st.engagements, jobId)
    case None => None
    case Some(e) => Some(e.uuid)
  }

  /** The writes `edit_engagement` issues: departments, then professions
      (preceded by the literal-name registration when needed), then working time. */
  function EditWrites(env: Env, st: State, emp: SdEmployment): seq<Write>
  {
    var c := EngagementComponents(emp);
    var target := EditTarget(st, emp.jobId);
    var st1 := st.(log := st.log + DepartmentEdits(target, c.departments));
    DepartmentEdits(target, c.departments)
    + (if |c.professions| > 0 then EmpNameWrites(st) + ProfessionEdits(target, c.professions, EmpNameCache(env, st1)) else [])
    + WorkingTimeEdits(target, c.workingTime)
  }

  lemma AppendFour<T>(a: seq<T>, b: seq<T>, c: seq<T>, d: seq<T>)
    ensures a + b + c + d == a + (b + c + d)
  {
  }

  function EditEngagementOp(env: Env, st: State, emp: SdEmployment): (r: Result<State>)
    ensures r.Ok? ==> r.value.log == st.log + EditWrites(env, st, emp)
    ensures r.Ok? ==> r.value.engagements == st.engagements && r.value.associations == st.associations
    ensures r.Ok? ==> st.jobFunctions.Keys <= r.value.jobFunctions.Keys
  {
    var c := EngagementComponents(emp);
    var target := EditTarget(st, emp.jobId);
    var st1 :- EditDepartments(env, st, target, c.departments);
    assert st1.jobFunctions == st.jobFunctions;
    assert EmpNameWrites(st1) == EmpNameWrites(st);
    var st2 :- EditProfessions(env, st1, target, c.professions);
    var d := DepartmentEdits(target, c.departments);
    var p := if |c.professions| > 0 then EmpNameWrites(st) + ProfessionEdits(target, c.professions, EmpNameCache(env, st1)) else [];
    var w := WorkingTimeEdits(target, c.workingTime);
    assert EditWrites(env, st, emp) == d + p + w;
    assert st2.log == st.log + d + p;
    AppendFour(st.log, d, p, w);
    EditWorkingTimes(env, st2, target, c.workingTime)
  }

  // ---------------------------------------------------------------------------
  // Associations and unit placement.

  predicate HasAssociation(assocs: seq<Association>, unit: string, v: Validity)
  {
    exists i :: 0 <= i < |assocs| && assocs[i].validity == v && assocs[i].orgUnit == unit
  }

  /** `create_association`: skipped when the person already has one to the same
      unit with the same validity. */
  function CreateAssociationOp(env: Env, st: State, unit: string, jobId: string, v: Validity): (r: Result<State>)
    ensures HasAssociation(st.associations, unit, v) ==> r == Ok(st)
    ensures r.Ok? && !HasAssociation(st.associations, unit, v) ==>
              r.value == st.(log := st.log + [CreateAssociation(unit, env.person, jobId, v)],
                             associations := st.associations + [Association(unit, v)])
    ensures r.Ok? ==> HasAssociation(r.value.associations, unit, v)
  {
    if HasAssociation(st.associations, unit, v) then Ok(st)
    else
      var st1 :- PostCreated(env, st, CreateAssociation(unit, env.person, jobId, v));
      var assocs := st1.associations + [Association(unit, v)];
      assert assocs[|assocs| - 1] == Association(unit, v);
      Ok(st1.(associations := assocs))
  }

  /** Creating the same association twice writes it once. */
  lemma AssociationIdempotent(env: Env, st: State, unit: string, jobId: string, v: Validity)
    requires CreateAssociationOp(env, st, unit, jobId, v).Ok?
    ensures CreateAssociationOp(env, CreateAssociationOp(env, st, unit, jobId, v).value, unit, jobId, v)
            == CreateAssociationOp(env, st, unit, jobId, v)
  {
  }

  /** The unit and its ancestors, nearest first. */
  function Chain(ou: OrgUnitInfo): (c: seq<OrgUnitInfo>)
    ensures |c| > 0 && c[0] == ou
  {
    match ou.parent
    case None => [ou]
    case Some(p) => [ou] + Chain(p)
  }

  /** The `while type in too_deep: ou = ou['parent']` climb; a chain that ends
      while still too deep fails as indexing None does. */
  function Climb(ou: OrgUnitInfo): (r: Result<OrgUnitInfo>)
    ensures r.Ok? ==> r.value.typeName !in TooDeep
    ensures r.Ok? ==> exists k :: 0 <= k < |Chain(ou)| && Chain(ou)[k] == r.value
                                  && forall j :: 0 <= j < k ==> Chain(ou)[j].typeName in TooDeep
    ensures r.Err? <==> forall j :: 0 <= j < |Chain(ou)| ==> Chain(ou)[j].typeName in TooDeep
  {
    if ou.typeName !in TooDeep then
      assert Chain(ou)[0] == ou;
      Ok(ou)
    else
      match ou.parent
      case None => Err(TypeError("'NoneType' object is not subscriptable"))
      case Some(p) =>
        var r := Climb(p);
        assert Chain(ou) == [ou] + Chain(p);
        if r.Ok? then
          var k :| 0 <= k < |Chain(p)| && Chain(p)[k] == r.value
                   && forall j :: 0 <= j < k ==> Chain(p)[j].typeName in TooDeep;
          assert Chain(ou)[k + 1] == r.value;
          r
        else r
  }

  // ---------------------------------------------------------------------------
  // Creation (`create_new_engagement`).

  /** The association a create issues: only for a too-deep unit the person is
      not yet associated with for the same validity. */
  function AssociationWrites(env: Env, st: State, ou: OrgUnitInfo, unit: string, jobId: string, v: Validity): seq<Write>
  {
    if ou.typeName in TooDeep && !HasAssociation(st.associations, unit, v) then [CreateAssociation(unit, env.person, jobId, v)] else []
  }

  function AssociateIfTooDeep(env: Env, st: State, ou: OrgUnitInfo, unit: string, jobId: string, v: Validity): (r: Result<State>)
    ensures r.Ok? ==> r.value.log == st.log + AssociationWrites(env, st, ou, unit, jobId, v)
    ensures r.Ok? ==> r.value.engagements == st.engagements && r.value.jobFunctions == st.jobFunctions
    ensures ou.typeName !in TooDeep ==> r == Ok(st)
  {
    if ou.typeName in TooDeep then CreateAssociationOp(env, st, unit, jobId, v) else Ok(st)
  }

  /** The job-function registration a profession name needs. */
  function JobFunctionWrites(st: State, name: string): seq<Write>
  {
    if Registered(st.jobFunctions, name) then [] else [AddJobFunction(name)]
  }

  /** The job function a profession name has once it is registered. */
  function JobFunctionAfter(env: Env, st: State, name: string): string
  {
    if Registered(st.jobFunctions, name) then st.jobFunctions[name] else env.mint(|st.log|)
  }

  /** Registers the profession, posts the engagement and returns the state in
      which the re-read engagement list holds the new engagement under the raw
      job id. */
  function PostEngagement(env: Env, st: State, unitUuid: string, jobId: string, name: string, fraction: int, v: Validity): (r: Result<State>)
    ensures r.Ok? ==>
              r.value.log == st.log + JobFunctionWrites(st, name)
                             + [CreateEngagement(unitUuid, env.person, Some(JobFunctionAfter(env, st, name)), env.nonPrimary, jobId, fraction, v)]
    ensures r.Ok? ==> r.value.engagements == st.engagements + [MoEngagement(env.mint(|r.value.log| - 1), jobId, fraction, v)]
    ensures r.Ok? ==> r.value.associations == st.associations
  {
    var st2 :- UpdateProfessions(env, st, name);
    var w := CreateEngagement(unitUuid, env.person, Get(st2.jobFunctions, name), env.nonPrimary, jobId, fraction, v);
    var st3 :- PostCreated(env, st2, w);
    Ok(st3.(engagements := st3.engagements + [MoEngagement(env.mint(|st2.log|), jobId, fraction, v)]))
  }

  /** Whether a create is followed by a full edit: some part has a history. */
  predicate NeedsFollowUpEdit(c: Components)
  {
    |c.departments| > 1 || |c.professions| > 1 || |c.workingTime| > 1
  }

  /** The engagement write of a create. */
  function EngagementWrite(env: Env, st: State, unitUuid: string, emp: SdEmployment, v: Validity): Write
    requires |EngagementComponents(emp).professions| > 0 && |EngagementComponents(emp).workingTime| > 0
  {
    var c := EngagementComponents(emp);
    CreateEngagement(unitUuid, env.person, Some(JobFunctionAfter(env, st, c.professions[0].name)), env.nonPrimary,
                     emp.jobId, c.workingTime[0].fraction, v)
  }

  /** The part of a create after the unit is placed: the first profession and
      the first working time, then the follow-up edit when one is needed. */
  function CreateOnUnit(env: Env, st: State, unitUuid: string, emp: SdEmployment, v: Validity): (r: Result<State>)
    ensures var c := EngagementComponents(emp);
            |c.professions| == 0 || |c.workingTime| == 0 ==> r.Err? && r.error.IndexError?
    ensures var c := EngagementComponents(emp);
            r.Ok? ==>
              && |c.professions| > 0 && |c.workingTime| > 0
              && var p := PostEngagement(env, st, unitUuid, emp.jobId, c.professions[0].name, c.workingTime[0].fraction, v);
                 && p.Ok?
                 && r.value.log == st.log + JobFunctionWrites(st, c.professions[0].name)
                                   + [EngagementWrite(env, st, unitUuid, emp, v)]
                                   + (if NeedsFollowUpEdit(c) then EditWrites(env, p.value, emp) else [])
  {
    var c := EngagementComponents(emp);
    if |c.professions| == 0 || |c.workingTime| == 0 then Err(IndexError("list index out of range"))
    else
      var st2 :- PostEngagement(env, st, unitUuid, emp.jobId, c.professions[0].name, c.workingTime[0].fraction, v);
      if NeedsFollowUpEdit(c) then EditEngagementOp(env, st2, emp) else Ok(st2)
  }

  function CreateNewEngagement(env: Env, st: State, emp: SdEmployment, status: SdStatus): (r: Result<State>)
    ensures |EngagementComponents(emp).departments| == 0 ==> r.Err? && r.error.IndexError?
    ensures var c := EngagementComponents(emp);
            var v := ToValidity(status.span);
            r.Ok? ==>
              && |c.departments| > 0
              && var unit := c.departments[0].unit;
                 var ou := env.readOu(unit);
                 && AssociateIfTooDeep(env, st, ou, unit, emp.jobId, v).Ok?
                 && Climb(ou).Ok?
                 && r == CreateOnUnit(env, AssociateIfTooDeep(env, st, ou, unit, emp.jobId, v).value, Climb(ou).value.uuid, emp, v)
  {
    var c := EngagementComponents(emp);
    var v := ToValidity(status.span);
    if |c.departments| == 0 then Err(IndexError("list index out of range"))
    else
      var ou := env.readOu(c.departments[0].unit);
      var st1 :- AssociateIfTooDeep(env, st, ou, c.departments[0].unit, emp.jobId, v);
      var placed :- Climb(ou);
      CreateOnUnit(env, st1, placed.uuid, emp, v)
  }

  // ---------------------------------------------------------------------------
  // Termination, leave and the S/9 consistency check.

  /** `_terminate_engagement`: None when no engagement matches (nothing is
      written), otherwise the state after one terminate write. */
  function TerminateEngagementOp(env: Env, st: State, from: string, jobId: string): (r: Result<Option<State>>)
    ensures FindEngagement(st.engagements, jobId).None? ==> r == Ok(None)
    ensures r.Ok? && FindEngagement(st.engagements, jobId).Some? ==>
              r.value == Some(st.(log := st.log + [TerminateEngagement(FindEngagement(st.engagements, jobId).value.uuid, from)]))
  {
    match FindEngagement(st.engagements, jobId)
    case None => Ok(None)
    case Some(e) =>
      var st1 :- PostChecked(env, st, TerminateEngagement(e.uuid, from));
      Ok(Some(st1))
  }

  /** `create_leave`: always one leave write, addressed to the matched
      engagement if any. */
  function CreateLeaveOp(env: Env, st: State, status: SdStatus, jobId: string): (r: Result<State>)
    ensures r.Ok? ==> r.value == st.(log := st.log + [CreateLeave(EditTarget(st, jobId), jobId, ToValidity(status.span))])
  {
    PostCreated(env, st, CreateLeave(EditTarget(st, jobId), jobId, ToValidity(status.span)))
  }

  /** An engagement ends the day before `activation`. */
  predicate EndsDayBefore(e: MoEngagement, activation: string)
  {
    e.validity.to.Some? && Dates.CompareDates(e.validity.to.value, activation, 1) == Ok(true)
  }

  /** The S/9 loop: every engagement stored under the RAW job id must end the
      day before the status' activation date. Returns the new skip flag. */
  function ConsistencyCheck(engs: seq<MoEngagement>, jobId: string, activation: string, skip: bool): (r: Result<bool>)
    ensures r.Ok? <==> forall i :: 0 <= i < |engs| && engs[i].userKey == jobId ==> EndsDayBefore(engs[i], activation)
    ensures r.Ok? ==> r.value == (skip || exists i :: 0 <= i < |engs| && engs[i].userKey == jobId)
    decreases |engs|
  {
    if |engs| == 0 then Ok(skip)
    else
      var e := engs[0];
      var r := if e.userKey != jobId then ConsistencyCheck(engs[1..], jobId, activation, skip)
        else match e.validity.to
          case None => Err(TypeError("strptime() argument 1 must be str, not None"))
          case Some(t) =>
            match Dates.CompareDates(t, activation, 1)
            case Err(err) => Err(err)
            case Ok(false) => Err(AssertionError("inconsistent S/9 status"))
            case Ok(true) => ConsistencyCheck(engs[1..], jobId, activation, true);
      assert forall i :: 1 <= i < |engs| ==> engs[i] == engs[1..][i - 1];
      assert r.Ok? && e.userKey == jobId ==> r.value == true;
      r
  }

  // ---------------------------------------------------------------------------
  // Status dispatch (`_update_user_employments`).

  predicate IsActivation(code: string) { code == "0" || code == "1" }

  /** One status of one employment; returns the new state and skip flag. */
  function ProcessStatus(env: Env, st: State, emp: SdEmployment, status: SdStatus, skip: bool): (r: Result<(State, bool)>)
    ensures status.code !in KnownCodes ==> r.Err? && r.error.ZeroDivisionError?
    ensures r.Ok? ==> |st.log| <= |r.value.0.log| && r.value.0.log[..|st.log|] == st.log
  {
    if status.code !in KnownCodes then Err(ZeroDivisionError("division by zero"))
    else if IsActivation(status.code) then
      var st1 :- if FindEngagement(st.engagements, emp.jobId).Some? then EditEngagementOp(env, st, emp)
                 else CreateNewEngagement(env, st, emp, status);
      Ok((st1, true))
    else if status.code == "3" then
      var st1 :- CreateLeaveOp(env, st, status, emp.jobId);
      Ok((st1, skip))
    else if status.code == "8" then
      var t :- TerminateEngagementOp(env, st, status.span.activation, emp.jobId);
      match t
      case None => Ok((st, true))
      case Some(st1) => Ok((st1, skip))
    else
      var skip1 :- ConsistencyCheck(st.engagements, emp.jobId, status.span.activation, skip);
      Ok((st, skip1))
  }

  function ProcessStatuses(env: Env, st: State, emp: SdEmployment, statuses: seq<SdStatus>, skip: bool): (r: Result<(State, bool)>)
    ensures r.Ok? ==> |st.log| <= |r.value.0.log| && r.value.0.log[..|st.log|] == st.log
    ensures r.Ok? && skip ==> r.value.1
    decreases |statuses|
  {
    if |statuses| == 0 then Ok((st, skip))
    else
      var p :- ProcessStatus(env, st, emp, statuses[0], skip);
      ProcessStatuses(env, p.0, emp, statuses[1..], p.1)
  }

  /** One employment: its statuses in source order, then a trailing edit unless
      a status set the skip flag. */
  function UpdateEmployment(env: Env, st: State, emp: SdEmployment): (r: Result<State>)
    ensures r.Ok? ==> |st.log| <= |r.value.log| && r.value.log[..|st.log|] == st.log
  {
    var p :- ProcessStatuses(env, st, emp, EngagementComponents(emp).statuses, false);
    if p.1 then Ok(p.0)
    else
      var st1 :- EditEngagementOp(env, p.0, emp);
      PrefixTrans(st.log, p.0.log, st1.log);
      Ok(st1)
  }

  function UpdateUserEmployments(env: Env, st: State, emps: seq<SdEmployment>): (r: Result<State>)
    ensures r.Ok? ==> |st.log| <= |r.value.log| && r.value.log[..|st.log|] == st.log
    decreases |emps|
  {
    if |emps| == 0 then Ok(st)
    else
      var st1 :- UpdateEmployment(env, st, emps[0]);
      var st2 :- UpdateUserEmployments(env, st1, emps[1..]);
      PrefixTrans(st.log, st1.log, st2.log);
      Ok(st2)
  }

  /** The check `update_all_employments` makes for a person the directory does
      not know: every employment must carry a single status S or 8. */
  function AbsentPersonCheck(emps: seq<SdEmployment>): (r: Result<()>)
    ensures r.Ok? <==> forall i :: 0 <= i < |emps| ==> emps[i].status.One? && emps[i].status.item.code in {"S", "8"}
    decreases |emps|
  {
    if |emps| == 0 then Ok(())
    else
      var r := match emps[0].status
        case Absent => Err(KeyError("EmploymentStatus"))
        case Many(_) => Err(TypeError("list indices must be integers"))
        case One(s) => if s.code in {"S", "8"} then AbsentPersonCheck(emps[1..]) else Err(AssertionError("status not S or 8"));
      assert forall i :: 1 <= i < |emps| ==> emps[i] == emps[1..][i - 1];
      r
  }

  /** One person of `update_all_employments`: an unknown person only gets the
      check and no writes; a known one gets every employment processed. */
  function UpdatePerson(env: Env, person: Option<string>, st: State, emps: seq<SdEmployment>): (r: Result<State>)
    ensures person.None? ==> (r.Ok? <==> AbsentPersonCheck(emps).Ok?)
    ensures person.None? && r.Ok? ==> r.value == st
  {
    match person
    case None =>
      var _ :- AbsentPersonCheck(emps);
      Ok(st)
    case Some(p) => UpdateUserEmployments(env.(person := p), st, emps)
  }
}

=== FILE: sd_changed_at_lemmas.dfy ===
/** Properties of the SD change-sync engine: what each status code writes, the
    shape of a create, and the order of an edit's writes. */
module SdChangedAtLemmas {
  import opened Common
  import opened SdRecords
  import opened SdChangedAt
  import Dates

  // ---------------------------------------------------------------------------
  // Counting writes by kind.

  datatype Kind = JobFunctionKind | CreateKind | EditKind | TerminateKind | LeaveKind | AssociationKind

  function KindOf(w: Write): Kind
  {
    match w
    case AddJobFunction(_) => JobFunctionKind
    case CreateEngagement(_, _, _, _, _, _, _) => CreateKind
    case EditEngagement(_, _, _) => EditKind
    case TerminateEngagement(_, _) => TerminateKind
    case CreateLeave(_, _, _) => LeaveKind
    case CreateAssociation(_, _, _, _) => AssociationKind
  }

  /** How many writes of kind `k` the log holds. */
  function Count(ws: seq<Write>, k: Kind): (n: nat)
    ensures n <= |ws|
  {
    if |ws| == 0 then 0 else Count(ws[..|ws| - 1], k) + (if KindOf(ws[|ws| - 1]) == k then 1 else 0)
  }

  lemma {:induction false} CountConcat(a: seq<Write>, b: seq<Write>, k: Kind)
    ensures Count(a + b, k) == Count(a, k) + Count(b, k)
    decreases |b|
  {
    if |b| == 0 {
      assert a + b == a;
    } else {
      assert (a + b)[..|a + b| - 1] == a + b[..|b| - 1];
      CountConcat(a, b[..|b| - 1], k);
    }
  }

  /** A log of a single kind counts its length for that kind and nothing else. */
  lemma {:induction false} CountUniform(ws: seq<Write>, k: Kind, other: Kind)
    requires forall i :: 0 <= i < |ws| ==> KindOf(ws[i]) == k
    ensures Count(ws, k) == |ws|
    ensures other != k ==> Count(ws, other) == 0
    decreases |ws|
  {
    if |ws| > 0 {
      CountUniform(ws[..|ws| - 1], k, other);
    }
  }

  /** A kind counted zero times does not occur. */
  lemma {:induction false} CountZero(ws: seq<Write>, k: Kind)
    requires Count(ws, k) == 0
    ensures forall i :: 0 <= i < |ws| ==> KindOf(ws[i]) != k
    decreases |ws|
  {
    if |ws| > 0 {
      CountZero(ws[..|ws| - 1], k);
      assert forall i :: 0 <= i < |ws| - 1 ==> ws[i] == ws[..|ws| - 1][i];
    }
  }

  // ---------------------------------------------------------------------------
  // The edit lists.

  lemma {:induction false} DepartmentEditsAt(t: Option<string>, deps: seq<SdDepartment>, i: nat)
    requires i < |deps|
    ensures DepartmentEdits(t, deps)[i] == EditEngagement(t, NewOrgUnit(deps[i].unit), ToValidity(deps[i].span))
    decreases i
  {
    if i > 0 {
      DepartmentEditsAt(t, deps[1..], i - 1);
    }
  }

  lemma {:induction false} ProfessionEditsAt(t: Option<string>, profs: seq<SdProfession>, cache: map<string, string>, i: nat)
    requires i < |profs|
    ensures ProfessionEdits(t, profs, cache)[i]
            == EditEngagement(t, NewJobFunction(Get(cache, profs[i].name)), ToValidity(profs[i].span))
    decreases i
  {
    if i > 0 {
      ProfessionEditsAt(t, profs[1..], cache, i - 1);
    }
  }

  lemma {:induction false} WorkingTimeEditsAt(t: Option<string>, wts: seq<SdWorkingTime>, i: nat)
    requires i < |wts|
    ensures WorkingTimeEdits(t, wts)[i] == EditEngagement(t, NewFraction(wts[i].fraction), ToValidity(wts[i].span))
    decreases i
  {
    if i > 0 {
      WorkingTimeEditsAt(t, wts[1..], i - 1);
    }
  }

  /** The phase of an edit write: unit, then profession, then working time. */
  function Phase(w: Write): nat
  {
    match w
    case EditEngagement(_, NewOrgUnit(_), _) => 0
    case AddJobFunction(_) => 1
    case EditEngagement(_, NewJobFunction(_), _) => 1
    case EditEngagement(_, NewFraction(_), _) => 2
    case _ => 3
  }

  lemma DepartmentEditsShape(t: Option<string>, deps: seq<SdDepartment>)
    ensures forall i :: 0 <= i < |DepartmentEdits(t, deps)| ==>
              && KindOf(DepartmentEdits(t, deps)[i]) == EditKind && DepartmentEdits(t, deps)[i].engagement == t
              && Phase(DepartmentEdits(t, deps)[i]) == 0
  {
    forall i | 0 <= i < |deps| {
      DepartmentEditsAt(t, deps, i);
    }
  }

  lemma ProfessionEditsShape(t: Option<string>, profs: seq<SdProfession>, cache: map<string, string>)
    ensures forall i :: 0 <= i < |ProfessionEdits(t, profs, cache)| ==>
              && KindOf(ProfessionEdits(t, profs, cache)[i]) == EditKind && ProfessionEdits(t, profs, cache)[i].engagement == t
              && Phase(ProfessionEdits(t, profs, cache)[i]) == 1
  {
    forall i | 0 <= i < |profs| {
      ProfessionEditsAt(t, profs, cache, i);
    }
  }

  lemma WorkingTimeEditsShape(t: Option<string>, wts: seq<SdWorkingTime>)
    ensures forall i :: 0 <= i < |WorkingTimeEdits(t, wts)| ==>
              && KindOf(WorkingTimeEdits(t, wts)[i]) == EditKind && WorkingTimeEdits(t, wts)[i].engagement == t
              && Phase(WorkingTimeEdits(t, wts)[i]) == 2
  {
    forall i | 0 <= i < |wts| {
      WorkingTimeEditsAt(t, wts, i);
    }
  }

  /** The profession block: the literal-name registration, if any, then one
      edit per profession. */
  function ProfessionBlock(env: Env, st: State, emp: SdEmployment): seq<Write>
  {
    var c := EngagementComponents(emp);
    var t := EditTarget(st, emp.jobId);
    var st1 := st.(log := st.log + DepartmentEdits(t, c.departments));
    if |c.professions| > 0 then EmpNameWrites(st) + ProfessionEdits(t, c.professions, EmpNameCache(env, st1)) else []
  }

  lemma ProfessionBlockShape(env: Env, st: State, emp: SdEmployment)
    ensures var ws := ProfessionBlock(env, st, emp);
            forall i :: 0 <= i < |ws| ==> Phase(ws[i]) == 1 && (KindOf(ws[i]) == EditKind || KindOf(ws[i]) == JobFunctionKind)
    ensures Count(ProfessionBlock(env, st, emp), EditKind) == |EngagementComponents(emp).professions|
    ensures Count(ProfessionBlock(env, st, emp), JobFunctionKind) <= 1
    ensures forall k :: k != EditKind && k != JobFunctionKind ==> Count(ProfessionBlock(env, st, emp), k) == 0
  {
    var c := EngagementComponents(emp);
    var t := EditTarget(st, emp.jobId);
    var st1 := st.(log := st.log + DepartmentEdits(t, c.departments));
    if |c.professions| > 0 {
      var e := EmpNameWrites(st);
      var pe := ProfessionEdits(t, c.professions, EmpNameCache(env, st1));
      ProfessionEditsShape(t, c.professions, EmpNameCache(env, st1));
      forall k: Kind ensures Count(e + pe, k) == (if k == EditKind then |pe| else if k == JobFunctionKind then |e| else 0) {
        CountConcat(e, pe, k);
        CountUniform(e, JobFunctionKind, k);
        CountUniform(pe, EditKind, k);
      }
    }
  }

  lemma EditWritesParts(env: Env, st: State, emp: SdEmployment)
    ensures var c := EngagementComponents(emp);
            var t := EditTarget(st, emp.jobId);
            EditWrites(env, st, emp)
            == DepartmentEdits(t, c.departments) + ProfessionBlock(env, st, emp) + WorkingTimeEdits(t, c.workingTime)
  {
  }

  /** `edit_engagement` writes every unit change before every profession change
      and every profession change before every working-time change. */
  lemma EditOrder(env: Env, st: State, emp: SdEmployment)
    ensures var ws := EditWrites(env, st, emp);
            forall i, j :: 0 <= i < j < |ws| ==> Phase(ws[i]) <= Phase(ws[j])
  {
    var c := EngagementComponents(emp);
    var t := EditTarget(st, emp.jobId);
    var d := DepartmentEdits(t, c.departments);
    var p := ProfessionBlock(env, st, emp);
    var w := WorkingTimeEdits(t, c.workingTime);
    EditWritesParts(env, st, emp);
    DepartmentEditsShape(t, c.departments);
    ProfessionBlockShape(env, st, emp);
    WorkingTimeEditsShape(t, c.workingTime);
    var ws := d + p + w;
    assert forall i :: 0 <= i < |ws| ==> Phase(ws[i]) == (if i < |d| then 0 else if i < |d| + |p| then 1 else 2) by {
      forall i | 0 <= i < |ws| ensures Phase(ws[i]) == (if i < |d| then 0 else if i < |d| + |p| then 1 else 2) {
        if i < |d| {
          assert ws[i] == d[i];
        } else if i < |d| + |p| {
          assert ws[i] == p[i - |d|];
        } else {
          assert ws[i] == w[i - |d| - |p|];
        }
      }
    }
  }

  /** `edit_engagement` writes one edit per department, profession and
      working-time entry, all addressed to the matched engagement, and no other
      kind of write than at most one job-function registration. */
  lemma EditCounts(env: Env, st: State, emp: SdEmployment)
    ensures var ws := EditWrites(env, st, emp);
            var c := EngagementComponents(emp);
            && Count(ws, EditKind) == |c.departments| + |c.professions| + |c.workingTime|
            && Count(ws, CreateKind) == 0 && Count(ws, AssociationKind) == 0
            && Count(ws, TerminateKind) == 0 && Count(ws, LeaveKind) == 0
            && Count(ws, JobFunctionKind) <= 1
  {
    var c := EngagementComponents(emp);
    var t := EditTarget(st, emp.jobId);
    var d := DepartmentEdits(t, c.departments);
    var p := ProfessionBlock(env, st, emp);
    var w := WorkingTimeEdits(t, c.workingTime);
    EditWritesParts(env, st, emp);
    DepartmentEditsShape(t, c.departments);
    ProfessionBlockShape(env, st, emp);
    WorkingTimeEditsShape(t, c.workingTime);
    forall k: Kind ensures Count(d + p + w, k) == Count(d, k) + Count(p, k) + Count(w, k) {
      CountConcat(d + p, w, k);
      CountConcat(d, p, k);
    }
    forall k: Kind ensures Count(d, k) == (if k == EditKind then |d| else 0) && Count(w, k) == (if k == EditKind then |w| else 0) {
      CountUniform(d, EditKind, k);
      CountUniform(w, EditKind, k);
    }
  }

  /** As written, a profession edit looks up the job function of the real
      profession name, while the registration before it registers the literal
      "emp_name": a profession the cache does not know yet is edited in with no
      job function. */
  lemma ProfessionEditUnknownName(env: Env, st: State, t: Option<string>, profs: seq<SdProfession>, i: nat)
    requires i < |profs| && profs[i].name != LiteralEmpName && profs[i].name !in st.jobFunctions
    requires EditProfessions(env, st, t, profs).Ok?
    ensures var r := EditProfessions(env, st, t, profs).value;
            EditEngagement(t, NewJobFunction(None), ToValidity(profs[i].span)) in r.log[|st.log|..]
            && profs[i].name !in r.jobFunctions
  {
    var r := EditProfessions(env, st, t, profs).value;
    var pe := ProfessionEdits(t, profs, EmpNameCache(env, st));
    ProfessionEditsAt(t, profs, EmpNameCache(env, st), i);
    assert r.log[|st.log|..] == EmpNameWrites(st) + pe;
    assert pe[i] in r.log[|st.log|..];
  }

  // ---------------------------------------------------------------------------
  // Creation.

  lemma {:induction false} CountFour(a: seq<Write>, j: seq<Write>, w: Write, e: seq<Write>, k: Kind)
    ensures Count(a + j + [w] + e, k) == Count(a, k) + Count(j, k) + (if KindOf(w) == k then 1 else 0) + Count(e, k)
  {
    CountConcat(a + j + [w], e, k);
    CountConcat(a + j, [w], k);
    CountConcat(a, j, k);
    assert [w][..0] == [];
  }

  /** A successful `create_new_engagement`: the first department, profession and
      working-time entries exist; exactly one engagement is created, on the
      nearest unit at or above the SD unit that is not too deep, with the first
      profession's job function and the first fraction, as non-primary under
      the raw job id; an association to the SD unit is written exactly when that
      unit is too deep and the person has none for that validity; and a full
      edit follows exactly when some part has more than one entry. */
  lemma CreateNewEngagementWrites(env: Env, st: State, emp: SdEmployment, status: SdStatus)
    requires CreateNewEngagement(env, st, emp, status).Ok?
    ensures var c := EngagementComponents(emp);
            |c.departments| > 0 && |c.professions| > 0 && |c.workingTime| > 0
    ensures var c := EngagementComponents(emp);
            Climb(env.readOu(c.departments[0].unit)).Ok?
    ensures var ws := CreateNewEngagement(env, st, emp, status).value.log[|st.log|..];
            Count(ws, CreateKind) == 1
    ensures var c := EngagementComponents(emp);
            var ws := CreateNewEngagement(env, st, emp, status).value.log[|st.log|..];
            var ou := env.readOu(c.departments[0].unit);
            forall k :: 0 <= k < |ws| && ws[k].CreateEngagement? ==>
              ws[k].orgUnit == Climb(ou).value.uuid && ws[k].person == env.person
              && ws[k].jobFunction.Some? && ws[k].engagementType == env.nonPrimary
              && ws[k].userKey == emp.jobId && ws[k].fraction == c.workingTime[0].fraction
              && ws[k].validity == ToValidity(status.span)
    ensures var c := EngagementComponents(emp);
            var v := ToValidity(status.span);
            var ws := CreateNewEngagement(env, st, emp, status).value.log[|st.log|..];
            var ou := env.readOu(c.departments[0].unit);
            Count(ws, AssociationKind)
              == (if ou.typeName in TooDeep && !HasAssociation(st.associations, c.departments[0].unit, v) then 1 else 0)
    ensures var c := EngagementComponents(emp);
            var v := ToValidity(status.span);
            var ws := CreateNewEngagement(env, st, emp, status).value.log[|st.log|..];
            forall k :: 0 <= k < |ws| && ws[k].CreateAssociation? ==>
              ws[k] == CreateAssociation(c.departments[0].unit, env.person, emp.jobId, v)
    ensures var c := EngagementComponents(emp);
            var ws := CreateNewEngagement(env, st, emp, status).value.log[|st.log|..];
            Count(ws, EditKind) == (if NeedsFollowUpEdit(c) then |c.departments| + |c.professions| + |c.workingTime| else 0)
  {
    var a, j, w, e := CreateLog(env, st, emp, status);
    var c := EngagementComponents(emp);
    var v := ToValidity(status.span);
    var unit := c.departments[0].unit;
    var ou := env.readOu(unit);
    AssociationWritesShape(env, st, ou, unit, emp.jobId, v);
    JobFunctionWritesShape(st, c.professions[0].name);
    CreateBlocks(a, j, w, e, CreateAssociation(unit, env.person, emp.jobId, v));
    var ws := CreateNewEngagement(env, st, emp, status).value.log[|st.log|..];
    assert ws == a + j + [w] + e;
  }

  /** The association block has one write exactly when the unit is too deep and
      no association for it and the validity exists yet. */
  lemma AssociationWritesShape(env: Env, st: State, ou: OrgUnitInfo, unit: string, jobId: string, v: Validity)
    ensures var a := AssociationWrites(env, st, ou, unit, jobId, v);
            && |a| == (if ou.typeName in TooDeep && !HasAssociation(st.associations, unit, v) then 1 else 0)
            && forall i :: 0 <= i < |a| ==> a[i] == CreateAssociation(unit, env.person, jobId, v) && KindOf(a[i]) == AssociationKind
  {
  }

  lemma JobFunctionWritesShape(st: State, name: string)
    ensures var j := JobFunctionWrites(st, name);
            forall i :: 0 <= i < |j| ==> KindOf(j[i]) == JobFunctionKind
  {
  }

  /** The log of a successful create as its four blocks: association, job
      function, engagement, follow-up edit. */
  lemma CreateLog(env: Env, st: State, emp: SdEmployment, status: SdStatus)
      returns (a: seq<Write>, j: seq<Write>, w: Write, e: seq<Write>)
    requires CreateNewEngagement(env, st, emp, status).Ok?
    ensures var c := EngagementComponents(emp);
            |c.departments| > 0 && |c.professions| > 0 && |c.workingTime| > 0
    ensures var c := EngagementComponents(emp);
            var v := ToValidity(status.span);
            var ou := env.readOu(c.departments[0].unit);
            && CreateNewEngagement(env, st, emp, status).value.log[|st.log|..] == a + j + [w] + e
            && a == AssociationWrites(env, st, ou, c.departments[0].unit, emp.jobId, v)
            && j == JobFunctionWrites(st, c.professions[0].name)
            && Climb(ou).Ok?
            && w.CreateEngagement? && w.orgUnit == Climb(ou).value.uuid && w.person == env.person
            && w.jobFunction.Some? && w.engagementType == env.nonPrimary
            && w.userKey == emp.jobId && w.fraction == c.workingTime[0].fraction && w.validity == v
    ensures Count(e, CreateKind) == 0 && Count(e, AssociationKind) == 0
    ensures var c := EngagementComponents(emp);
            Count(e, EditKind) == (if NeedsFollowUpEdit(c) then |c.departments| + |c.professions| + |c.workingTime| else 0)
  {
    var c := EngagementComponents(emp);
    var v := ToValidity(status.span);
    var unit := c.departments[0].unit;
    var ou := env.readOu(unit);
    var st1 := AssociateIfTooDeep(env, st, ou, unit, emp.jobId, v).value;
    var placed := Climb(ou).value;
    a := AssociationWrites(env, st, ou, unit, emp.jobId, v);
    j, w, e := CreateOnUnitLog(env, st1, placed.uuid, emp, v);
    var r := CreateNewEngagement(env, st, emp, status).value;
    assert r == CreateOnUnit(env, st1, placed.uuid, emp, v).value;
    assert st1.log == st.log + a;
    FourBlocks(st.log, a, j, w, e);
    SuffixAfter(st.log, a + j + [w] + e);
  }

  lemma FourBlocks(p: seq<Write>, a: seq<Write>, j: seq<Write>, w: Write, e: seq<Write>)
    ensures (p + a) + j + [w] + e == p + (a + j + [w] + e)
  {
  }

  /** The log of a create once the unit is placed, as three blocks. */
  lemma CreateOnUnitLog(env: Env, st: State, unitUuid: string, emp: SdEmployment, v: Validity)
      returns (j: seq<Write>, w: Write, e: seq<Write>)
    requires CreateOnUnit(env, st, unitUuid, emp, v).Ok?
    ensures var c := EngagementComponents(emp);
            && |c.professions| > 0 && |c.workingTime| > 0
            && CreateOnUnit(env, st, unitUuid, emp, v).value.log == st.log + j + [w] + e
            && j == JobFunctionWrites(st, c.professions[0].name)
            && w == EngagementWrite(env, st, unitUuid, emp, v)
            && w.CreateEngagement? && w.orgUnit == unitUuid && w.person == env.person
            && w.jobFunction.Some? && w.engagementType == env.nonPrimary
            && w.userKey == emp.jobId && w.fraction == c.workingTime[0].fraction && w.validity == v
    ensures Count(e, CreateKind) == 0 && Count(e, AssociationKind) == 0
    ensures var c := EngagementComponents(emp);
            Count(e, EditKind) == (if NeedsFollowUpEdit(c) then |c.departments| + |c.professions| + |c.workingTime| else 0)
  {
    var c := EngagementComponents(emp);
    var name := c.professions[0].name;
    var st2 := PostEngagement(env, st, unitUuid, emp.jobId, name, c.workingTime[0].fraction, v).value;
    j := JobFunctionWrites(st, name);
    w := EngagementWrite(env, st, unitUuid, emp, v);
    e := if NeedsFollowUpEdit(c) then EditWrites(env, st2, emp) else [];
    EditCounts(env, st2, emp);
  }

  lemma SuffixAfter(p: seq<Write>, q: seq<Write>)
    ensures (p + q)[|p|..] == q
  {
  }

  /** Counting over the four blocks of a create. */
  lemma CreateBlocks(a: seq<Write>, j: seq<Write>, w: Write, e: seq<Write>, x: Write)
    requires KindOf(x) == AssociationKind && forall i :: 0 <= i < |a| ==> a[i] == x
    requires forall i :: 0 <= i < |j| ==> KindOf(j[i]) == JobFunctionKind
    requires KindOf(w) == CreateKind
    requires Count(e, CreateKind) == 0 && Count(e, AssociationKind) == 0
    ensures Count(a + j + [w] + e, CreateKind) == 1
    ensures Count(a + j + [w] + e, AssociationKind) == |a|
    ensures Count(a + j + [w] + e, EditKind) == Count(e, EditKind)
    ensures forall k :: 0 <= k < |a + j + [w] + e| && (a + j + [w] + e)[k].CreateEngagement? ==> (a + j + [w] + e)[k] == w
    ensures forall k :: 0 <= k < |a + j + [w] + e| && (a + j + [w] + e)[k].CreateAssociation? ==> (a + j + [w] + e)[k] == x
  {
    var ws := a + j + [w] + e;
    forall k: Kind ensures Count(ws, k) == Count(a, k) + Count(j, k) + (if KindOf(w) == k then 1 else 0) + Count(e, k) {
      CountFour(a, j, w, e, k);
    }
    forall k: Kind ensures Count(a, k) == (if k == AssociationKind then |a| else 0) && Count(j, k) == (if k == JobFunctionKind then |j| else 0) {
      CountUniform(a, AssociationKind, k);
      CountUniform(j, JobFunctionKind, k);
    }
    CountZero(e, CreateKind);
    CountZero(e, AssociationKind);
  }

  // ---------------------------------------------------------------------------
  // The status codes.

  /** An unknown status code aborts the person with a division by zero. */
  lemma UnknownCodeFaults(env: Env, st: State, emp: SdEmployment, status: SdStatus, skip: bool)
    requires status.code !in KnownCodes
    ensures ProcessStatus(env, st, emp, status, skip).Err?
    ensures ProcessStatus(env, st, emp, status, skip).error.ZeroDivisionError?
  {
  }

  /** Codes 0 and 1 set the skip flag; they edit the matched engagement, creating
      nothing, or create exactly one engagement when none matches. */
  lemma ActivationEditsOrCreates(env: Env, st: State, emp: SdEmployment, status: SdStatus, skip: bool)
    requires IsActivation(status.code)
    requires ProcessStatus(env, st, emp, status, skip).Ok?
    ensures var (r, skip1) := ProcessStatus(env, st, emp, status, skip).value;
            && skip1
            && (FindEngagement(st.engagements, emp.jobId).Some? ==>
                  r.log == st.log + EditWrites(env, st, emp) && Count(r.log[|st.log|..], CreateKind) == 0)
            && (FindEngagement(st.engagements, emp.jobId).None? ==> Count(r.log[|st.log|..], CreateKind) == 1)
  {
    var r := ProcessStatus(env, st, emp, status, skip).value.0;
    if FindEngagement(st.engagements, emp.jobId).Some? {
      EditCounts(env, st, emp);
      assert r.log[|st.log|..] == EditWrites(env, st, emp);
    } else {
      CreateNewEngagementWrites(env, st, emp, status);
    }
  }

  /** Code 3 writes one leave and nothing else, and leaves the skip flag alone. */
  lemma LeaveOnly(env: Env, st: State, emp: SdEmployment, status: SdStatus, skip: bool)
    requires status.code == "3"
    requires ProcessStatus(env, st, emp, status, skip).Ok?
    ensures ProcessStatus(env, st, emp, status, skip).value
            == (st.(log := st.log + [CreateLeave(EditTarget(st, emp.jobId), emp.jobId, ToValidity(status.span))]), skip)
  {
  }

  /** Code 8 terminates the matched engagement as of the status' activation date,
      or, with no match, writes nothing and sets the skip flag. */
  lemma TerminateAtActivation(env: Env, st: State, emp: SdEmployment, status: SdStatus, skip: bool)
    requires status.code == "8"
    requires ProcessStatus(env, st, emp, status, skip).Ok?
    ensures var (r, skip1) := ProcessStatus(env, st, emp, status, skip).value;
            match FindEngagement(st.engagements, emp.jobId)
            case None => r == st && skip1
            case Some(e) => r == st.(log := st.log + [TerminateEngagement(e.uuid, status.span.activation)]) && skip1 == skip
  {
    TerminationCode(status.code);
    var t := TerminateEngagementOp(env, st, status.span.activation, emp.jobId);
    assert t.Ok?;
    assert ProcessStatus(env, st, emp, status, skip).value == (if t.value.None? then (st, true) else (t.value.value, skip));
  }

  /** Code 8 is known, is not an activation and is not a leave. */
  lemma TerminationCode(code: string)
    requires code == "8"
    ensures code in KnownCodes && !IsActivation(code) && code != "3"
  {
    assert KnownCodes[3] == code;
  }

  /** Codes S and 9 write nothing; they succeed exactly when every engagement
      stored under the raw job id ends the calendar day before the status'
      activation date, and then set the skip flag exactly when there is one. */
  lemma ConsistencyStatus(env: Env, st: State, emp: SdEmployment, status: SdStatus, skip: bool)
    requires status.code == "S" || status.code == "9"
    requires Dates.Parse(status.span.activation).Some?
    requires forall i :: 0 <= i < |st.engagements| && st.engagements[i].validity.to.Some? ==>
               Dates.Parse(st.engagements[i].validity.to.value).Some?
    ensures var r := ProcessStatus(env, st, emp, status, skip);
            && (r.Ok? <==> forall i :: 0 <= i < |st.engagements| && st.engagements[i].userKey == emp.jobId ==>
                  st.engagements[i].validity.to.Some?
                  && Dates.DayAfter(Dates.Parse(st.engagements[i].validity.to.value).value)
                     == Some(Dates.Parse(status.span.activation).value))
            && (r.Ok? ==> r.value.0 == st)
            && (r.Ok? ==> r.value.1 == (skip || exists i :: 0 <= i < |st.engagements| && st.engagements[i].userKey == emp.jobId))
  {
    forall i | 0 <= i < |st.engagements| && st.engagements[i].validity.to.Some? {
      Dates.CompareDatesDayAfter(st.engagements[i].validity.to.value, status.span.activation);
    }
  }

  /** The trailing edit of an employment runs exactly when no status set the
      skip flag. */
  lemma TrailingEdit(env: Env, st: State, emp: SdEmployment)
    requires UpdateEmployment(env, st, emp).Ok?
    ensures var p := ProcessStatuses(env, st, emp, EngagementComponents(emp).statuses, false).value;
            UpdateEmployment(env, st, emp).value.log == p.0.log + (if p.1 then [] else EditWrites(env, p.0, emp))
  {
  }

  /** An employment without statuses is edited once, in full. */
  lemma NoStatusEdits(env: Env, st: State, emp: SdEmployment)
    requires emp.status.Absent?
    requires UpdateEmployment(env, st, emp).Ok?
    ensures UpdateEmployment(env, st, emp).value.log == st.log + EditWrites(env, st, emp)
  {
  }
}

=== FILE: sd_common.dfy ===
/** `calc_employment_id` of the SD-Løn helpers: an employment identifier paired
    with the number it denotes, for sorting employments by number. */
module SdCommon {
  import opened Text

  datatype EmploymentId = EmploymentId(id: string, value: nat)

  /** The number given to identifiers `int()` rejects. */
  const NonNumericValue: nat := 999999

  function CalcEmploymentId(identifier: string): (r: EmploymentId)
    ensures r.id == identifier
  {
    EmploymentId(identifier, if IsDigits(identifier) then DigitsValue(identifier) else NonNumericValue)
  }

  /** The value of a numeric identifier is the number it spells: writing a
      number and reading its identifier back gives the number again. */
  lemma NumericRoundTrip(n: nat)
    ensures CalcEmploymentId(NatToDigits(n)) == EmploymentId(NatToDigits(n), n)
  {
    NatToDigitsValue(n);
  }

  /** A non-numeric identifier gets the fixed value instead of failing. */
  lemma NonNumericSentinel(identifier: string)
    requires !IsDigits(identifier)
    ensures CalcEmploymentId(identifier).value == 999999
  {
  }

  /** Identifiers that differ only by leading zeros get equal values. */
  lemma LeadingZerosIgnored(k: nat, identifier: string)
    requires IsDigits(identifier)
    ensures IsDigits(Zeros(k) + identifier)
    ensures CalcEmploymentId(Zeros(k) + identifier).value == CalcEmploymentId(identifier).value
  {
    LeadingZerosValue(k, identifier);
  }

  lemma Examples()
    ensures CalcEmploymentId("00042").value == 42
    ensures CalcEmploymentId("42").value == 42
    ensures CalcEmploymentId("A1234").value == 999999
  {
    assert "A1234"[0] == 'A' && !IsDigit('A');
    assert "42"[..1] == "4";
    assert DigitsValue("4") == 4;
    assert DigitsValue("42") == 42;
    assert IsDigits("42");
    assert Zeros(3) == "000";
    assert "00042" == Zeros(3) + "42";
    LeadingZerosIgnored(3, "42");
  }
}

=== FILE: sd_primary.dfy ===
/** `recalculate_primary`: for every sub-interval cut out of a person's
    engagement validities, mark the engagement with the highest occupation rate
    (ties to the smallest user key) primary and every other one non-primary. */
module SdPrimary {
  import opened Common
  import opened Text
  import opened SdRecords
  import Dates

  /** The cut that stands for "open-ended". */
  const OpenCut: string := "9999-12-30"

  // ---------------------------------------------------------------------------
  // `_calculate_rate_and_ids`.

  /** The running minimum id: a user key, or the integer 9999999 it starts as. */
  datatype MinId = Sentinel | Key(key: string)

  datatype Rate = Rate(minId: MinId, maxRate: int)

  /** One round of the loop. A zero fraction is skipped; comparing a key with
      the integer start value would be a TypeError. */
  function RateStep(acc: Rate, e: MoEngagement): Result<Rate>
  {
    if e.fraction == 0 then Ok(acc)
    else
      var acc1 :- if e.fraction != acc.maxRate then Ok(acc)
                  else match acc.minId
                    case Sentinel => Err(TypeError("'<' not supported between instances of 'str' and 'int'"))
                    case Key(k) => Ok(if StrLess(e.userKey, k) then acc.(minId := Key(e.userKey)) else acc);
      Ok(if e.fraction > acc1.maxRate then Rate(Key(e.userKey), e.fraction) else acc1)
  }

  /** The rate never fails: the minimum id is a key whenever the maximum is
      positive, so the mixed comparison cannot arise. The result is the highest
      positive fraction (0 when there is none) and is bounded by every rate. */
  function CalculateRateAndIds(engs: seq<MoEngagement>): (r: Result<Rate>)
    ensures r.Ok?
    ensures r.value.maxRate >= 0
    ensures r.value.minId.Sentinel? <==> r.value.maxRate == 0
    ensures r.value.maxRate == 0 <==> forall i :: 0 <= i < |engs| ==> engs[i].fraction <= 0
    ensures forall i :: 0 <= i < |engs| ==> engs[i].fraction <= r.value.maxRate
    decreases |engs|
  {
    if |engs| == 0 then Ok(Rate(Sentinel, 0))
    else
      var prefix := engs[..|engs| - 1];
      var acc := CalculateRateAndIds(prefix).value;
      assert forall i :: 0 <= i < |engs| - 1 ==> engs[i] == prefix[i];
      RateStep(acc, engs[|engs| - 1])
  }

  /** The engagement that wins a sub-interval. */
  predicate IsPrimary(e: MoEngagement, rate: Rate)
  {
    e.fraction == rate.maxRate && rate.minId == Key(e.userKey)
  }

  /** No engagement with fraction `rate` has a key smaller than `key`. */
  predicate NoneSmaller(engs: seq<MoEngagement>, key: string, rate: int)
  {
    forall i :: 0 <= i < |engs| && engs[i].fraction == rate ==> !StrLess(engs[i].userKey, key)
  }

  /** Appending an engagement that does not undercut the key. */
  lemma NoneSmallerKeep(prefix: seq<MoEngagement>, e: MoEngagement, key: string, rate: int)
    requires NoneSmaller(prefix, key, rate)
    requires e.fraction == rate ==> !StrLess(e.userKey, key)
    ensures NoneSmaller(prefix + [e], key, rate)
  {
    assert forall i :: 0 <= i < |prefix| ==> (prefix + [e])[i] == prefix[i];
  }

  /** Appending an engagement whose key undercuts the old minimum. */
  lemma NoneSmallerSwap(prefix: seq<MoEngagement>, e: MoEngagement, key: string, rate: int)
    requires NoneSmaller(prefix, key, rate)
    requires StrLess(e.userKey, key)
    ensures NoneSmaller(prefix + [e], e.userKey, rate)
  {
    var engs := prefix + [e];
    forall i | 0 <= i < |engs| && engs[i].fraction == rate
      ensures !StrLess(engs[i].userKey, e.userKey)
    {
      if i < |prefix| {
        assert engs[i] == prefix[i];
        if StrLess(engs[i].userKey, e.userKey) {
          StrLessTransitive(engs[i].userKey, e.userKey, key);
        }
      } else {
        StrLessIrreflexive(e.userKey);
      }
    }
  }

  /** Appending an engagement with a rate above every earlier one. */
  lemma NoneSmallerNewMax(prefix: seq<MoEngagement>, e: MoEngagement)
    requires forall i :: 0 <= i < |prefix| ==> prefix[i].fraction < e.fraction
    ensures NoneSmaller(prefix + [e], e.userKey, e.fraction)
  {
    var engs := prefix + [e];
    forall i | 0 <= i < |engs| && engs[i].fraction == e.fraction
      ensures !StrLess(engs[i].userKey, e.userKey)
    {
      if i == |prefix| {
        StrLessIrreflexive(e.userKey);
      }
    }
  }

  /** The chosen key belongs to an engagement with the highest rate, and no
      engagement with that rate has a smaller key. */
  lemma {:induction false} RateIsBest(engs: seq<MoEngagement>) returns (w: nat)
    requires CalculateRateAndIds(engs).value.minId.Key?
    ensures var r := CalculateRateAndIds(engs).value;
            && w < |engs| && engs[w].userKey == r.minId.key && engs[w].fraction == r.maxRate
            && IsPrimary(engs[w], r)
            && NoneSmaller(engs, r.minId.key, r.maxRate)
    decreases |engs|
  {
    var n := |engs|;
    var prefix := engs[..n - 1];
    var acc := CalculateRateAndIds(prefix).value;
    var e := engs[n - 1];
    var r := CalculateRateAndIds(engs).value;
    assert engs == prefix + [e];
    if acc.minId.Key? {
      var w0 := RateIsBest(prefix);
      if r == acc {
        w := w0;
        if e.fraction == r.maxRate {
          StrLessTotal(e.userKey, r.minId.key);
        }
        NoneSmallerKeep(prefix, e, r.minId.key, r.maxRate);
      } else if e.fraction == acc.maxRate {
        w := n - 1;
        NoneSmallerSwap(prefix, e, acc.minId.key, acc.maxRate);
      } else {
        w := n - 1;
        NoneSmallerNewMax(prefix, e);
      }
    } else {
      w := n - 1;
      NoneSmallerNewMax(prefix, e);
    }
  }

  /** How many engagements are primary under `rate`. */
  function CountPrimary(engs: seq<MoEngagement>, rate: Rate): (n: nat)
    ensures n <= |engs|
  {
    if |engs| == 0 then 0 else (if IsPrimary(engs[0], rate) then 1 else 0) + CountPrimary(engs[1..], rate)
  }

  lemma {:induction false} CountPrimaryPositive(engs: seq<MoEngagement>, rate: Rate, w: nat)
    requires w < |engs| && IsPrimary(engs[w], rate)
    ensures CountPrimary(engs, rate) >= 1
    decreases w
  {
    if w > 0 {
      CountPrimaryPositive(engs[1..], rate, w - 1);
    }
  }

  /** With some positive rate at least one engagement qualifies; with none,
      nothing does. */
  lemma PrimaryExists(engs: seq<MoEngagement>)
    ensures var r := CalculateRateAndIds(engs).value;
            CountPrimary(engs, r) >= 1 <==> exists i :: 0 <= i < |engs| && engs[i].fraction > 0
  {
    var r := CalculateRateAndIds(engs).value;
    if r.minId.Key? {
      var w := RateIsBest(engs);
      CountPrimaryPositive(engs, r, w);
    } else {
      CountPrimaryNone(engs, r);
    }
  }

  lemma {:induction false} CountPrimaryNone(engs: seq<MoEngagement>, rate: Rate)
    requires rate.minId.Sentinel?
    ensures CountPrimary(engs, rate) == 0
    decreases |engs|
  {
    if |engs| > 0 {
      CountPrimaryNone(engs[1..], rate);
    }
  }

  /** The tie-break example: equal rates, "00017" wins over "00042". */
  lemma TieBreakExample(a: MoEngagement, b: MoEngagement)
    requires a.userKey == "00042" && b.userKey == "00017" && a.fraction == b.fraction == 500
    ensures CalculateRateAndIds([a, b]).value == Rate(Key("00017"), 500)
    ensures !IsPrimary(a, CalculateRateAndIds([a, b]).value) && IsPrimary(b, CalculateRateAndIds([a, b]).value)
  {
    assert [a, b][..1] == [a];
    assert [a][..0] == [];
    assert StrLess("00017", "00042");
  }

  // ---------------------------------------------------------------------------
  // Cut points.

  /** The cut an engagement's end contributes: the day after a given end date,
      the open cut for a missing or empty one. */
  function CutAfter(to: Option<string>): (r: Result<string>)
    ensures to.None? || to.value == "" ==> r == Ok(OpenCut)
    ensures to.Some? && to.value != "" && r.Ok? ==>
              && Dates.Parse(to.value).Some? && Dates.Parse(r.value).Some?
              && Dates.DayAfter(Dates.Parse(to.value).value) == Dates.Parse(r.value)
    ensures to.Some? && to.value != "" && Dates.Parse(to.value).None? ==> r.Err? && r.error.ValueError?
    ensures to.Some? && to.value != "" && Dates.Parse(to.value) == Some(Dates.MaxDate) ==> r.Err? && r.error.OverflowError?
  {
    if to.None? || to.value == "" then Ok(OpenCut)
    else
      match Dates.Parse(to.value)
      case None => Err(ValueError("time data does not match format '%Y-%m-%d'"))
      case Some(d) =>
        match Dates.DayAfter(d)
        case None => Err(OverflowError("date value out of range"))
        case Some(n) =>
          Dates.ParseFormat(n);
          Ok(Dates.Format(n))
  }

  /** Every from date and every end cut, in engagement order. */
  function CutList(engs: seq<MoEngagement>): (r: Result<seq<string>>)
    ensures r.Ok? <==> forall i :: 0 <= i < |engs| ==> CutAfter(engs[i].validity.to).Ok?
    ensures r.Ok? ==> forall i :: 0 <= i < |engs| ==>
                        engs[i].validity.from in r.value && CutAfter(engs[i].validity.to).value in r.value
    decreases |engs|
  {
    if |engs| == 0 then Ok([])
    else
      var cut :- CutAfter(engs[0].validity.to);
      var rest := CutList(engs[1..]);
      assert forall i :: 1 <= i < |engs| ==> engs[i] == engs[1..][i - 1];
      match rest
      case Err(e) => Err(e)
      case Ok(cs) => Ok([engs[0].validity.from, cut] + cs)
  }

  /** Every cut comes from some engagement: its from date or its end cut. */
  lemma {:induction false} CutSource(engs: seq<MoEngagement>, c: string) returns (i: nat)
    requires CutList(engs).Ok? && c in CutList(engs).value
    ensures i < |engs| && (c == engs[i].validity.from || c == CutAfter(engs[i].validity.to).value)
    decreases |engs|
  {
    var cs := CutList(engs[1..]).value;
    assert CutList(engs).value == [engs[0].validity.from, CutAfter(engs[0].validity.to).value] + cs;
    if c == engs[0].validity.from || c == CutAfter(engs[0].validity.to).value {
      i := 0;
    } else {
      var j := CutSource(engs[1..], c);
      i := j + 1;
    }
  }

  // ---------------------------------------------------------------------------
  // `sorted(set(dates))`.

  predicate StrictlySorted(xs: seq<string>)
  {
    forall i, j :: 0 <= i < j < |xs| ==> StrLess(xs[i], xs[j])
  }

  /** Inserts into a strictly sorted list, dropping a duplicate. */
  function Insert(xs: seq<string>, x: string): (r: seq<string>)
    requires StrictlySorted(xs)
    ensures StrictlySorted(r)
    ensures forall y :: y in r <==> y in xs || y == x
    decreases |xs|
  {
    if |xs| == 0 then [x]
    else if x == xs[0] then xs
    else if StrLess(x, xs[0]) then
      assert forall j :: 0 < j < |xs| ==> StrLess(x, xs[j]) by {
        forall j | 0 < j < |xs| ensures StrLess(x, xs[j]) {
          StrLessTransitive(x, xs[0], xs[j]);
        }
      }
      [x] + xs
    else
      StrLessTotal(x, xs[0]);
      var rest := Insert(xs[1..], x);
      assert forall y :: y in rest ==> StrLess(xs[0], y) by {
        forall y | y in rest ensures StrLess(xs[0], y) {
          if y != x {
            var j :| 0 <= j < |xs[1..]| && xs[1..][j] == y;
            assert xs[j + 1] == y;
          }
        }
      }
      [xs[0]] + rest
  }

  /** `sorted(set(xs))`: the distinct values, strictly increasing. */
  function SortedSet(xs: seq<string>): (r: seq<string>)
    ensures StrictlySorted(r)
    ensures forall y :: y in r <==> y in xs
    decreases |xs|
  {
    if |xs| == 0 then []
    else
      var r := Insert(SortedSet(xs[..|xs| - 1]), xs[|xs| - 1]);
      assert forall y :: y in xs <==> y in xs[..|xs| - 1] || y == xs[|xs| - 1] by {
        assert xs == xs[..|xs| - 1] + [xs[|xs| - 1]];
      }
      r
  }

  /** A strictly sorted list has no duplicates and lists each value once. */
  lemma SortedDistinct(xs: seq<string>, i: nat, j: nat)
    requires StrictlySorted(xs) && i < |xs| && j < |xs| && xs[i] == xs[j]
    ensures i == j
  {
    if i < j {
      StrLessIrreflexive(xs[i]);
    } else if j < i {
      StrLessIrreflexive(xs[j]);
    }
  }

  /** A strictly sorted list is determined by its elements: `sorted(set(xs))`
      has exactly one possible value. */
  lemma {:induction false} SortedUnique(a: seq<string>, b: seq<string>)
    requires StrictlySorted(a) && StrictlySorted(b)
    requires forall y :: y in a <==> y in b
    ensures a == b
    decreases |a|
  {
    assert |a| > 0 ==> a[0] in b;
    assert |b| > 0 ==> b[0] in a;
    if |a| > 0 && |b| > 0 {
      SortedHeads(a, b);
      forall y ensures y in a[1..] <==> y in b[1..] {
        TailElements(a, y);
        TailElements(b, y);
      }
      SortedUnique(a[1..], b[1..]);
      assert a == [a[0]] + a[1..] && b == [b[0]] + b[1..];
    }
  }

  /** Two strictly sorted lists with the same elements start alike. */
  lemma SortedHeads(a: seq<string>, b: seq<string>)
    requires StrictlySorted(a) && StrictlySorted(b) && |a| > 0 && |b| > 0
    requires a[0] in b && b[0] in a
    ensures a[0] == b[0]
  {
    var i :| 0 <= i < |a| && a[i] == b[0];
    var j :| 0 <= j < |b| && b[j] == a[0];
    assert i == 0 || StrLess(a[0], b[0]);
    assert j == 0 || StrLess(b[0], a[0]);
    if StrLess(a[0], b[0]) {
      StrLessAsymmetric(a[0], b[0]);
    }
  }

  /** The tail of a strictly sorted list holds everything but the head. */
  lemma TailElements(a: seq<string>, y: string)
    requires StrictlySorted(a) && |a| > 0
    ensures y in a[1..] <==> y in a && y != a[0]
    ensures StrictlySorted(a[1..])
  {
    if y in a[1..] {
      var i :| 0 <= i < |a| - 1 && a[1..][i] == y;
      assert StrLess(a[0], a[i + 1]);
      StrLessIrreflexive(a[0]);
    }
    if y in a && y != a[0] {
      var i :| 0 <= i < |a| && a[i] == y;
      assert a[1..][i - 1] == y;
    }
  }

  // ---------------------------------------------------------------------------
  // Sub-intervals.

  /** The validity the writes for sub-interval `i` carry: from the i-th cut to
      the next cut, open when the next cut is the open cut. */
  function Interval(cuts: seq<string>, i: nat): (v: Validity)
    requires i + 1 < |cuts|
    ensures v.from == cuts[i]
    ensures v.to == (if cuts[i + 1] == OpenCut then None else Some(cuts[i + 1]))
    ensures StrictlySorted(cuts) && v.to.Some? ==> StrLess(v.from, v.to.value)
    ensures StrictlySorted(cuts) && v.to.Some? ==> forall j :: 0 <= j < |cuts| && StrLess(v.from, cuts[j]) ==> !StrLess(cuts[j], v.to.value)
  {
    var v := Validity(cuts[i], if cuts[i + 1] == OpenCut then None else Some(cuts[i + 1]));
    if StrictlySorted(cuts) then NoCutBetween(cuts, i); v else v
  }

  /** On strictly sorted cuts no cut lies strictly between two neighbours. */
  lemma NoCutBetween(cuts: seq<string>, i: nat)
    requires StrictlySorted(cuts) && i + 1 < |cuts|
    ensures forall j :: 0 <= j < |cuts| && StrLess(cuts[i], cuts[j]) ==> !StrLess(cuts[j], cuts[i + 1])
  {
    forall j | 0 <= j < |cuts| && StrLess(cuts[i], cuts[j])
      ensures !StrLess(cuts[j], cuts[i + 1])
    {
      if j <= i {
        if j < i {
          StrLessAsymmetric(cuts[j], cuts[i]);
        } else {
          StrLessIrreflexive(cuts[i]);
        }
      } else if j == i + 1 {
        StrLessIrreflexive(cuts[j]);
      } else {
        StrLessAsymmetric(cuts[i + 1], cuts[j]);
      }
    }
  }

  /** On strictly sorted cuts every sub-interval starts before its end cut,
      and a closed one ends where the next one starts. */
  lemma IntervalsChain(cuts: seq<string>, i: nat)
    requires StrictlySorted(cuts) && i + 1 < |cuts|
    ensures StrLess(Interval(cuts, i).from, cuts[i + 1])
    ensures Interval(cuts, i).to.Some? && i + 2 < |cuts| ==> Interval(cuts, i).to == Some(Interval(cuts, i + 1).from)
  {
  }

  // ---------------------------------------------------------------------------
  // The writes.

  datatype PrimaryEdit = PrimaryEdit(engagement: string, primary: bool, engagementType: string, validity: Validity)

  /** What the recalculation reads from the directory. */
  datatype Directory = Directory(
    primaryType: string,                  // uuid of the primary engagement type
    nonPrimaryType: string,               // uuid of the non-primary engagement type
    readAt: string -> seq<MoEngagement>,  // `read_user_engagement(at=date)`
    respond: PrimaryEdit -> int)          // the status answering an edit

  function EditFor(dir: Directory, e: MoEngagement, rate: Rate, v: Validity): (w: PrimaryEdit)
  {
    var p := IsPrimary(e, rate);
    PrimaryEdit(e.uuid, p, if p then dir.primaryType else dir.nonPrimaryType, v)
  }

  /** The inner loop for one sub-interval: one edit per engagement, in order; a
      second primary trips the assertion, and so does any answer but 200/400. */
  function EditInterval(dir: Directory, engs: seq<MoEngagement>, rate: Rate, v: Validity, seen: bool): (r: Result<seq<PrimaryEdit>>)
    ensures r.Ok? ==> |r.value| == |engs|
    ensures r.Ok? ==> forall i :: 0 <= i < |engs| ==>
                        r.value[i].engagement == engs[i].uuid && r.value[i].validity == v
                        && r.value[i].primary == IsPrimary(engs[i], rate)
                        && r.value[i].engagementType == (if r.value[i].primary then dir.primaryType else dir.nonPrimaryType)
    ensures r.Ok? ==> CountPrimary(engs, rate) <= (if seen then 0 else 1)
    ensures (forall w :: dir.respond(w) in {200, 400}) ==>
              (r.Ok? <==> CountPrimary(engs, rate) <= (if seen then 0 else 1))
    decreases |engs|
  {
    if |engs| == 0 then Ok([])
    else
      var w := EditFor(dir, engs[0], rate, v);
      if w.primary && seen then Err(AssertionError("exactly_one_primary is False"))
      else if dir.respond(w) !in {200, 400} then Err(AssertionError("status not 200 or 400"))
      else
        var rest :- EditInterval(dir, engs[1..], rate, v, seen || w.primary);
        assert forall i :: 1 <= i < |engs| ==> engs[i] == engs[1..][i - 1];
        Ok([w] + rest)
  }

  /** The edits for sub-interval `k`. */
  function BlockOf(dir: Directory, cuts: seq<string>, k: nat): Result<seq<PrimaryEdit>>
    requires k + 1 < |cuts|
  {
    var engs := dir.readAt(cuts[k]);
    EditInterval(dir, engs, CalculateRateAndIds(engs).value, Interval(cuts, k), false)
  }

  /** The outer loop from sub-interval `i` on: one block of edits per
      sub-interval. */
  function RecalculateFrom(dir: Directory, cuts: seq<string>, i: nat): (r: Result<seq<seq<PrimaryEdit>>>)
    requires i <= |cuts|
    ensures r.Ok? ==> |r.value| == (if i + 1 < |cuts| then |cuts| - 1 - i else 0)
    ensures r.Ok? ==> forall k :: i <= k < |cuts| - 1 ==>
                        BlockOf(dir, cuts, k) == Ok(r.value[k - i])
    decreases |cuts| - i
  {
    if i + 1 >= |cuts| then Ok([])
    else
      var engs := dir.readAt(cuts[i]);
      var rate := CalculateRateAndIds(engs).value;
      var block :- EditInterval(dir, engs, rate, Interval(cuts, i), false);
      var rest :- RecalculateFrom(dir, cuts, i + 1);
      Ok([block] + rest)
  }

  /** `recalculate_primary` for one person, given all of their engagements. */
  function RecalculatePrimary(dir: Directory, all: seq<MoEngagement>): (r: Result<seq<seq<PrimaryEdit>>>)
    ensures CutList(all).Err? ==> r.Err?
    ensures r.Ok? ==> |r.value| == (if |SortedSet(CutList(all).value)| == 0 then 0 else |SortedSet(CutList(all).value)| - 1)
  {
    var cuts :- CutList(all);
    RecalculateFrom(dir, SortedSet(cuts), 0)
  }

  /** The failure of the code as written: the payload of every edit is built by
      `self._engagement_payload`, which the class does not define. */
  const NoPayloadBuilder: Error := AttributeError("'ChangeAtSD' object has no attribute '_engagement_payload'")

  /** The directory reads nothing for any sub-interval from `i` on. */
  predicate NothingReadFrom(dir: Directory, cuts: seq<string>, i: nat)
  {
    forall k :: i <= k < |cuts| - 1 ==> |dir.readAt(cuts[k])| == 0
  }

  /** The outer loop as written. The first engagement read for a sub-interval
      passes the primary assertion and then reaches the undefined payload
      builder, so the loop gets past a sub-interval only when nothing was read
      for it, and then has posted nothing. */
  function RecalculateFromAsWritten(dir: Directory, cuts: seq<string>, i: nat): (r: Result<seq<seq<PrimaryEdit>>>)
    requires i <= |cuts|
    ensures r.Ok? <==> NothingReadFrom(dir, cuts, i)
    ensures r.Err? ==> r.error == NoPayloadBuilder
    ensures r.Ok? ==> |r.value| == (if i + 1 < |cuts| then |cuts| - 1 - i else 0)
    ensures r.Ok? ==> forall k :: 0 <= k < |r.value| ==> r.value[k] == []
    decreases |cuts| - i
  {
    if i + 1 >= |cuts| then Ok([])
    else if |dir.readAt(cuts[i])| > 0 then Err(NoPayloadBuilder)
    else
      var rest :- RecalculateFromAsWritten(dir, cuts, i + 1);
      Ok([[]] + rest)
  }

  /** `recalculate_primary` as written. */
  function RecalculatePrimaryAsWritten(dir: Directory, all: seq<MoEngagement>): (r: Result<seq<seq<PrimaryEdit>>>)
    ensures CutList(all).Err? ==> r.Err? && r == CutList(all).PropagateFailure()
    ensures CutList(all).Ok? ==>
              var cuts := SortedSet(CutList(all).value);
              (r.Ok? <==> NothingReadFrom(dir, cuts, 0))
    ensures CutList(all).Ok? && r.Err? ==> r.error == NoPayloadBuilder
    ensures r.Ok? ==> forall k :: 0 <= k < |r.value| ==> r.value[k] == []
  {
    match CutList(all)
    case Err(e) => Err(e)
    case Ok(cs) => RecalculateFromAsWritten(dir, SortedSet(cs), 0)
  }

  /** Wherever the intended recalculation posts an edit, the code as written
      raises AttributeError instead; it never posts any edit at all. */
  lemma AsWrittenFailsWhereIntendedEdits(dir: Directory, all: seq<MoEngagement>, k: nat)
    requires RecalculatePrimary(dir, all).Ok?
    requires k < |RecalculatePrimary(dir, all).value| && |RecalculatePrimary(dir, all).value[k]| > 0
    ensures RecalculatePrimaryAsWritten(dir, all) == Err(NoPayloadBuilder)
  {
    var cuts := SortedSet(CutList(all).value);
    var block := RecalculatePrimary(dir, all).value[k];
    assert BlockOf(dir, cuts, k) == Ok(block);
    BlockPrimaries(dir, cuts, k, block);
  }

  /** The counterexample: one full-time engagement from 2019-01-01, open-ended,
      answered with 200. The intended recalculation marks it primary over
      [2019-01-01, open); the code as written raises AttributeError. */
  lemma SingleEngagementExample(dir: Directory, a: MoEngagement)
    requires a.userKey == "00001" && a.fraction == 1000000 && a.validity == Validity("2019-01-01", None)
    requires dir.readAt("2019-01-01") == [a]
    requires forall w :: dir.respond(w) == 200
    ensures RecalculatePrimary(dir, [a]) == Ok([[PrimaryEdit(a.uuid, true, dir.primaryType, Validity("2019-01-01", None))]])
    ensures RecalculatePrimaryAsWritten(dir, [a]) == Err(NoPayloadBuilder)
  {
    var cuts := SingleCuts(a);
    var w := PrimaryEdit(a.uuid, true, dir.primaryType, Validity("2019-01-01", None));
    SingleBlock(dir, a, cuts);
    assert RecalculateFrom(dir, cuts, 1) == Ok([]);
    assert RecalculateFrom(dir, cuts, 0) == Ok([[w]] + []);
    assert [[w]] + [] == [[w]];
  }

  lemma SingleCuts(a: MoEngagement) returns (cuts: seq<string>)
    requires a.validity == Validity("2019-01-01", None)
    ensures cuts == ["2019-01-01", OpenCut]
    ensures CutList([a]) == Ok(cuts) && SortedSet(cuts) == cuts
  {
    cuts := ["2019-01-01", OpenCut];
    assert [a][1..] == [];
    assert CutList([a]) == Ok(["2019-01-01", OpenCut] + []);
    assert ["2019-01-01", OpenCut] + [] == cuts;
    assert StrLess("2019-01-01", OpenCut);
    assert StrictlySorted(cuts);
    SortedUnique(SortedSet(cuts), cuts);
  }

  lemma SingleBlock(dir: Directory, a: MoEngagement, cuts: seq<string>)
    requires a.userKey == "00001" && a.fraction == 1000000
    requires cuts == ["2019-01-01", OpenCut] && dir.readAt("2019-01-01") == [a]
    requires forall w :: dir.respond(w) == 200
    ensures EditInterval(dir, [a], CalculateRateAndIds([a]).value, Interval(cuts, 0), false)
            == Ok([PrimaryEdit(a.uuid, true, dir.primaryType, Validity("2019-01-01", None))])
  {
    assert [a][..0] == [];
    var rate := CalculateRateAndIds([a]).value;
    assert rate == Rate(Key("00001"), 1000000);
    var w := PrimaryEdit(a.uuid, true, dir.primaryType, Validity("2019-01-01", None));
    assert EditFor(dir, a, rate, Interval(cuts, 0)) == w;
    assert [a][1..] == [];
    assert EditInterval(dir, [a], rate, Interval(cuts, 0), false) == Ok([w] + []);
    assert [w] + [] == [w];
  }

  /** Every sub-interval gets exactly one primary edit when some engagement read
      at its start has a positive rate, and none otherwise; every engagement
      read gets exactly one edit for it. */
  lemma OnePrimaryPerInterval(dir: Directory, all: seq<MoEngagement>, k: nat)
    requires RecalculatePrimary(dir, all).Ok?
    requires k < |RecalculatePrimary(dir, all).value|
    ensures var cuts := SortedSet(CutList(all).value);
            var engs := dir.readAt(cuts[k]);
            var block := RecalculatePrimary(dir, all).value[k];
            && |block| == |engs|
            && (forall j :: 0 <= j < |block| ==> block[j].engagement == engs[j].uuid && block[j].validity == Interval(cuts, k))
            && PrimaryCount(block) == (if exists i :: 0 <= i < |engs| && engs[i].fraction > 0 then 1 else 0)
  {
    var cuts := SortedSet(CutList(all).value);
    var block := RecalculatePrimary(dir, all).value[k];
    assert BlockOf(dir, cuts, k) == Ok(block);
    BlockPrimaries(dir, cuts, k, block);
  }

  lemma BlockPrimaries(dir: Directory, cuts: seq<string>, k: nat, block: seq<PrimaryEdit>)
    requires k + 1 < |cuts| && BlockOf(dir, cuts, k) == Ok(block)
    ensures var engs := dir.readAt(cuts[k]);
            && |block| == |engs|
            && (forall j :: 0 <= j < |block| ==> block[j].engagement == engs[j].uuid && block[j].validity == Interval(cuts, k))
            && PrimaryCount(block) == (if exists i :: 0 <= i < |engs| && engs[i].fraction > 0 then 1 else 0)
  {
    var engs := dir.readAt(cuts[k]);
    var rate := CalculateRateAndIds(engs).value;
    PrimaryExists(engs);
    PrimaryCountOfEdits(dir, engs, rate, Interval(cuts, k), block);
  }

  function PrimaryCount(block: seq<PrimaryEdit>): nat
  {
    if |block| == 0 then 0 else (if block[0].primary then 1 else 0) + PrimaryCount(block[1..])
  }

  lemma {:induction false} PrimaryCountOfEdits(dir: Directory, engs: seq<MoEngagement>, rate: Rate, v: Validity, block: seq<PrimaryEdit>)
    requires |block| == |engs|
    requires forall j :: 0 <= j < |engs| ==> block[j] == EditFor(dir, engs[j], rate, v)
    ensures PrimaryCount(block) == CountPrimary(engs, rate)
    decreases |engs|
  {
    if |engs| > 0 {
      PrimaryCountOfEdits(dir, engs[1..], rate, v, block[1..]);
    }
  }
  /** The boundary example: validities [2019-01-01, 2019-06-30]
      and [2019-04-01, open] cut time at 2019-01-01, 2019-04-01, 2019-07-01 and
      the open cut, giving three sub-intervals. */
  lemma BoundaryExample(a: MoEngagement, b: MoEngagement)
    requires a.validity == Validity("2019-01-01", Some("2019-06-30"))
    requires b.validity == Validity("2019-04-01", None)
    ensures CutList([a, b]).Ok?
    ensures SortedSet(CutList([a, b]).value) == ["2019-01-01", "2019-04-01", "2019-07-01", OpenCut]
    ensures var cuts := SortedSet(CutList([a, b]).value);
            && Interval(cuts, 0) == Validity("2019-01-01", Some("2019-04-01"))
            && Interval(cuts, 1) == Validity("2019-04-01", Some("2019-07-01"))
            && Interval(cuts, 2) == Validity("2019-07-01", None)
  {
    ExampleCuts(a, b);
    ExampleSort();
  }

  lemma ExampleEndCut()
    ensures CutAfter(Some("2019-06-30")) == Ok("2019-07-01")
  {
    var end := Dates.Date(2019, 6, 30);
    var next := Dates.Date(2019, 7, 1);
    Dates.ParseFormat(end);
    Dates.ParseFormat(next);
    assert Dates.Format(end) == "2019-06-30" by { Dates.FormatText(end); }
    assert Dates.Format(next) == "2019-07-01" by { Dates.FormatText(next); }
    assert Dates.DayAfter(end) == Some(next);
  }

  lemma ExampleCuts(a: MoEngagement, b: MoEngagement)
    requires a.validity == Validity("2019-01-01", Some("2019-06-30"))
    requires b.validity == Validity("2019-04-01", None)
    ensures CutList([a, b]) == Ok(["2019-01-01", "2019-07-01", "2019-04-01", OpenCut])
  {
    ExampleEndCut();
    CutsOfTwo(a, b, "2019-07-01");
  }

  /** Two engagements, the second open-ended, contribute their from dates and
      end cuts in engagement order. */
  lemma CutsOfTwo(a: MoEngagement, b: MoEngagement, endCut: string)
    requires CutAfter(a.validity.to) == Ok(endCut) && b.validity.to.None?
    ensures CutList([a, b]) == Ok([a.validity.from, endCut, b.validity.from, OpenCut])
  {
    assert [a, b][1..] == [b];
    assert [b][1..] == [];
    assert CutList([b]) == Ok([b.validity.from, OpenCut] + []);
    assert [b.validity.from, OpenCut] + [] == [b.validity.from, OpenCut];
    assert [a.validity.from, endCut] + [b.validity.from, OpenCut] == [a.validity.from, endCut, b.validity.from, OpenCut];
  }

  lemma ExampleOrder()
    ensures StrLess("2019-01-01", "2019-04-01") && !StrLess("2019-04-01", "2019-01-01")
    ensures StrLess("2019-04-01", "2019-07-01") && !StrLess("2019-07-01", "2019-04-01")
    ensures StrLess("2019-01-01", "2019-07-01") && !StrLess("2019-07-01", "2019-01-01")
    ensures StrLess("2019-07-01", OpenCut) && !StrLess(OpenCut, "2019-07-01")
    ensures StrLess("2019-04-01", OpenCut) && !StrLess(OpenCut, "2019-04-01")
    ensures StrLess("2019-01-01", OpenCut) && !StrLess(OpenCut, "2019-01-01")
  {
    assert StrLess("2019-01-01", "2019-04-01");
    assert StrLess("2019-04-01", "2019-07-01");
    assert StrLess("2019-07-01", OpenCut);
    StrLessTransitive("2019-01-01", "2019-04-01", "2019-07-01");
    StrLessTransitive("2019-04-01", "2019-07-01", OpenCut);
    StrLessTransitive("2019-01-01", "2019-04-01", OpenCut);
    StrLessAsymmetric("2019-01-01", "2019-04-01");
    StrLessAsymmetric("2019-04-01", "2019-07-01");
    StrLessAsymmetric("2019-01-01", "2019-07-01");
    StrLessAsymmetric("2019-07-01", OpenCut);
    StrLessAsymmetric("2019-04-01", OpenCut);
    StrLessAsymmetric("2019-01-01", OpenCut);
  }

  lemma ExampleSort()
    ensures SortedSet(["2019-01-01", "2019-07-01", "2019-04-01", OpenCut]) == ["2019-01-01", "2019-04-01", "2019-07-01", OpenCut]
  {
    ExampleOrder();
    SortFour("2019-01-01", "2019-04-01", "2019-07-01", OpenCut);
  }

  /** Four values in increasing order come out of the sort in that order,
      whatever order they went in as `a, c, b, d`. */
  lemma SortFour(a: string, b: string, c: string, d: string)
    requires StrLess(a, b) && StrLess(a, c) && StrLess(a, d)
    requires StrLess(b, c) && StrLess(b, d) && StrLess(c, d)
    ensures SortedSet([a, c, b, d]) == [a, b, c, d]
  {
    var ys := [a, b, c, d];
    assert StrictlySorted(ys) by {
      forall i, j | 0 <= i < j < |ys| ensures StrLess(ys[i], ys[j]) {
      }
    }
    SortedUnique(SortedSet([a, c, b, d]), ys);
  }
}

=== FILE: sd_records.dfy ===
/** The records the SD change-sync engine reads: SD-Løn employment changes on
    the source side and MO engagements on the directory side, together with the
    small pure steps over them (validity, job-id matching, date comparison). */
module SdRecords {
  import opened Common
  import opened Text
  import Dates

  // ---------------------------------------------------------------------------
  // Validity.

  /** A directory validity: `to` None means open-ended. */
  datatype Validity = Validity(from: string, to: Option<string>)

  /** The ActivationDate / DeactivationDate pair every SD entry carries. */
  datatype Span = Span(activation: string, deactivation: string)

  /** SD's marker for an open-ended entry. */
  const OpenEnded: string := "9999-12-31"

  /** `_validity`: an SD span as a directory validity. */
  function ToValidity(s: Span): (v: Validity)
    ensures v.from == s.activation
    ensures v.to.None? <==> s.deactivation == OpenEnded
  {
    Validity(s.activation, if s.deactivation == OpenEnded then None else Some(s.deactivation))
  }

  /** The SD deactivation date a validity stands for. */
  function Deactivation(v: Validity): string
  {
    match v.to
    case None => OpenEnded
    case Some(d) => d
  }

  /** `_validity` loses nothing: the SD span can be recovered from it. */
  lemma ValidityRoundTrip(s: Span)
    ensures Span(ToValidity(s).from, Deactivation(ToValidity(s))) == s
  {
  }

  /** Every open-ended validity comes from the open-ended marker and no other. */
  lemma ValidityOpenEnded(s: Span, t: Span)
    requires ToValidity(s).to.None? && ToValidity(t).to.None?
    ensures s.deactivation == t.deactivation
  {
  }

  // ---------------------------------------------------------------------------
  // SD-side records.

  /** An XML element that may be absent, single, or repeated. */
  datatype OneOrMany<T> = Absent | One(item: T) | Many(items: seq<T>)

  /** The `if not isinstance(x, list): x = [x]` normalisation, missing as []. */
  function AsList<T>(x: OneOrMany<T>): (r: seq<T>)
    ensures x.Absent? ==> r == []
    ensures x.One? ==> r == [x.item]
    ensures x.Many? ==> r == x.items
  {
    match x
    case Absent => []
    case One(i) => [i]
    case Many(s) => s
  }

  /** The normalisation is idempotent: a list it produced passes through it
      unchanged. Nothing is lost or invented: the result is empty exactly for a
      missing element, and a single element is the only entry. */
  lemma AsListNormalises<T>(x: OneOrMany<T>)
    ensures AsList(Many(AsList(x))) == AsList(x)
    ensures AsList(x) == [] <==> x.Absent? || (x.Many? && x.items == [])
    ensures x.One? ==> |AsList(x)| == 1 && x.item in AsList(x)
    ensures x.Many? ==> forall y :: y in AsList(x) <==> y in x.items
  {
  }

  datatype SdStatus = SdStatus(code: string, span: Span)
  datatype SdDepartment = SdDepartment(unit: string, span: Span)
  datatype SdProfession = SdProfession(name: string, span: Span)
  /** The occupation rate, already scaled to the directory's integer fraction. */
  datatype SdWorkingTime = SdWorkingTime(fraction: int, span: Span)

  datatype SdEmployment = SdEmployment(
    jobId: string,
    status: OneOrMany<SdStatus>,
    professions: OneOrMany<SdProfession>,
    departments: OneOrMany<SdDepartment>,
    workingTime: OneOrMany<SdWorkingTime>)

  datatype Components = Components(
    statuses: seq<SdStatus>,
    professions: seq<SdProfession>,
    departments: seq<SdDepartment>,
    workingTime: seq<SdWorkingTime>)

  /** `engagement_components`: every part of an employment as a list. */
  function EngagementComponents(e: SdEmployment): (c: Components)
    ensures |c.statuses| == (if e.status.Absent? then 0 else if e.status.One? then 1 else |e.status.items|)
    ensures forall s :: s in c.statuses <==> (e.status == One(s) || (e.status.Many? && s in e.status.items))
    ensures |c.professions| == (if e.professions.Absent? then 0 else if e.professions.One? then 1 else |e.professions.items|)
    ensures forall p :: p in c.professions <==> (e.professions == One(p) || (e.professions.Many? && p in e.professions.items))
    ensures |c.departments| == (if e.departments.Absent? then 0 else if e.departments.One? then 1 else |e.departments.items|)
    ensures forall d :: d in c.departments <==> (e.departments == One(d) || (e.departments.Many? && d in e.departments.items))
    ensures |c.workingTime| == (if e.workingTime.Absent? then 0 else if e.workingTime.One? then 1 else |e.workingTime.items|)
    ensures forall w :: w in c.workingTime <==> (e.workingTime == One(w) || (e.workingTime.Many? && w in e.workingTime.items))
  {
    Components(AsList(e.status), AsList(e.professions), AsList(e.departments), AsList(e.workingTime))
  }

  // ---------------------------------------------------------------------------
  // Directory-side records.

  datatype MoEngagement = MoEngagement(uuid: string, userKey: string, fraction: int, validity: Validity)

  // ---------------------------------------------------------------------------
  // Job-id matching (`_find_engagement`).

  /** The user_key an SD job id is looked up under: a numeric id is rewritten as
      `str(int(id)).zfill(5)`, any other id is used as it is. */
  function MatchKey(jobId: string): (r: string)
    ensures !IsDigits(jobId) ==> r == jobId
    ensures IsDigits(jobId) ==> |r| >= 5
  {
    if IsDigits(jobId) then ZFill(NatToDigits(DigitsValue(jobId)), 5) else jobId
  }

  /** A numeric key carries the same number as the id it came from. */
  lemma MatchKeyValue(jobId: string)
    requires IsDigits(jobId)
    ensures IsDigits(MatchKey(jobId)) && DigitsValue(MatchKey(jobId)) == DigitsValue(jobId)
  {
    var v := DigitsValue(jobId);
    var n := NatToDigits(v);
    var key := ZFill(n, 5);
    assert MatchKey(jobId) == key;
    var k := |key| - |n|;
    assert key == Zeros(k) + n;
    LeadingZerosValue(k, n);
    NatToDigitsValue(v);
    assert |key| > 0;
  }

  /** Two numeric ids look up the same key exactly when they denote the same
      number, so "123" and "00123" meet while "123" and "124" do not. */
  lemma MatchKeyNumeric(a: string, b: string)
    requires IsDigits(a) && IsDigits(b)
    ensures MatchKey(a) == MatchKey(b) <==> DigitsValue(a) == DigitsValue(b)
  {
    MatchKeyValue(a);
    MatchKeyValue(b);
  }

  /** "123" is looked up as "00123". */
  lemma MatchKeyPads()
    ensures MatchKey("123") == "00123"
  {
    assert "123"[..2] == "12" && "12"[..1] == "1";
    assert DigitsValue("123") == 123;
    assert NatToDigits(123) == "123";
    assert IsDigits("123");
    assert Zeros(2) == "00";
    ZerosThen();
  }

  lemma ZerosThen()
    ensures "00" + "123" == "00123"
  {
  }

  /** A zero-padded id keeps its key. */
  lemma MatchKeyPadded()
    ensures MatchKey("00123") == "00123"
  {
    ZerosThen();
    assert Zeros(2) == "00";
    LeadingZerosValue(2, "123");
    assert "123"[..2] == "12" && "12"[..1] == "1";
    assert DigitsValue("00123") == 123;
    assert NatToDigits(123) == "123";
  }

  /** "00123" and "123" meet at the same key; "A123" is used as it is. */
  lemma MatchKeyExamples()
    ensures MatchKey("123") == "00123"
    ensures MatchKey("00123") == "00123"
    ensures MatchKey("A123") == "A123"
  {
    MatchKeyPads();
    MatchKeyPadded();
    assert "A123"[0] == 'A';
  }

  /** The position of the last engagement stored under `key`. */
  function LastIndex(engagements: seq<MoEngagement>, key: string): (r: Option<nat>)
    ensures r.None? <==> forall i :: 0 <= i < |engagements| ==> engagements[i].userKey != key
    ensures r.Some? ==> r.value < |engagements| && engagements[r.value].userKey == key
    ensures r.Some? ==> forall j :: r.value < j < |engagements| ==> engagements[j].userKey != key
  {
    if |engagements| == 0 then None
    else if engagements[|engagements| - 1].userKey == key then Some(|engagements| - 1)
    else LastIndex(engagements[..|engagements| - 1], key)
  }

  /** The engagement `_find_engagement` returns: the LAST one whose user_key is
      the id's match key, None when there is none. */
  function FindEngagement(engagements: seq<MoEngagement>, jobId: string): (r: Option<MoEngagement>)
    ensures r.None? <==> forall i :: 0 <= i < |engagements| ==> engagements[i].userKey != MatchKey(jobId)
    ensures r.Some? ==> r.value in engagements && r.value.userKey == MatchKey(jobId)
  {
    match LastIndex(engagements, MatchKey(jobId))
    case None => None
    case Some(i) => Some(engagements[i])
  }

  /** The scan `_find_engagement` performs, front to back, overwriting earlier
      matches; it agrees with the last-match definition. */
  method FindEngagementScan(engagements: seq<MoEngagement>, jobId: string) returns (r: Option<MoEngagement>)
    ensures r.None? <==> forall i :: 0 <= i < |engagements| ==> engagements[i].userKey != MatchKey(jobId)
    ensures r.Some? ==> r.value in engagements && r.value.userKey == MatchKey(jobId)
    ensures r == FindEngagement(engagements, jobId)
  {
    var key := MatchKey(jobId);
    r := None;
    var k := 0;
    while k < |engagements|
      invariant 0 <= k <= |engagements|
      invariant r == FindEngagement(engagements[..k], jobId)
    {
      assert engagements[..k + 1][..k] == engagements[..k];
      if engagements[k].userKey == key {
        r := Some(engagements[k]);
      }
      k := k + 1;
    }
    assert engagements[..k] == engagements;
  }

  /** "123" and "00123" both find an engagement stored under "00123". */
  lemma FindPaddedExample(e: MoEngagement)
    requires e.userKey == "00123"
    ensures FindEngagement([e], "123") == Some(e)
    ensures FindEngagement([e], "00123") == Some(e)
  {
    MatchKeyExamples();
  }
}

=== FILE: text.dfy ===
/** Python string operations the modelled code relies on: ordering, digit
    strings, `zfill`, `find`, `replace`, `lower` and `strip`. */
module Text {

  // ---------------------------------------------------------------------------
  // Ordering: Python compares strings lexicographically by code point.

  /** Python's `a < b` on strings. */
  predicate StrLess(a: string, b: string)
  {
    if |a| == 0 then |b| > 0
    else if |b| == 0 then false
    else if a[0] != b[0] then a[0] < b[0]
    else StrLess(a[1..], b[1..])
  }

  lemma {:induction false} StrLessIrreflexive(a: string)
    ensures !StrLess(a, a)
  {
    if |a| > 0 {
      StrLessIrreflexive(a[1..]);
    }
  }

  lemma {:induction false} StrLessTransitive(a: string, b: string, c: string)
    requires StrLess(a, b) && StrLess(b, c)
    ensures StrLess(a, c)
  {
    if |a| > 0 && |b| > 0 && |c| > 0 && a[0] == b[0] && b[0] == c[0] {
      StrLessTransitive(a[1..], b[1..], c[1..]);
    }
  }

  lemma {:induction false} StrLessTotal(a: string, b: string)
    ensures a == b || StrLess(a, b) || StrLess(b, a)
  {
    if |a| > 0 && |b| > 0 && a[0] == b[0] {
      StrLessTotal(a[1..], b[1..]);
      if a[1..] == b[1..] {
        assert a == [a[0]] + a[1..] && b == [b[0]] + b[1..];
      }
    }
  }

  lemma {:induction false} StrLessAsymmetric(a: string, b: string)
    requires StrLess(a, b)
    ensures !StrLess(b, a)
  {
    if StrLess(b, a) {
      StrLessTransitive(a, b, a);
      StrLessIrreflexive(a);
    }
  }

  /** Comparing two strings that share an equal-length prefix decides on the
      prefixes first and on the rest only when the prefixes are equal. */
  lemma {:induction false} StrLessConcat(p: string, s: string, q: string, t: string)
    requires |p| == |q|
    ensures StrLess(p + s, q + t) <==> StrLess(p, q) || (p == q && StrLess(s, t))
    decreases |p|
  {
    if |p| > 0 {
      assert (p + s)[0] == p[0] && (q + t)[0] == q[0];
      assert (p + s)[1..] == p[1..] + s && (q + t)[1..] == q[1..] + t;
      StrLessConcat(p[1..], s, q[1..], t);
      if p[0] == q[0] && p[1..] == q[1..] {
        assert p == [p[0]] + p[1..] && q == [q[0]] + q[1..];
      }
    } else {
      assert p + s == s && q + t == t;
    }
  }

  // ---------------------------------------------------------------------------
  // Digit strings.

  predicate IsDigit(c: char) { '0' <= c <= '9' }

  /** A non-empty string of ASCII digits: what the model accepts as `int(s)`. */
  predicate IsDigits(s: string)
  {
    |s| > 0 && forall i :: 0 <= i < |s| ==> IsDigit(s[i])
  }

  function DigitChar(d: nat): char
    requires d < 10
  {
    ['0', '1', '2', '3', '4', '5', '6', '7', '8', '9'][d]
  }

  function DigitOf(c: char): nat
    requires IsDigit(c)
  {
    (c - '0') as nat
  }

  lemma DigitRoundTrip(d: nat)
    requires d < 10
    ensures IsDigit(DigitChar(d)) && DigitOf(DigitChar(d)) == d
  {
  }

  /** The decimal value of a string of digits (the empty string reads as 0). */
  function DigitsValue(s: string): nat
    requires forall i :: 0 <= i < |s| ==> IsDigit(s[i])
  {
    if |s| == 0 then 0 else DigitsValue(s[..|s| - 1]) * 10 + DigitOf(s[|s| - 1])
  }

  /** `str(n)`: the shortest decimal rendering of `n`. */
  function NatToDigits(n: nat): (r: string)
    ensures |r| > 0 && forall i :: 0 <= i < |r| ==> IsDigit(r[i])
    ensures |r| > 1 ==> r[0] != '0'
  {
    if n < 10 then [DigitChar(n)] else NatToDigits(n / 10) + [DigitChar(n % 10)]
  }

  lemma {:induction false} NatToDigitsValue(n: nat)
    ensures DigitsValue(NatToDigits(n)) == n
  {
    var r := NatToDigits(n);
    if n >= 10 {
      NatToDigitsValue(n / 10);
      assert r[..|r| - 1] == NatToDigits(n / 10);
    }
  }

  /** A string of `n` zero characters. */
  function Zeros(n: nat): (r: string)
    ensures |r| == n && forall i :: 0 <= i < n ==> r[i] == '0'
  {
    if n == 0 then "" else "0" + Zeros(n - 1)
  }

  /** Leading zeros do not change the value of a digit string. */
  lemma {:induction false} LeadingZerosValue(k: nat, s: string)
    requires forall i :: 0 <= i < |s| ==> IsDigit(s[i])
    ensures forall i :: 0 <= i < |Zeros(k) + s| ==> IsDigit((Zeros(k) + s)[i])
    ensures DigitsValue(Zeros(k) + s) == DigitsValue(s)
    decreases |s|
  {
    var z := Zeros(k) + s;
    assert forall i :: 0 <= i < |z| ==> IsDigit(z[i]) by {
      forall i | 0 <= i < |z| ensures IsDigit(z[i]) {
        if i < k { assert z[i] == '0'; } else { assert z[i] == s[i - k]; }
      }
    }
    if |s| == 0 {
      assert z == Zeros(k);
      ZerosValue(k);
    } else {
      assert z[..|z| - 1] == Zeros(k) + s[..|s| - 1];
      LeadingZerosValue(k, s[..|s| - 1]);
    }
  }

  lemma {:induction false} ZerosValue(k: nat)
    ensures DigitsValue(Zeros(k)) == 0
  {
    if k > 0 {
      assert Zeros(k)[..k - 1] == Zeros(k - 1) by {
        ZerosSnoc(k - 1);
      }
      ZerosValue(k - 1);
    }
  }

  lemma {:induction false} ZerosSnoc(k: nat)
    ensures Zeros(k + 1) == Zeros(k) + "0"
  {
    if k > 0 {
      ZerosSnoc(k - 1);
    }
  }

  /** Python's `s.zfill(w)` for a string without a sign: pad with '0' on the
      left up to width `w`. */
  function ZFill(s: string, w: nat): (r: string)
    ensures |r| == if |s| >= w then |s| else w
    ensures r == Zeros(|r| - |s|) + s
  {
    if |s| >= w then (assert Zeros(0) + s == s; s) else Zeros(w - |s|) + s
  }

  // ---------------------------------------------------------------------------
  // Searching.

  /** `sub` occurs in `s` starting at index `i`. */
  predicate OccursAt(s: string, sub: string, i: int)
  {
    0 <= i && i + |sub| <= |s| && s[i..i + |sub|] == sub
  }

  /** The first occurrence of `sub` in `s` at or after `i`, or -1. */
  function FindFrom(s: string, sub: string, i: nat): (r: int)
    ensures r == -1 || (i <= r && OccursAt(s, sub, r))
    ensures r == -1 ==> forall j :: i <= j ==> !OccursAt(s, sub, j)
    ensures r >= 0 ==> forall j :: i <= j < r ==> !OccursAt(s, sub, j)
    decreases |s| - i
  {
    if i + |sub| > |s| then -1
    else if s[i..i + |sub|] == sub then i
    else FindFrom(s, sub, i + 1)
  }

  /** Where `s.find(sub, start)` starts looking: a negative start counts from
      the end and is clamped at 0. */
  function FindStart(s: string, start: int): nat
  {
    if start < 0 then (if |s| + start < 0 then 0 else |s| + start) else start
  }

  /** Python's `s.find(sub, start)`: the first occurrence at or after the
      normalised start, and -1 exactly when there is none. */
  function Find(s: string, sub: string, start: int): (r: int)
    ensures r == -1 || (FindStart(s, start) <= r && OccursAt(s, sub, r))
    ensures r == -1 <==> forall j :: FindStart(s, start) <= j ==> !OccursAt(s, sub, j)
    ensures r >= 0 ==> forall j :: FindStart(s, start) <= j < r ==> !OccursAt(s, sub, j)
  {
    FindFrom(s, sub, FindStart(s, start))
  }

  /** The first occurrence at or after `from`, found. */
  lemma FindAt(s: string, sub: string, from: nat, r: nat)
    requires from <= r && OccursAt(s, sub, r)
    requires forall p :: from <= p < r ==> !OccursAt(s, sub, p)
    ensures Find(s, sub, from) == r
  {
  }

  /** A pattern holding a character the string lacks occurs nowhere. */
  lemma AbsentChar(s: string, sub: string, c: char)
    requires c in sub && c !in s
    ensures forall p :: !OccursAt(s, sub, p)
  {
  }

  /** Python's `s.replace(pat, repl)` for a non-empty `pat`: every
      non-overlapping occurrence, scanning left to right. */
  function ReplaceAll(s: string, pat: string, repl: string): (r: string)
    requires pat != ""
    ensures (forall j :: !OccursAt(s, pat, j)) ==> r == s
    decreases |s|
  {
    if |s| < |pat| then s
    else if s[..|pat|] == pat then
      assert OccursAt(s, pat, 0);
      repl + ReplaceAll(s[|pat|..], pat, repl)
    else
      var rest := ReplaceAll(s[1..], pat, repl);
      assert (forall j :: !OccursAt(s, pat, j)) ==> (forall j :: !OccursAt(s[1..], pat, j)) by {
        if forall j :: !OccursAt(s, pat, j) {
          forall j ensures !OccursAt(s[1..], pat, j) {
            if OccursAt(s[1..], pat, j) {
              assert s[j + 1..j + 1 + |pat|] == s[1..][j..j + |pat|];
              assert OccursAt(s, pat, j + 1);
            }
          }
        }
      }
      [s[0]] + rest
  }

  // ---------------------------------------------------------------------------
  // Case and whitespace.

  function LowerChar(c: char): char
  {
    if 'A' <= c <= 'Z' then (c - 'A' + 'a') as char else c
  }

  /** `s.lower()` on ASCII letters. */
  function Lower(s: string): (r: string)
    ensures |r| == |s| && forall i :: 0 <= i < |s| ==> r[i] == LowerChar(s[i])
  {
    seq(|s|, i requires 0 <= i < |s| => LowerChar(s[i]))
  }

  /** The characters Python's argument-less `strip()` removes (ASCII part). */
  predicate IsSpace(c: char)
  {
    c == ' ' || c == '\t' || c == '\n' || c == '\r' || c == '\U{000B}' || c == '\U{000C}'
  }

  /** `s.strip()` is empty. */
  predicate IsBlank(s: string)
  {
    forall i :: 0 <= i < |s| ==> IsSpace(s[i])
  }

  /** Python's `s.split(sep)` for a one-character separator. */
  function Split(s: string, sep: char): (r: seq<string>)
    ensures |r| > 0
    ensures forall k :: 0 <= k < |r| ==> sep !in r[k]
    decreases |s|
  {
    if |s| == 0 then [""]
    else
      var rest := Split(s[1..], sep);
      if s[0] == sep then [""] + rest else [[s[0]] + rest[0]] + rest[1..]
  }

  /** `Before` cuts at the first `c`. */
  lemma {:induction false} BeforeAt(s: string, c: char, k: nat)
    requires k < |s| && s[k] == c && forall j :: 0 <= j < k ==> s[j] != c
    ensures Before(s, c) == s[..k]
    decreases k
  {
    if k > 0 {
      var t := s[1..];
      assert t[k - 1] == c;
      assert forall j :: 0 <= j < k - 1 ==> t[j] == s[j + 1];
      BeforeAt(t, c, k - 1);
      assert Before(s, c) == [s[0]] + Before(t, c);
      assert s[..k] == [s[0]] + t[..k - 1];
    }
  }

  /** `sep.join(parts)` for a one-character separator. */
  function Join(parts: seq<string>, sep: char): string
    requires |parts| > 0
  {
    if |parts| == 1 then parts[0] else parts[0] + [sep] + Join(parts[1..], sep)
  }

  /** Joining the pieces of a split gives the string back. */
  lemma {:induction false} JoinSplit(s: string, sep: char)
    ensures Join(Split(s, sep), sep) == s
    decreases |s|
  {
    if |s| > 0 {
      var rest := Split(s[1..], sep);
      JoinSplit(s[1..], sep);
      if s[0] == sep {
        assert s == [sep] + s[1..];
      } else {
        var parts := [[s[0]] + rest[0]] + rest[1..];
        assert parts[1..] == rest[1..];
        assert s == [s[0]] + s[1..];
      }
    }
  }

  /** Splitting a string whose first piece has no separator. */
  lemma {:induction false} SplitPrefix(x: string, y: string, sep: char)
    requires sep !in x
    ensures Split(x + y, sep) == [x + Split(y, sep)[0]] + Split(y, sep)[1..]
    decreases |x|
  {
    if |x| > 0 {
      SplitPrefix(x[1..], y, sep);
      var ys := Split(y, sep);
      var rest := Split((x + y)[1..], sep);
      assert (x + y)[1..] == x[1..] + y;
      assert rest == [x[1..] + ys[0]] + ys[1..];
      assert rest[1..] == ys[1..];
      assert [x[0]] + rest[0] == x + ys[0];
    } else {
      var ys := Split(y, sep);
      assert x + y == y && x + ys[0] == ys[0];
      assert ys == [ys[0]] + ys[1..];
    }
  }

  /** Splitting a join gives the pieces back when none holds the separator. */
  lemma {:induction false} SplitJoin(parts: seq<string>, sep: char)
    requires |parts| > 0
    requires forall k :: 0 <= k < |parts| ==> sep !in parts[k]
    ensures Split(Join(parts, sep), sep) == parts
    decreases |parts|
  {
    if |parts| == 1 {
      SplitPrefix(parts[0], "", sep);
      assert parts[0] + "" == parts[0];
    } else {
      var tail := Join(parts[1..], sep);
      SplitJoin(parts[1..], sep);
      SplitPrefix(parts[0], [sep] + tail, sep);
      assert Split([sep] + tail, sep) == [""] + Split(tail, sep) by {
        assert ([sep] + tail)[1..] == tail;
      }
      assert parts[0] + [sep] + tail == parts[0] + ([sep] + tail);
      assert Join(parts, sep) == parts[0] + ([sep] + tail);
      assert ([""] + Split(tail, sep))[1..] == Split(tail, sep);
      assert parts[0] + "" == parts[0];
      assert Split(Join(parts, sep), sep) == [parts[0]] + Split(tail, sep);
      assert parts == [parts[0]] + parts[1..];
    }
  }

  /** A replacement that does not bring in a character leaves it out. */
  lemma {:induction false} ReplaceAllKeepsOut(s: string, pat: string, repl: string, c: char)
    requires pat != "" && c !in s && c !in repl
    ensures c !in ReplaceAll(s, pat, repl)
    decreases |s|
  {
    if |s| >= |pat| {
      if s[..|pat|] == pat {
        ReplaceAllKeepsOut(s[|pat|..], pat, repl, c);
      } else {
        ReplaceAllKeepsOut(s[1..], pat, repl, c);
      }
    }
  }

  /** Everything before the first `c`, or the whole string: `line[0:line.find(c)]`
      when `c` occurs. */
  function Before(s: string, c: char): (r: string)
    ensures c !in r && |r| <= |s|
    ensures c !in s ==> r == s
    ensures c in s ==> |r| < |s| && r + s[|r|..] == s && s[|r|] == c
  {
    if |s| == 0 then ""
    else if s[0] == c then ""
    else [s[0]] + Before(s[1..], c)
  }
}

=== FILE: utilities.dfy ===
/** The import bookkeeping of `ImportUtility` (`utilities.py`): the
    inserted-uuid maps, the resolution of a detail's references through them,
    the organisation-unit and klasse imports, and the integration-data
    handshake that reuses the uuid of an object imported earlier.

    The HTTP calls are parameters: `insert` stands for `insert_mora_data` /
    `insert_mox_data` and returns the uuid the service answers with;
    `search` stands for the integration-data query and returns its hits. */
module Utilities {
  import opened Common
  import opened Json
  import opened MoraDataTypes

  /** The importer's state. The maps send a user reference to the uuid the
      object was inserted under. */
  datatype Importer = Importer(
    systemName: string, endMarker: string, storeIntegrationData: bool,
    organisationUuid: Json, dateFrom: Json, dateTo: Json,
    existingUuids: seq<Json>,
    facetMap: map<string, Json>, klasseMap: map<string, Json>,
    itsystemMap: map<string, Json>, orgUnitMap: map<string, Json>)

  /** `m.get(ref)`: references are strings, so anything else is never a key. */
  function MapGet(m: map<string, Json>, ref: Json): Json
  {
    if ref.Str? && ref.s in m then m[ref.s] else Null
  }

  // ---------------------------------------------------------------------------
  // Type guards

  /** The classes the `import_*` entry points accept. The LoRa (mox) classes
      are known here only by name. */
  datatype Kind =
    | OrganisationKind | KlassifikationKind | FacetKind | KlasseKind | ItsystemKind
    | OrgUnitKind | EmployeeKind | DetailKind

  /** The `import_*` entry points that start with a type guard. */
  datatype Entry =
    | ImportOrganisation | ImportKlassifikation | ImportFacet | ImportKlasse
    | ImportItsystem | ImportOrgUnitEntry | ImportEmployee

  function Accepts(e: Entry): Kind
  {
    match e
    case ImportOrganisation => OrganisationKind
    case ImportKlassifikation => KlassifikationKind
    case ImportFacet => FacetKind
    case ImportKlasse => KlasseKind
    case ImportItsystem => ItsystemKind
    case ImportOrgUnitEntry => OrgUnitKind
    case ImportEmployee => EmployeeKind
  }

  /** The message of each guard; the klasse import reuses the facet text. */
  function GuardMessage(e: Entry): string
  {
    match e
    case ImportOrganisation => "Not of type Organisation"
    case ImportKlassifikation => "Not of type Klassifikation"
    case ImportFacet => "Not of type Facet"
    case ImportKlasse => "Not of type Facet"
    case ImportItsystem => "Not of type Itsystem"
    case ImportOrgUnitEntry => "Not of type OrganisationUnitType"
    case ImportEmployee => "Not of type EmployeeType"
  }

  /** The class of an MO object, as the guards see it. */
  function KindOf(o: MoObject): Kind
  {
    match o
    case OrgUnit(_, _, _, _, _, _, _, _) => OrgUnitKind
    case Employee(_, _, _, _, _, _) => EmployeeKind
    case _ => DetailKind
  }

  /** The `isinstance` check at the head of each import. */
  function TypeGuard(e: Entry, k: Kind): (r: Result<()>)
    ensures r.Ok? <==> k == Accepts(e)
    ensures r.Err? ==> r.error == TypeError(GuardMessage(e))
  {
    if k == Accepts(e) then Ok(()) else Err(TypeError(GuardMessage(e)))
  }

  /** Every class passes at most one guard, and no import accepts a detail. */
  lemma GuardsPartition(e1: Entry, e2: Entry, k: Kind)
    ensures TypeGuard(e1, k).Ok? && TypeGuard(e2, k).Ok? ==> e1 == e2
    ensures TypeGuard(e1, DetailKind).Err?
  {
  }

  // ---------------------------------------------------------------------------
  // Integration data

  /** What the integration-data query finds: the uuids of matching objects and,
      for a single match, the integration data already stored on it. */
  datatype Search = Search(hits: seq<Json>, stored: Json)

  /** The payload after the handshake, and the importer with its list of
      uuids found to exist. */
  datatype Tagged = Tagged(st: Importer, payload: Payload)

  /** `{system_name: reference + end_marker}`, the label stored on an import. */
  function Label(st: Importer, reference: string): Json
  {
    Obj(map[st.systemName := Str(reference + st.endMarker)])
  }

  /** The integration data as stored: JSON text or the dict itself. */
  function Stamp(v: Json, encode: bool, dumps: Json -> string): Json
  {
    if encode then Str(dumps(v)) else v
  }

  /** The query as written: a constant pattern that never mentions the
      object being imported. */
  function QueryAsWritten(st: Importer, reference: string, dumps: Json -> string): (q: string)
    ensures q == "%{}%"
  {
    "%{}%"
  }

  /** Python's `s[1:-1]`. */
  function Inner(s: string): (r: string)
    ensures |s| >= 2 ==> s == [s[0]] + r + [s[|s| - 1]]
  {
    if |s| >= 2 then s[1..|s| - 1] else ""
  }

  /** The query evidently intended: the label's JSON text without its braces,
      between `%` wildcards. */
  function Query(st: Importer, reference: string, dumps: Json -> string): (q: string)
    ensures |q| >= 2 && q[0] == '%' && q[|q| - 1] == '%'
    ensures q[1..|q| - 1] == Inner(dumps(Label(st, reference)))
  {
    "%" + Inner(dumps(Label(st, reference))) + "%"
  }

  /** `_integration_data` with the query it sends as a parameter. */
  function IntegrationDataWith(st: Importer, query: string, reference: string, payload: Payload,
                               encode: bool, dumps: Json -> string, search: string -> Search): (r: Result<Tagged>)
    ensures !st.storeIntegrationData ==> r == Ok(Tagged(st, payload))
    ensures st.storeIntegrationData && |search(query).hits| > 1 ==> r == Err(ValueError("Inconsistent integration data!"))
    ensures st.storeIntegrationData && |search(query).hits| == 0
            ==> r.Ok? && r.value.st == st
                && r.value.payload == payload[IntegrationDataKey := Stamp(Label(st, reference), encode, dumps)]
    ensures st.storeIntegrationData && |search(query).hits| == 1
            ==> (r.Ok? <==> (UuidKey in payload ==> payload[UuidKey] == search(query).hits[0]))
    ensures st.storeIntegrationData && |search(query).hits| == 1 && r.Ok?
            ==> UuidKey in r.value.payload && r.value.payload[UuidKey] == search(query).hits[0]
                && IntegrationDataKey in r.value.payload && r.value.payload[IntegrationDataKey] == Stamp(search(query).stored, encode, dumps)
                && r.value.st == st.(existingUuids := st.existingUuids + [search(query).hits[0]])
    ensures r.Ok? ==> forall k :: k in payload && k != UuidKey && k != IntegrationDataKey
                                  ==> k in r.value.payload && r.value.payload[k] == payload[k]
    ensures r.Ok? ==> forall k :: k in r.value.payload && k != UuidKey && k != IntegrationDataKey ==> k in payload
    ensures r.Err? ==> st.storeIntegrationData && |search(query).hits| >= 1
  {
    if !st.storeIntegrationData then Ok(Tagged(st, payload))
    else
      var found := search(query);
      if |found.hits| == 0 then
        Ok(Tagged(st, payload[IntegrationDataKey := Stamp(Label(st, reference), encode, dumps)]))
      else if |found.hits| == 1 then
        var u := found.hits[0];
        if UuidKey in payload && payload[UuidKey] != u then
          Err(AssertionError("payload uuid differs from the integration uuid"))
        else
          Ok(Tagged(st.(existingUuids := st.existingUuids + [u]),
                    payload[UuidKey := u][IntegrationDataKey := Stamp(found.stored, encode, dumps)]))
      else Err(ValueError("Inconsistent integration data!"))
  }

  /** `_integration_data` as written: whatever the object, the answer of
      the one constant search decides, so a single hit hands its uuid to every
      object imported with storing on. */
  function IntegrationDataAsWritten(st: Importer, reference: string, payload: Payload, encode: bool,
                                    dumps: Json -> string, search: string -> Search): (r: Result<Tagged>)
    ensures !st.storeIntegrationData ==> r == Ok(Tagged(st, payload))
    ensures st.storeIntegrationData && |search("%{}%").hits| > 1 ==> r == Err(ValueError("Inconsistent integration data!"))
    ensures st.storeIntegrationData && |search("%{}%").hits| == 1 && r.Ok?
            ==> UuidKey in r.value.payload && r.value.payload[UuidKey] == search("%{}%").hits[0]
  {
    IntegrationDataWith(st, QueryAsWritten(st, reference, dumps), reference, payload, encode, dumps, search)
  }

  /** `_integration_data` with the intended query; the imports below use it.
      The search for this object's own label decides: no hit stores the label,
      one hit hands over its uuid, more are inconsistent. */
  function IntegrationData(st: Importer, reference: string, payload: Payload, encode: bool,
                           dumps: Json -> string, search: string -> Search): (r: Result<Tagged>)
    ensures !st.storeIntegrationData ==> r == Ok(Tagged(st, payload))
    ensures st.storeIntegrationData && |search(Query(st, reference, dumps)).hits| > 1
            ==> r == Err(ValueError("Inconsistent integration data!"))
    ensures st.storeIntegrationData && |search(Query(st, reference, dumps)).hits| == 0
            ==> r.Ok? && r.value.payload == payload[IntegrationDataKey := Stamp(Label(st, reference), encode, dumps)]
    ensures st.storeIntegrationData && |search(Query(st, reference, dumps)).hits| == 1 && r.Ok?
            ==> UuidKey in r.value.payload && r.value.payload[UuidKey] == search(Query(st, reference, dumps)).hits[0]
  {
    IntegrationDataWith(st, Query(st, reference, dumps), reference, payload, encode, dumps, search)
  }

  /** As written, every reference sends the same query, so every object sees
      the hits of the same search. */
  lemma QueryIgnoresReference(st: Importer, r1: string, r2: string, dumps: Json -> string)
    ensures QueryAsWritten(st, r1, dumps) == QueryAsWritten(st, r2, dumps)
  {
  }

  /** As written, two different objects imported with storing on both receive
      the uuid of the single object the constant query finds. */
  lemma SharedUuidAsWritten(st: Importer, r1: string, r2: string, dumps: Json -> string,
                            search: string -> Search, u: Json)
    requires st.storeIntegrationData && search("%{}%").hits == [u]
    ensures IntegrationDataAsWritten(st, r1, map[], false, dumps, search).Ok?
    ensures IntegrationDataAsWritten(st, r2, map[], false, dumps, search).Ok?
    ensures IntegrationDataAsWritten(st, r1, map[], false, dumps, search).value.payload[UuidKey] == u
    ensures IntegrationDataAsWritten(st, r2, map[], false, dumps, search).value.payload[UuidKey] == u
  {
  }

  /** With the intended query, different references send different queries,
      provided the JSON encoder is injective and wraps each dict in braces. */
  lemma QueryDistinguishes(st: Importer, r1: string, r2: string, dumps: Json -> string)
    requires forall a: Json, b: Json :: dumps(a) == dumps(b) ==> a == b
    requires forall v: Json :: |dumps(v)| >= 2 && dumps(v)[0] == '{' && dumps(v)[|dumps(v)| - 1] == '}'
    requires r1 != r2
    ensures Query(st, r1, dumps) != Query(st, r2, dumps)
  {
    if Query(st, r1, dumps) == Query(st, r2, dumps) {
      QueryInjective(st, r1, r2, dumps);
    }
  }

  lemma QueryInjective(st: Importer, r1: string, r2: string, dumps: Json -> string)
    requires forall a: Json, b: Json :: dumps(a) == dumps(b) ==> a == b
    requires forall v: Json :: |dumps(v)| >= 2 && dumps(v)[0] == '{' && dumps(v)[|dumps(v)| - 1] == '}'
    requires Query(st, r1, dumps) == Query(st, r2, dumps)
    ensures r1 == r2
  {
    var d1 := dumps(Label(st, r1));
    var d2 := dumps(Label(st, r2));
    var q := Query(st, r1, dumps);
    assert q == "%" + Inner(d1) + "%" && q == "%" + Inner(d2) + "%";
    assert Inner(d1) == q[1..|q| - 1] == Inner(d2);
    assert d1 == [d1[0]] + Inner(d1) + [d1[|d1| - 1]];
    assert d2 == [d2[0]] + Inner(d2) + [d2[|d2| - 1]];
    assert d1 == d2;
    assert Label(st, r1) == Label(st, r2);
    assert Label(st, r1).fields[st.systemName] == Str(r1 + st.endMarker);
    assert Label(st, r2).fields[st.systemName] == Str(r2 + st.endMarker);
    assert r1 == (r1 + st.endMarker)[..|r1|];
    assert r2 == (r2 + st.endMarker)[..|r2|];
  }

  /** Running the handshake again on its own result changes nothing more in
      the payload: the uuid it set now agrees with the search. */
  lemma IntegrationDataIdempotent(st: Importer, reference: string, payload: Payload, encode: bool,
                                  dumps: Json -> string, search: string -> Search)
    requires IntegrationData(st, reference, payload, encode, dumps, search).Ok?
    ensures var t := IntegrationData(st, reference, payload, encode, dumps, search).value;
            var t2 := IntegrationData(t.st, reference, t.payload, encode, dumps, search);
            t2.Ok? && t2.value.payload == t.payload
  {
    var t := IntegrationData(st, reference, payload, encode, dumps, search).value;
    if st.storeIntegrationData {
      var q := Query(st, reference, dumps);
      assert Label(t.st, reference) == Label(st, reference);
      assert Query(t.st, reference, dumps) == q;
      var found := search(q);
      if |found.hits| == 0 {
        assert t.st == st;
      } else {
        var u := found.hits[0];
        var p := t.payload;
        assert p == payload[UuidKey := u][IntegrationDataKey := Stamp(found.stored, encode, dumps)];
        RestampUnchanged(p, u, Stamp(found.stored, encode, dumps));
      }
    }
  }

  /** Writing back the uuid and stamp a payload already holds leaves it as it was. */
  lemma RestampUnchanged(p: Payload, u: Json, stamp: Json)
    requires UuidKey in p && p[UuidKey] == u && IntegrationDataKey in p && p[IntegrationDataKey] == stamp
    ensures p[UuidKey := u][IntegrationDataKey := stamp] == p
  {
  }

  // ---------------------------------------------------------------------------
  // Details

  /** Detail types `build_detail` skips. */
  predicate Blacklisted(o: MoObject)
  {
    o.base.typeId == Str("address") || o.base.typeId == Str("leave")
  }

  /** `[klasse_map[ref] for ref in refs]`: every reference must be known. */
  function ResolveAll(m: map<string, Json>, refs: seq<Json>): (r: Result<seq<Json>>)
    ensures r.Ok? <==> forall i :: 0 <= i < |refs| ==> refs[i].Str? && refs[i].s in m
    ensures r.Err? ==> r.error.KeyError?
    ensures r.Ok? ==> |r.value| == |refs| && forall i :: 0 <= i < |refs| ==> r.value[i] == m[refs[i].s]
  {
    if refs == [] then Ok([])
    else if !(refs[0].Str? && refs[0].s in m) then Err(KeyError("unknown responsibility reference"))
    else
      var rest :- ResolveAll(m, refs[1..]);
      Ok([m[refs[0].s]] + rest)
  }

  /** The reference resolution of `build_detail`: each attribute the object
      has is looked up in the matching map. */
  function Resolve(st: Importer, o: MoObject): (r: Result<MoObject>)
    ensures r.Err? <==> o.Manager? && ResolveAll(st.klasseMap, o.responsibilityList).Err?
    ensures r.Err? ==> r.error.KeyError?
    ensures o.Employee? ==> r == Ok(o)
    ensures r.Ok? ==> r.value.base.typeId == o.base.typeId && r.value.base.uuid == o.base.uuid
    ensures r.Ok? && (o.Engagement? || o.Association? || o.Role? || o.Manager?)
            ==> r.value.base.orgUnitUuid == MapGet(st.orgUnitMap, o.orgUnitRef)
    ensures r.Ok? && o.Manager? ==> r.value.Manager? && r.value.responsibilities == ResolveAll(st.klasseMap, o.responsibilityList).value
  {
    match o
    case Address(b, v, t, _, vis, visUuid, _) =>
      Ok(Address(b, v, t, MapGet(st.klasseMap, t), vis, visUuid, st.organisationUuid))
    case Engagement(b, unit, t, _, job, _) =>
      Ok(Engagement(b.(orgUnitUuid := MapGet(st.orgUnitMap, unit)), unit, t, MapGet(st.klasseMap, t),
                    job, MapGet(st.klasseMap, job)))
    case Association(b, unit, job, _, t, _, addr, addrType, _) =>
      Ok(Association(b.(orgUnitUuid := MapGet(st.orgUnitMap, unit)), unit, job, MapGet(st.klasseMap, job),
                     t, MapGet(st.klasseMap, t), addr, addrType, MapGet(st.klasseMap, addrType)))
    case Itsystem(b, key, it, _) =>
      Ok(Itsystem(b, key, it, MapGet(st.itsystemMap, it)))
    case Leave(b, t, _) =>
      Ok(Leave(b, t, MapGet(st.klasseMap, t)))
    case Role(b, unit, t, _) =>
      Ok(Role(b.(orgUnitUuid := MapGet(st.orgUnitMap, unit)), unit, t, MapGet(st.klasseMap, t)))
    case Manager(b, unit, t, _, level, _, refs, _, addr, addrType, _) =>
      var resolved :- ResolveAll(st.klasseMap, refs);
      Ok(Manager(b.(orgUnitUuid := MapGet(st.orgUnitMap, unit)), unit, t, MapGet(st.klasseMap, t),
                 level, MapGet(st.klasseMap, level), refs, resolved, addr, addrType, MapGet(st.klasseMap, addrType)))
    case OrgUnit(b, name, key, parent, parentUuid, t, _, details) =>
      Ok(OrgUnit(b, name, key, parent, parentUuid, t, MapGet(st.klasseMap, t), details))
    case Employee(_, _, _, _, _, _) => Ok(o)
  }

  /** `build_detail`: skipped types give no payload; otherwise the validity
      is overwritten with the given dates, the references are resolved and the
      detail is built. */
  function BuildDetail(st: Importer, o: MoObject, dateFrom: Json, dateTo: Json): (r: Result<Option<Payload>>)
    ensures Blacklisted(o) ==> r == Ok(None)
    ensures !Blacklisted(o) && r.Ok? ==> r.value.Some? && ValidityKey in r.value.value && r.value.value[ValidityKey] == Validity(dateFrom, dateTo)
    ensures o.Manager? && !Blacklisted(o)
            ==> (r.Err? && r.error.KeyError? <==>
                 exists i :: 0 <= i < |o.responsibilityList| && !(o.responsibilityList[i].Str? && o.responsibilityList[i].s in st.klasseMap))
  {
    if Blacklisted(o) then Ok(None)
    else
      var dated := o.(base := o.base.(dateFrom := dateFrom, dateTo := dateTo));
      var resolved :- Resolve(st, dated);
      var payload :- Build(resolved);
      Ok(Some(payload))
  }

  /** An engagement detail builds exactly when its unit, job function and
      engagement type references are all known (with truthy uuids), and its
      payload carries the resolved uuids. */
  lemma EngagementDetail(st: Importer, o: MoObject, dateFrom: Json, dateTo: Json)
    requires o.Engagement? && !Blacklisted(o)
    ensures var r := BuildDetail(st, o, dateFrom, dateTo);
            r.Ok? <==> (Truthy(MapGet(st.orgUnitMap, o.orgUnitRef)) && o.base.payload.Dict?
                        && Truthy(MapGet(st.klasseMap, o.jobFunctionRef)) && Truthy(MapGet(st.klasseMap, o.typeRef)))
    ensures var r := BuildDetail(st, o, dateFrom, dateTo);
            r.Ok? ==> r.value.value[OrgUnitKey] == UuidRef(MapGet(st.orgUnitMap, o.orgUnitRef))
                      && r.value.value[JobFunctionKey] == UuidRef(MapGet(st.klasseMap, o.jobFunctionRef))
                      && r.value.value[EngagementTypeKey] == UuidRef(MapGet(st.klasseMap, o.typeRef))
  {
  }

  /** An association detail needs its unit, job function and association
      type; the address type goes through the klasse map as well. */
  lemma AssociationDetail(st: Importer, o: MoObject, dateFrom: Json, dateTo: Json)
    requires o.Association? && !Blacklisted(o)
    ensures var r := BuildDetail(st, o, dateFrom, dateTo);
            r.Ok? <==> (Truthy(MapGet(st.orgUnitMap, o.orgUnitRef)) && Truthy(MapGet(st.klasseMap, o.jobFunctionRef))
                        && Truthy(MapGet(st.klasseMap, o.typeRef)))
    ensures var r := BuildDetail(st, o, dateFrom, dateTo);
            r.Ok? && Truthy(o.addressUuid)
            ==> r.value.value[AddressKey] == AddressEntry(o.addressUuid, MapGet(st.klasseMap, o.addressTypeRef))
  {
  }

  /** An it-system detail resolves through the it-system map. */
  lemma ItsystemDetail(st: Importer, o: MoObject, dateFrom: Json, dateTo: Json)
    requires o.Itsystem? && !Blacklisted(o)
    ensures var r := BuildDetail(st, o, dateFrom, dateTo);
            (r.Ok? <==> Truthy(MapGet(st.itsystemMap, o.itsystemRef)))
            && (r.Ok? ==> r.value.value[ItsystemKey] == UuidRef(MapGet(st.itsystemMap, o.itsystemRef)))
  {
  }

  /** A manager detail resolves its responsibilities element by element, in
      order; an unknown one is a KeyError. */
  lemma ManagerDetail(st: Importer, o: MoObject, dateFrom: Json, dateTo: Json)
    requires o.Manager? && !Blacklisted(o)
    requires forall i :: 0 <= i < |o.responsibilityList| ==> o.responsibilityList[i].Str? && o.responsibilityList[i].s in st.klasseMap
    ensures var r := BuildDetail(st, o, dateFrom, dateTo);
            r.Ok? && |r.value.value[ResponsibilityKey].items| == |o.responsibilityList|
            && forall i :: 0 <= i < |o.responsibilityList|
                 ==> r.value.value[ResponsibilityKey].items[i] == UuidRef(st.klasseMap[o.responsibilityList[i].s])
  {
  }

  /** A role detail always builds; an unknown unit leaves None in its entry. */
  lemma RoleDetail(st: Importer, o: MoObject, dateFrom: Json, dateTo: Json)
    requires o.Role? && !Blacklisted(o)
    ensures var r := BuildDetail(st, o, dateFrom, dateTo);
            r.Ok? && r.value.value[OrgUnitKey] == UuidRef(MapGet(st.orgUnitMap, o.orgUnitRef))
            && r.value.value[RoleTypeKey] == UuidRef(MapGet(st.klasseMap, o.typeRef))
  {
  }

  // ---------------------------------------------------------------------------
  // Organisation units

  /** A detail's start date: its own when truthy, else the unit's. */
  function DetailFrom(d: MoObject, unit: MoObject): Json
  {
    if Truthy(d.base.dateFrom) then d.base.dateFrom else unit.base.dateFrom
  }

  /** The details loop of `import_org_unit`: one entry per detail, None for a
      skipped one; the first failing detail aborts the import. */
  function BuildDetails(st: Importer, details: seq<MoObject>, unit: MoObject): (r: Result<seq<Option<Payload>>>)
    ensures r.Ok? ==> |r.value| == |details|
    ensures r.Ok? ==> forall i :: 0 <= i < |details| ==> (r.value[i].None? <==> Blacklisted(details[i]))
    ensures r.Ok? ==> forall i :: 0 <= i < |details| && r.value[i].Some?
                        ==> ValidityKey in r.value[i].value && r.value[i].value[ValidityKey] == Validity(DetailFrom(details[i], unit), unit.base.dateTo)
  {
    if details == [] then Ok([])
    else
      var first :- BuildDetail(st, details[0], DetailFrom(details[0], unit), unit.base.dateTo);
      var rest :- BuildDetails(st, details[1..], unit);
      Ok([first] + rest)
  }

  /** The built payloads of a details loop, in order. */
  function Somes(xs: seq<Option<Payload>>): (r: seq<Payload>)
    ensures |r| <= |xs|
  {
    if xs == [] then []
    else (if xs[0].Some? then [xs[0].value] else []) + Somes(xs[1..])
  }

  /** The parent a new unit gets: the unit inserted under its parent
      reference when that is known with a truthy uuid, else a parent uuid the
      object already held (only without a parent reference), else the
      organisation. */
  function ParentOf(st: Importer, unit: MoObject): Json
    requires unit.OrgUnit?
  {
    if Truthy(unit.parentRef) && Truthy(MapGet(st.orgUnitMap, unit.parentRef)) then MapGet(st.orgUnitMap, unit.parentRef)
    else if !Truthy(unit.parentRef) && Truthy(unit.parentUuid) then unit.parentUuid
    else st.organisationUuid
  }

  /** What `import_org_unit` leaves behind: the importer, its return value
      (False or the new uuid), the unit object with its collected details,
      and the payload posted, if any. */
  datatype UnitImport = UnitImport(st: Importer, result: Json, unit: MoObject, posted: Option<Payload>)

  /** The unit with its parent and unit type resolved. */
  function Placed(st: Importer, unit: MoObject): (u: MoObject)
    requires unit.OrgUnit?
    ensures u.OrgUnit? && u.parentUuid == ParentOf(st, unit) && u.typeRefUuid == MapGet(st.klasseMap, unit.typeRef)
    ensures u == unit.(parentUuid := u.parentUuid, typeRefUuid := u.typeRefUuid)
  {
    var parent0 := if Truthy(unit.parentRef) then MapGet(st.orgUnitMap, unit.parentRef) else unit.parentUuid;
    var parent := if Truthy(parent0) then parent0 else st.organisationUuid;
    unit.(parentUuid := parent, typeRefUuid := MapGet(st.klasseMap, unit.typeRef))
  }

  /** The posted payload, the uuid the service answered with, and the
      importer that records it. */
  datatype Inserted = Inserted(st: Importer, uuid: Json, posted: Payload)

  /** The tail of `import_org_unit`: handshake, insert, the uuid checks, and
      recording the new uuid under the reference. */
  function InsertUnit(st: Importer, reference: string, payload: Payload,
                      dumps: Json -> string, search: string -> Search, insert: Payload -> Json): (r: Result<Inserted>)
    ensures r.Ok? ==> && Truthy(r.value.uuid) && r.value.uuid == insert(r.value.posted)
                      && r.value.st.orgUnitMap == st.orgUnitMap[reference := r.value.uuid]
                      && r.value.st.klasseMap == st.klasseMap && r.value.st.facetMap == st.facetMap
                      && r.value.st.itsystemMap == st.itsystemMap
    ensures r.Ok? ==> forall k :: k in payload && k != UuidKey && k != IntegrationDataKey
                                  ==> k in r.value.posted && r.value.posted[k] == payload[k]
  {
    var tagged :- IntegrationData(st, reference, payload, false, dumps, search);
    var uuid := insert(tagged.payload);
    if UuidKey in tagged.payload && uuid != tagged.payload[UuidKey] then
      Err(AssertionError("inserted uuid differs from the integration uuid"))
    else if !Truthy(uuid) then Err(ConnectionError("Something went wrong"))
    else Ok(Inserted(tagged.st.(orgUnitMap := tagged.st.orgUnitMap[reference := uuid]), uuid, tagged.payload))
  }

  /** `import_org_unit`. */
  function ImportOrgUnit(st: Importer, reference: string, unit: MoObject, details: seq<MoObject>,
                         dumps: Json -> string, search: string -> Search, insert: Payload -> Json): (r: Result<UnitImport>)
    ensures !unit.OrgUnit? ==> r == Err(TypeError(GuardMessage(ImportOrgUnitEntry)))
    ensures unit.OrgUnit? && reference in st.orgUnitMap ==> r == Ok(UnitImport(st, Bool(false), unit, None))
    ensures r.Ok? && reference !in st.orgUnitMap
            ==> && r.value.posted.Some?
                && Truthy(r.value.result)
                && r.value.result == insert(r.value.posted.value)
                && r.value.st.orgUnitMap == st.orgUnitMap[reference := r.value.result]
                && r.value.st.klasseMap == st.klasseMap && r.value.st.facetMap == st.facetMap
                && r.value.st.itsystemMap == st.itsystemMap
    ensures r.Ok? && reference !in st.orgUnitMap
            ==> && ParentKey in r.value.posted.value
                && r.value.posted.value[ParentKey] == UuidRef(ParentOf(st, unit))
                && OrgUnitTypeKey in r.value.posted.value
                && r.value.posted.value[OrgUnitTypeKey] == UuidRef(MapGet(st.klasseMap, unit.typeRef))
    ensures r.Ok? && reference !in st.orgUnitMap && unit.OrgUnit? && r.value.unit.OrgUnit?
            ==> |unit.details| <= |r.value.unit.details| && r.value.unit.details[..|unit.details|] == unit.details
  {
    if !unit.OrgUnit? then Err(TypeError(GuardMessage(ImportOrgUnitEntry)))
    else if reference in st.orgUnitMap then Ok(UnitImport(st, Bool(false), unit, None))
    else ImportNewUnit(st, reference, unit, details, dumps, search, insert)
  }

  /** `import_org_unit` past its guards: a unit not imported before. */
  function ImportNewUnit(st: Importer, reference: string, unit: MoObject, details: seq<MoObject>,
                         dumps: Json -> string, search: string -> Search, insert: Payload -> Json): (r: Result<UnitImport>)
    requires unit.OrgUnit? && reference !in st.orgUnitMap
    ensures r.Ok? ==> && r.value.posted.Some?
                      && Truthy(r.value.result)
                      && r.value.result == insert(r.value.posted.value)
                      && r.value.st.orgUnitMap == st.orgUnitMap[reference := r.value.result]
                      && r.value.st.klasseMap == st.klasseMap && r.value.st.facetMap == st.facetMap
                      && r.value.st.itsystemMap == st.itsystemMap
    ensures r.Ok? ==> && ParentKey in r.value.posted.value
                      && r.value.posted.value[ParentKey] == UuidRef(ParentOf(st, unit))
                      && OrgUnitTypeKey in r.value.posted.value
                      && r.value.posted.value[OrgUnitTypeKey] == UuidRef(MapGet(st.klasseMap, unit.typeRef))
    ensures r.Ok? ==> && r.value.unit.OrgUnit? && |unit.details| <= |r.value.unit.details|
                      && r.value.unit.details[..|unit.details|] == unit.details
  {
    var built :- BuildUnit(st, unit, details);
    var done :- InsertUnit(st, reference, built.payload, dumps, search, insert);
    assert done.posted[ParentKey] == built.payload[ParentKey];
    assert done.posted[OrgUnitTypeKey] == built.payload[OrgUnitTypeKey];
    Ok(UnitImport(done.st, done.uuid, built.unit, Some(done.posted)))
  }

  /** The unit with its details collected, and its payload. */
  datatype BuiltUnit = BuiltUnit(unit: MoObject, payload: Payload)

  /** The part of `import_org_unit` before the handshake: resolve parent and
      unit type, build the details, build the unit's payload. */
  function BuildUnit(st: Importer, unit: MoObject, details: seq<MoObject>): (r: Result<BuiltUnit>)
    requires unit.OrgUnit?
    ensures r.Ok? ==> && ParentKey in r.value.payload
                      && r.value.payload[ParentKey] == UuidRef(ParentOf(st, unit))
                      && OrgUnitTypeKey in r.value.payload
                      && r.value.payload[OrgUnitTypeKey] == UuidRef(MapGet(st.klasseMap, unit.typeRef))
    ensures r.Ok? ==> && r.value.unit.OrgUnit? && |unit.details| <= |r.value.unit.details|
                      && r.value.unit.details[..|unit.details|] == unit.details
  {
    var u1 := Placed(st, unit);
    var built :- BuildDetails(st, details, u1);
    var u2 := u1.(details := u1.details + Somes(built));
    var payload :- BuildOrgUnit(u2);
    Ok(BuiltUnit(u2, payload))
  }

  /** A service that answers every insert with `None`. */
  function NullInsert(p: Payload): Json
  {
    Null
  }

  /** A service that answers with a falsy uuid aborts an otherwise
      successful import with a ConnectionError, and nothing is recorded. */
  lemma FalsyUuidFails(st: Importer, reference: string, unit: MoObject,
                       dumps: Json -> string, search: string -> Search)
    requires unit.OrgUnit? && reference !in st.orgUnitMap && !st.storeIntegrationData
    requires !Truthy(unit.base.uuid) && Truthy(st.organisationUuid) && Truthy(MapGet(st.klasseMap, unit.typeRef))
    ensures ImportOrgUnit(st, reference, unit, [], dumps, search, NullInsert)
            == Err(ConnectionError("Something went wrong"))
  {
    var u1 := Placed(st, unit);
    assert BuildDetails(st, [], u1) == Ok([]);
    var u2 := u1.(details := u1.details + Somes([]));
    assert u2 == u1;
    var payload := BuildOrgUnit(u2);
    assert payload.Ok?;
    UnitWithoutUuid(u2);
    assert IntegrationData(st, reference, payload.value, false, dumps, search) == Ok(Tagged(st, payload.value));
  }

  /** Importing the same reference twice inserts once: the second call
      returns False and leaves the importer as the first left it. */
  lemma ImportOnce(st: Importer, reference: string, unit: MoObject, details: seq<MoObject>,
                   dumps: Json -> string, search: string -> Search, insert: Payload -> Json)
    requires ImportOrgUnit(st, reference, unit, details, dumps, search, insert).Ok?
    ensures var first := ImportOrgUnit(st, reference, unit, details, dumps, search, insert).value;
            ImportOrgUnit(first.st, reference, unit, details, dumps, search, insert)
              == Ok(UnitImport(first.st, Bool(false), unit, None))
  {
  }

  // ---------------------------------------------------------------------------
  // Klasser

  /** A klasse to import: its preset uuid is held as a one-element tuple,
      `Some(u)` standing for `(u,)`. */
  datatype KlasseObject = KlasseObject(kind: Kind, uuid: Option<Json>, facetTypeRef: Json)

  /** What the importer fills in on the klasse before building it. */
  datatype KlasseFill = KlasseFill(organisationUuid: Json, facetUuid: Json, dateFrom: Json, dateTo: Json)

  /** The new klasse uuid and the importer after it. */
  datatype KlasseImport = KlasseImport(st: Importer, uuid: Json)

  /** `import_klasse`, with the comparison of line 204 as a parameter:
      `tupleCompare` compares the found uuid with the tuple itself (never
      equal), otherwise with its element. */
  function ImportKlasseWith(tupleCompare: bool, st: Importer, reference: string, klasse: KlasseObject,
                            build: KlasseFill -> Payload, dumps: Json -> string, search: string -> Search,
                            insert: (Payload, Json) -> Json): (r: Result<KlasseImport>)
    ensures klasse.kind != KlasseKind ==> r == Err(TypeError(GuardMessage(ImportKlasse)))
    ensures klasse.kind == KlasseKind && !Truthy(MapGet(st.facetMap, klasse.facetTypeRef)) ==> r.Err? && r.error.KeyError?
    ensures r.Ok? ==> && r.value.st.klasseMap == st.klasseMap[reference := r.value.uuid]
                      && r.value.st.facetMap == st.facetMap && r.value.st.orgUnitMap == st.orgUnitMap
                      && r.value.st.itsystemMap == st.itsystemMap
    ensures r.Ok? && klasse.uuid.Some? ==> r.value.uuid == klasse.uuid.value
  {
    if klasse.kind != KlasseKind then Err(TypeError(GuardMessage(ImportKlasse)))
    else
      var facetUuid := MapGet(st.facetMap, klasse.facetTypeRef);
      if !Truthy(facetUuid) then Err(KeyError("Facet ref does not exist"))
      else
        var payload := build(KlasseFill(st.organisationUuid, facetUuid, st.dateFrom, st.dateTo));
        var tagged :- IntegrationData(st, reference, payload, true, dumps, search);
        var data := tagged.payload;
        var found :- if UuidKey in data then
                       (if klasse.uuid.None? then Ok(data[UuidKey])
                        else if !tupleCompare && data[UuidKey] == klasse.uuid.value then Ok(data[UuidKey])
                        else Err(AssertionError("found uuid differs from the klasse uuid")))
                     else Ok(if klasse.uuid.None? then Null else klasse.uuid.value);
        var imported := insert(data, found);
        if klasse.uuid.Some? && imported != found then Err(AssertionError("inserted uuid differs from the klasse uuid"))
        else Ok(KlasseImport(tagged.st.(klasseMap := tagged.st.klasseMap[reference := imported]), imported))
  }

  /** `import_klasse` as written. */
  function ImportKlasseAsWritten(st: Importer, reference: string, klasse: KlasseObject,
                                 build: KlasseFill -> Payload, dumps: Json -> string, search: string -> Search,
                                 insert: (Payload, Json) -> Json): (r: Result<KlasseImport>)
    ensures klasse.uuid.Some? && r.Ok? ==>
              var t := IntegrationData(st, reference, build(KlasseFill(st.organisationUuid,
                                       MapGet(st.facetMap, klasse.facetTypeRef), st.dateFrom, st.dateTo)), true, dumps, search);
              t.Ok? && UuidKey !in t.value.payload
  {
    ImportKlasseWith(true, st, reference, klasse, build, dumps, search, insert)
  }

  /** `import_klasse` comparing the found uuid with the tuple's element. */
  function ImportKlasseCorrected(st: Importer, reference: string, klasse: KlasseObject,
                                 build: KlasseFill -> Payload, dumps: Json -> string, search: string -> Search,
                                 insert: (Payload, Json) -> Json): (r: Result<KlasseImport>)
    ensures ImportKlasseAsWritten(st, reference, klasse, build, dumps, search, insert).Ok?
            ==> r == ImportKlasseAsWritten(st, reference, klasse, build, dumps, search, insert)
    ensures klasse.uuid.None? ==> r == ImportKlasseAsWritten(st, reference, klasse, build, dumps, search, insert)
  {
    ImportKlasseWith(false, st, reference, klasse, build, dumps, search, insert)
  }

  /** A klasse builder that leaves the uuid out of its payload. */
  function NoUuidBuild(f: KlasseFill): Payload
  {
    map[]
  }

  /** A search that always finds the one object `u`. */
  function HitSearch(u: Json): string -> Search
  {
    (q: string) => Search([u], Null)
  }

  /** A service that keeps the uuid it is given. */
  function EchoInsert(p: Payload, x: Json): Json
  {
    x
  }

  /** The handshake of a klasse payload without a uuid that finds `u`. */
  lemma KlasseTagged(st: Importer, reference: string, u: Json, dumps: Json -> string)
    requires st.storeIntegrationData
    ensures var t := IntegrationData(st, reference, map[], true, dumps, HitSearch(u));
            t.Ok? && UuidKey in t.value.payload && t.value.payload[UuidKey] == u
            && t.value.st.klasseMap == st.klasseMap && t.value.st.facetMap == st.facetMap
            && t.value.st.orgUnitMap == st.orgUnitMap && t.value.st.itsystemMap == st.itsystemMap
  {
    assert HitSearch(u)(Query(st, reference, dumps)).hits == [u];
  }

  /** A klasse with a preset uuid that an earlier import stored under the
      same uuid: as written, the assertion of line 204 fails. */
  lemma PresetUuidRejected(st: Importer, reference: string, u: Json, dumps: Json -> string)
    requires st.storeIntegrationData && Truthy(MapGet(st.facetMap, Str("f")))
    ensures ImportKlasseAsWritten(st, reference, KlasseObject(KlasseKind, Some(u), Str("f")),
                                  NoUuidBuild, dumps, HitSearch(u), EchoInsert)
            == Err(AssertionError("found uuid differs from the klasse uuid"))
  {
    KlasseTagged(st, reference, u, dumps);
  }

  /** The same import compared with the tuple's element goes through and
      records the preset uuid. */
  lemma PresetUuidKept(st: Importer, reference: string, u: Json, dumps: Json -> string)
    requires st.storeIntegrationData && Truthy(MapGet(st.facetMap, Str("f")))
    ensures var r := ImportKlasseCorrected(st, reference, KlasseObject(KlasseKind, Some(u), Str("f")),
                                           NoUuidBuild, dumps, HitSearch(u), EchoInsert);
            r.Ok? && r.value.uuid == u && r.value.st.klasseMap == st.klasseMap[reference := u]
  {
    KlasseTagged(st, reference, u, dumps);
  }
}
